=== FILE: README.md ===
# Sanchara travel planner — a Dafny model of its core

Sanchara is a Next.js travel planner. A signed-in user describes a trip:
destination, dates, budget, interests and preferences. A language model
then drafts a day-by-day itinerary. The user can store the itinerary, edit
its activities, keep a packing list for it and browse a blog.

This project models the logic at the centre of that application and proves
properties of it. The modelled parts are:

- **Itinerary generator** (`Gemini`, `Fence`, `Replace`, `ReplaceOrder`, `Repair`):
  - the API-key check, the day count and the preference phrases;
  - taking the JSON out of a fenced block in the model's reply;
  - the strict parse, then the five textual repairs and a second parse;
  - the fallback plan built when both parses fail.
- **Packing-list generator** (`PackingGenerator`): the parse path, the
  fallback list, and the scoping defect of its outer error handler.
- **`POST /api/generate-itinerary`** (`GenerateRoute`): authentication,
  validation, defaults, the two inserts, and how errors are classified.
- **Storage service** (`Storage`):
  - itinerary and day queries scoped by id and owner;
  - the read-modify-write activity operations;
  - creating and reading a packing list.
- **Packing-list component** (`PackingView`): categories, progress,
  optimistic toggle and revert, add, delete, the category filter and the
  counts.
- **Create-itinerary page** (`CreateItinerary`): the checkbox handlers and
  what submitting shows for every way the request can end.
- **Route guard** (`Middleware`), **welcome tour** (`WelcomeTour`) and
  **blog lists** (`Blog`).

External services are parameters of the model:

- the language model is a function from prompt to reply or error;
- `JSON.parse` is a function from text to an optional value;
- the database is a value of the tables, with an optional fault per write
  or read;
- `fetch` is the answer it produced.

Dates are day numbers on a continuous count. Budgets are whole numbers, and
`Math.round` is integer rounding half up (`Numbers.RoundDiv`).

Some behaviour of the code differs from what its own comments or names
suggest. The model follows the code:

- **Single-quoted values after a bare key are not repaired.** The comment
  at lib/gemini.ts:135 says the second repair step replaces single quotes
  with double quotes. Its pattern only matches after a key that is already
  double-quoted, and the first step leaves a key written in single quotes
  alone. So `{'a': 'b'}` passes all five steps unchanged
  (`Repair.SingleQuotedObjectNotRepaired`).
- **The tour's flag test is falsy, not absent.** The comment at
  components/onboarding/welcome-tour.tsx:38 speaks of a first visit, but
  line 40 tests `!hasSeenOnboarding`. A stored empty string therefore also
  opens the tour (`WelcomeTour.Mount`).
- **A dismissed tour comes back.** Closing the dialog without Skip or Get
  Started does not set the flag, so the tour shows again on the next visit
  (`WelcomeTour.ReopensOnlyAfterDismissal`).
- **The server client is not awaited in the modelled core.**
  app/api/generate-itinerary/route.ts:8 and lib/storage-service.ts:12 call
  the async `createClient()` without `await`. As written, every request to
  the route ends in the outer catch with 500, and every storage operation
  throws before reaching the database. Several other routes await the
  client (app/api/itineraries/[id]/packing-list/route.ts:12,
  app/api/itineraries/[id]/days/route.ts:7). Three other route files share
  the defect: app/api/itineraries/[id]/route.ts,
  app/api/itineraries/[id]/days/[dayId]/activities/route.ts and
  app/api/profile/route.ts. The unawaited form can never reach the session
  check, so the awaited client is evidently meant. `GenerateRoute.Post` and the
  `Storage` operations model that intended client; the code as written is
  recorded under "## Findings".

Shared helpers live in `Wrappers` (Option, Result), `Text` (string
predicates, ASCII lower-casing, decimal digits), `Seqs` (filter, sort,
de-duplication), `StringOrder` (code-point order) and `Numbers`.

## Model

| member | source | states |
|---|---|---|
| Gemini.Client | lib/gemini.ts:4-12 | The client is built exactly when the key is set and non-empty; otherwise the error carries the fixed missing-key message. |
| Gemini.DayCount | lib/gemini.ts:33 | The day count is the number of calendar days from start to end, both included. |
| Gemini.PromptIgnoresPreferences | lib/gemini.ts:58-64 | Two requests get the same prompt iff they agree on destination, budget, both date texts and the day count: interests, preferences, needs and notes never reach the model. |
| Gemini.ListPhrase | lib/gemini.ts:35-44 | The dietary and accessibility phrases: the neutral phrase iff the list is absent, empty or contains "none"; otherwise the label followed by the items joined with ", ". |
| Gemini.ChoicePhrase | lib/gemini.ts:46-54 | The accommodation and transportation phrases: the neutral phrase iff the value is absent, empty or "any"; otherwise the label followed by the value. |
| Gemini.ChoicePhraseSeparates | lib/gemini.ts:46-54 | Two choices give the same phrase iff both are unnamed (absent, empty or "any") or both name the same value. |
| Gemini.NotesPhrase | lib/gemini.ts:56 | Empty iff the notes are absent or empty; otherwise the label followed by the notes. |
| Gemini.NotesPhraseSeparates | lib/gemini.ts:56 | Two notes give the same phrase iff both are absent or empty, or both are the same text. |
| Gemini.FallbackKind | lib/gemini.ts:162 | The activity type is the first interest exactly when that interest exists and is non-empty, and "sightseeing" otherwise; never empty. |
| Gemini.Fallback | lib/gemini.ts:149-172 | The fallback plan is an object titled "{day count}-Day Adventure in {destination}" (the count may be negative) with max(0, day count) days; day i has number i+1, is dated i days after the start and is described as "Day {i+1} in {destination}". |
| Gemini.FallbackActivities | lib/gemini.ts:160-169 | Every fallback day has exactly one activity: "Explore {destination}", described as "Spend the day exploring the highlights of {destination}.", of the fallback type, at 09:00, with the explore link, costing the budget over 3n, rounded. |
| Gemini.FallbackSpendsAThird | lib/gemini.ts:166 | The total cost t of the fallback plan satisfies 6t - 3n <= 2·budget < 6t + 3n: about a third of the budget. |
| Gemini.FallbackDescriptionsDistinct | lib/gemini.ts:159 | Any two fallback days have different descriptions, because the day number reads back from "Day {i+1} in …". |
| Gemini.FallbackTitleNamesDayCount | lib/gemini.ts:152 | The fallback title is the decimal day count, then "-Day Adventure in ", then the destination; the digits parse back to the count. An end date before the start gives a leading minus sign, since nothing checks the order of the dates. |
| Gemini.ParseOrFallback | lib/gemini.ts:123-173 | The strict parse wins; else the parse of the repaired text; else the fallback plan. |
| Gemini.GenerateFails | lib/gemini.ts:175-178 | Generation fails iff the key is missing or the model call fails, and with exactly that error; parsing never makes it fail. |
| Gemini.StrictParseWins | lib/gemini.ts:123-125 | When the candidate parses strictly, the result is that value whatever the repaired text would parse to. |
| Gemini.FallbackOnlyAfterBothFail | lib/gemini.ts:123-173 | A successful result is the strict parse, or the repaired parse after a strict failure, or the fallback after both fail. |
| Gemini.UnfencedReplyParsedWhole | lib/gemini.ts:115-121 | A reply without backtick fences is parsed as the whole text. |
| Fence.Capture | lib/gemini.ts:118 | No capture iff there is no closing fence or only whitespace precedes the first one. A capture is a non-empty, fence-free prefix of the text that does not end in whitespace, and only whitespace lies between it and the first closing fence. |
| Fence.ExtractCandidate | lib/gemini.ts:115-121 | Without a fence the reply is the candidate; otherwise the candidate is the reply, or a trimmed, fence-free substring of it. |
| Fence.ExtractWrapped | lib/gemini.ts:118-121 | A body in a well-formed fence, tagged json or untagged, with any whitespace and any backtick-free text before it, is extracted exactly. |
| Fence.ExtractJsonFence | lib/gemini.ts:118-121 | The reply "```json\n{…}\n```" yields exactly the JSON inside. |
| Replace.NoMatch | lib/gemini.ts:132-142 | A global replace whose pattern matches nowhere returns the text unchanged. |
| Replace.CopiesPrefix | lib/gemini.ts:132-142 | A prefix in which no match starts is copied unchanged before the scan goes on. |
| Replace.Preserves | lib/gemini.ts:132-142 | A reading that splits over concatenation and is unchanged by every single replacement is unchanged by the whole replace. |
| ReplaceOrder.Shrinks | lib/gemini.ts:132-142 | When every replacement is a subsequence of the text it matches, the whole result is a subsequence of the input. |
| ReplaceOrder.Grows | lib/gemini.ts:132-142 | When every match is a subsequence of its replacement, the input is a subsequence of the whole result. |
| Repair.MatchBareKey | lib/gemini.ts:134 | A reported match has the step-1 shape: an opener, whitespace, a word key, whitespace and a colon. |
| Repair.MatchBareKeyComplete | lib/gemini.ts:134 | Every occurrence of the step-1 shape is found, with exactly its bounds. |
| Repair.QuoteKeysOnlyInsertsQuotes | lib/gemini.ts:134 | Step 1 only inserts double quotes: the input is a subsequence of the output, and deleting every `"` from both gives the same text. |
| Repair.QuoteKeysQuotesKey | lib/gemini.ts:134 | A bare key at the front is wrapped in double quotes, and the scan resumes after its colon. |
| Repair.QuoteKeysNoBareKey | lib/gemini.ts:134 | Text with no bare key anywhere passes step 1 unchanged. |
| Repair.QuoteKeysSkipsQuotedOpeners | lib/gemini.ts:134 | When every `{` or `,` is directly followed by `'`, step 1 changes nothing. |
| Repair.MatchSingleQuoted | lib/gemini.ts:136 | A reported match has the step-2 shape: a double-quoted word key, a colon, then a single-quoted value ending at the first closing quote. |
| Repair.MatchSingleQuotedComplete | lib/gemini.ts:136 | Every occurrence of the step-2 shape is found, with exactly its positions. |
| Repair.SingleToDoubleKeepsNormal | lib/gemini.ts:136 | Step 2 changes only whitespace and the kind of quote: both texts read alike once whitespace is dropped and `'` is read as `"`. |
| Repair.SingleToDoubleNoSingleQuote | lib/gemini.ts:136 | Without single quotes step 2 changes nothing. |
| Repair.SingleToDoubleNoDoubleQuote | lib/gemini.ts:136 | Without double quotes step 2 changes nothing: it never repairs a single-quoted key. |
| Repair.MatchTrailingComma | lib/gemini.ts:138 | A reported match is a comma followed only by whitespace up to a `}` or `]`. |
| Repair.RemoveTrailingCommasOnlyCommas | lib/gemini.ts:138 | Step 3 deletes commas and nothing else. |
| Repair.RemoveTrailingCommasIsReference | lib/gemini.ts:138 | Step 3 equals the position-by-position reference, which drops exactly the commas followed, across whitespace, by a closing bracket. |
| Repair.ReferenceDropsComma | lib/gemini.ts:138 | Where step 3 matches, the reference drops the comma and keeps the whitespace and the bracket. |
| Repair.RemoveTrailingCommasNoComma | lib/gemini.ts:138 | Without commas step 3 changes nothing. |
| Repair.StripLineCommentsKeepsLines | lib/gemini.ts:140 | Step 4 keeps every line terminator, so the text keeps its lines. |
| Repair.StripLineCommentsShape | lib/gemini.ts:140 | Text not starting with `//` keeps its first character. Text starting with `//` loses the rest of that line, so the output is empty or starts at the line terminator. No `//` is left. |
| Repair.StripLineCommentsNoneLeft | lib/gemini.ts:140 | After step 4 no `//` is left anywhere. |
| Repair.StripLineCommentsCutsLinks | lib/gemini.ts:140 | Step 4 does not know string literals: a line holding "https://…" is cut right after "https:". |
| Repair.SlashFreeCopied | lib/gemini.ts:140 | Text without `/` is copied by step 4 and the scan continues after it. |
| Repair.MatchBlockComment | lib/gemini.ts:142 | A reported block comment starts with `/*` and is at least four characters long. |
| Repair.StripBlockCommentsNoOpener | lib/gemini.ts:142 | Without a `/*` opener step 5 changes nothing. |
| Repair.StripBlockCommentsOnlyDeletes | lib/gemini.ts:142 | Step 5 only deletes: its output is a subsequence of its input. |
| Repair.StripBlockCommentsRemovesComment | lib/gemini.ts:142 | A closed comment at the front is removed up to its first closer, and the rest is processed on its own. |
| Repair.FirstCloser | lib/gemini.ts:142 | The lazy comment body ends at the first closing `*/`. |
| Repair.RepairKeepsSingleQuotedKeys | lib/gemini.ts:132-142 | Text with no `"`, `,` or `/`, whose every `{` is followed by `'`, passes all five steps unchanged. |
| Repair.SingleQuotedObjectNotRepaired | lib/gemini.ts:132-142 | The object {'a': 'b'} comes out of the repair exactly as it went in. |
| PackingGenerator.PackingPromptReflectsRequest | lib/packing-list-generator.ts:35-57 | Every request field reaches the packing prompt: two requests get the same prompt iff they agree on destination, date texts, duration and joined interests, and their accommodation, transportation and notes read the same once absent, empty or "any" counts as none. |
| PackingGenerator.FallbackShape | lib/packing-list-generator.ts:127-206 | The fallback lists the five categories and fifteen unpacked items, each in one of those categories; all are essential except the water bottle. |
| PackingGenerator.FallbackQuantities | lib/packing-list-generator.ts:131-202 | Fifteen items. Shirts and socks: min(d, 7). Underwear: min(d+2, 10). Trousers: ceil(d/3). Cards: 2. Every other item: 1. All unpacked, all essential except the water bottle, and only the passport has a note. |
| PackingGenerator.FallbackQuantitiesPositive | lib/packing-list-generator.ts:131-202 | For a trip of at least one day every quantity is at least one. |
| PackingGenerator.FallbackIgnoresDestination | lib/packing-list-generator.ts:127-206 | The same duration gives the same fallback list, whatever the destination. |
| PackingGenerator.Unpacked | lib/packing-list-generator.ts:106-109 | Every parsed item comes back unpacked, with its other fields and its position kept. |
| PackingGenerator.ParsedReply | lib/packing-list-generator.ts:101-114 | A parsed reply is used only when it has an items array; otherwise its `.map` throws and the fallback follows. |
| PackingGenerator.MissingKeyThrowsAsWritten | lib/packing-list-generator.ts:121-124 | As written, a missing key makes the outer handler throw a ReferenceError instead of returning the fallback list. |
| PackingGenerator.Generate | lib/packing-list-generator.ts:17-124 | The intended generator never fails: a missing key gives the fallback list for the trip's duration. |
| PackingGenerator.GenerateOutcomes | lib/packing-list-generator.ts:101-124 | The result is the parsed list with every item unpacked when a usable parse exists, and the fallback list otherwise. |
| PackingGenerator.AsWrittenAgreesOnAnswers | lib/packing-list-generator.ts:101-124 | Once the model has answered, the written and the intended generator agree; when the key or the model call fails, the written one throws. |
| GenerateRoute.TextOr | app/api/generate-itinerary/route.ts:66-70 | `x \|\| d`: a truthy text is kept; an absent or empty one becomes the default. |
| GenerateRoute.RecordOf | app/api/generate-itinerary/route.ts:55-71 | The stored row defaults accommodation and transportation to "any", preferences and needs to [], and notes to "". |
| GenerateRoute.DayRows | app/api/generate-itinerary/route.ts:81-87 | One row per generated day, in order, copying its fields under the new itinerary's id. |
| GenerateRoute.DayRowsRoundTrip | app/api/generate-itinerary/route.ts:81-87 | Reading the day fields back off the rows gives exactly the generated days. |
| GenerateRoute.Classify | app/api/generate-itinerary/route.ts:103-121 | 429 with the busy message iff the error mentions "rate limit" or "quota"; 500 with the generic message otherwise. |
| GenerateRoute.UnawaitedClientAnswersOnly500 | app/api/generate-itinerary/route.ts:6-16 | As written, with the client not awaited, the handler agrees with the intended one only for a signed-in request whose body cannot be read; a request without a session gets 500 instead of 401, and no request gets 400, 429 or 200. |
| GenerateRoute.Generated | app/api/generate-itinerary/route.ts:36-122 | Past validation the status is 200, 429 or 500. It is 200 iff there is no error, and then the answer has the saved row, the days and two writes. A 429 comes only from a generator error, with no writes. The writes are at most the itinerary insert for the asking user and destination, followed by the days insert. |
| GenerateRoute.NoSessionIsUnauthorized | app/api/generate-itinerary/route.ts:14-16 | Without a session: 401 "Unauthorized" with no writes, and swapping the generator changes nothing. |
| GenerateRoute.InvalidIsBadRequest | app/api/generate-itinerary/route.ts:32-34 | A falsy required field gives 400 "Missing required fields" with no writes, and swapping the generator changes nothing. |
| GenerateRoute.ZeroBudgetRejectedEmptyInterestsAccepted | app/api/generate-itinerary/route.ts:32-34 | A zero budget is rejected; an empty interest list passes validation. |
| GenerateRoute.GeneratorUsedIffAdmitted | app/api/generate-itinerary/route.ts:14-49 | For a request without a session, without a body or with an invalid body, swapping the generator changes nothing. A generator reporting an exhausted quota gives 429 iff the request is signed in with a valid body. |
| GenerateRoute.NullPlanWritesNothing | app/api/generate-itinerary/route.ts:55-59 | A plan that parsed to null throws on reading its title before any insert: 500 with the generic message and no writes. |
| GenerateRoute.ItineraryInsertFailureWritesNoDays | app/api/generate-itinerary/route.ts:75-78 | A failed itinerary insert answers 500 and no day row is written. |
| GenerateRoute.DaysInsertFailureKeepsItinerary | app/api/generate-itinerary/route.ts:89-94 | A failed days insert answers 500 after both writes; the itinerary row is not rolled back. |
| GenerateRoute.SuccessReturnsGeneratedDays | app/api/generate-itinerary/route.ts:96-102 | A 200 answer carries the saved row and the generated days, which are also what was written. |
| GenerateRoute.GenerationErrorStatus | app/api/generate-itinerary/route.ts:103-121 | A generator error answers 429 iff its message mentions a rate limit or quota, otherwise 500, with no writes. |
| GenerateRoute.MissingDaysAfterInsert | app/api/generate-itinerary/route.ts:81-87 | A plan without days is caught after the itinerary insert: 500 with the generic message, and the itinerary stays. |
| GenerateRoute.TypeErrorsAreNotBusy | app/api/generate-itinerary/route.ts:107 | Neither TypeError the handler can meet (the missing days, the null plan) classifies as a rate limit: both give 500. |
| Storage.Single | lib/storage-service.ts:111-120 | `.single()` succeeds iff exactly one row matched, and then returns it; otherwise error PGRST116. |
| Storage.Appended | lib/storage-service.ts:171 | The copy holds the old activities in place followed by the new one. |
| Storage.SetAt | lib/storage-service.ts:182-183 | Assigning in range replaces one entry. Assigning past the end, up to the largest array index 2^32 - 2, pads with holes up to the index. A negative index, or one above the largest array index, is not an element and leaves the list as it was. |
| Storage.SpliceStart | lib/storage-service.ts:195 | A start within the list is kept and one past the end is clamped to the length. A negative start counts from the end and is clamped to 0 below it. |
| Storage.SpliceOne | lib/storage-service.ts:194-195 | In range, exactly the entry at the index is removed; at or past the end, nothing changes; a negative index removes the entry that many places from the end, or the first entry when it reaches past the start. |
| Storage.DeleteUndoesAdd | lib/storage-service.ts:166-199 | Deleting at the index just appended, or at -1, gives the list back. |
| Storage.SetSameIsIdentity | lib/storage-service.ts:177-187 | Writing back the entry already at an index changes nothing. |
| Storage.DeleteRemovesOne | lib/storage-service.ts:189-199 | Deleting in range removes exactly one occurrence of that entry. |
| Storage.OwnedItineraries | lib/storage-service.ts:49-55 | The query keeps exactly the rows with that id and owner. |
| Storage.GetItinerary | lib/storage-service.ts:49-59 | A database fault is thrown as it is. Without one the read succeeds iff exactly one row has that id and owner, and returns that stored row; otherwise it fails with PGRST116. |
| Storage.UpdateItinerary | lib/storage-service.ts:76-90 | A fault is thrown and changes nothing. Without one, exactly the rows with that id and owner are patched and the call succeeds iff there was exactly one. Every other row and table is unchanged. |
| Storage.DeleteItinerary | lib/storage-service.ts:92-97 | A fault is thrown and changes nothing. Without one, exactly the rows with that id and owner go and the rest stay in order. |
| Storage.ForeignItineraryUntouched | lib/storage-service.ts:49-97 | Another user's itinerary cannot be read, changed or deleted through its id, whether or not the database faults. |
| Storage.GetDay | lib/storage-service.ts:111-121 | A fault is thrown as it is. Without one the read succeeds iff exactly one day has that id and itinerary, and returns that stored day; otherwise it fails with PGRST116. |
| Storage.UpdateDay | lib/storage-service.ts:138-152 | A fault is thrown and changes nothing. Without one, exactly the matching day rows get the new activities and the call succeeds iff there was exactly one; the returned row has them. |
| Storage.DeleteDay | lib/storage-service.ts:154-163 | A fault is thrown and changes nothing. Without one, exactly the day rows with that id and itinerary go and the rest stay in order. |
| Storage.ForeignDayKept | lib/storage-service.ts:111-163 | A day of another itinerary is neither read, changed nor deleted through its id, whether or not the database faults. |
| Storage.Rewrite | lib/storage-service.ts:166-199 | A missing day or a refused read throws before anything is written; otherwise the edited list of the stored day is written back, under the write's own fault. |
| Storage.ReorderActivities | lib/storage-service.ts:201-204 | The given list is written as it is into every matching day of the table, with no read and no permutation check; the day comes back iff exactly one matched; a fault is thrown and changes nothing. |
| Storage.ReorderedDayReadsBack | lib/storage-service.ts:201-204 | After a reorder, reading the day back gives the stored day with exactly the written list, which is also what the reorder returned. |
| Storage.AddActivityAppends | lib/storage-service.ts:166-175 | Adding appends the activity to that day and leaves every other day unchanged. |
| Storage.ActivityFaultsWriteNothing | lib/storage-service.ts:166-175 | A refused read throws before anything is written; a refused write after a successful read throws and leaves the tables as they were. |
| Storage.UpdatedDayIsRead | lib/storage-service.ts:138-152 | After an update, the returned day is the stored day with the new activities. |
| Storage.UpdateActivityReplaces | lib/storage-service.ts:177-187 | Updating in range keeps the length, replaces that index and keeps the others. |
| Storage.UpdateActivityPastLastIndex | lib/storage-service.ts:177-187 | Updating at an index above 2^32 - 2 writes the day back with its activities unchanged, because JSON drops the non-index property. |
| Storage.DeleteActivityRemoves | lib/storage-service.ts:189-199 | Deleting in range gives the activities before and after that index, in order. |
| Storage.ForeignDayUntouched | lib/storage-service.ts:166-175 | Adding to a day that is not in the itinerary throws PGRST116 and writes nothing. |
| Storage.ItemLeqTotal | lib/storage-service.ts:244-245 | Ordering by category, then name, is total. |
| Storage.OrderedItems | lib/storage-service.ts:240-245 | The items read back are exactly the list's items, sorted by category, then name. |
| Storage.GetPackingList | lib/storage-service.ts:222-254 | Without faults it returns null iff there is not exactly one list for the itinerary and user; a list has its items, sorted. |
| Storage.ReadFaultClassified | lib/storage-service.ts:231-237 | PGRST116 on the list read gives null; any other error is thrown. |
| Storage.UnawaitedClientFailsEverything | lib/storage-service.ts:11-12 | As written, with the client not awaited, every itinerary, day, activity and packing-list operation throws at its first statement and leaves the tables as they were, so an owned itinerary that the awaited client reads is never read. |
| Storage.ItemRows | lib/storage-service.ts:273-283 | One row per item, in order, under the new list id, copying name, category, quantity, flags and notes. |
| Storage.InsertPackingList | lib/storage-service.ts:256-288 | A failed list insert changes nothing. An empty item list writes no item rows. A failed items insert leaves the list row in place and throws. |
| Storage.CreatePackingList | lib/storage-service.ts:256-291 | A failed insert makes the whole call fail. |
| Storage.CreateThenRead | lib/storage-service.ts:256-291 | The first list of an itinerary reads back with the new id and exactly the inserted rows. |
| Storage.SecondCreateReturnsNull | lib/storage-service.ts:256-291 | A second list for the same itinerary and user is written, but the read finds two rows and returns null. |
| PackingView.Categories | components/packing-list/packing-list.tsx:72-75 | The categories are sorted, free of duplicates, and are exactly the categories of the items. |
| PackingView.Fetched | components/packing-list/packing-list.tsx:68-78 | A fetched list replaces the items and recomputes the categories; no list clears the items. |
| PackingView.Generated | components/packing-list/packing-list.tsx:113-121 | A generated list replaces items and categories; no list changes nothing. |
| PackingView.Progress | components/packing-list/packing-list.tsx:90-102 | For a non-empty list of n items with p packed, the progress r is in [0, 100] and is the percentage rounded half up: 2nr - n <= 200p < 2nr + n. For no list or an empty one the previous value stays. |
| PackingView.ProgressExactShare | components/packing-list/packing-list.tsx:91-93 | When the packed share is a whole percentage q, the bar reads exactly q; one of four packed reads 25. |
| PackingView.ProgressEnds | components/packing-list/packing-list.tsx:91-93 | The bar reads 0 iff under half a percent is packed, and 100 iff at least 99.5% is; nothing packed gives 0 and everything packed gives 100. |
| PackingView.SetPacked | components/packing-list/packing-list.tsx:133-135 | Items with that id get the flag; every other item is unchanged; no list stays no list. |
| PackingView.Toggle | components/packing-list/packing-list.tsx:133-135 | The optimistic update sets the negation of the shown value on the items with that id. |
| PackingView.Revert | components/packing-list/packing-list.tsx:149-151 | The revert writes the shown value back on the items with that id. |
| PackingView.RevertRestores | components/packing-list/packing-list.tsx:133-151 | When the checkbox showed the real flag, toggle then revert gives back the original list. |
| PackingView.ToggleOnlyFlag | components/packing-list/packing-list.tsx:133-135 | The toggle keeps the length, touches no other item and changes no other field. |
| PackingView.AddRequest | components/packing-list/packing-list.tsx:161-165 | Nothing is sent iff the name or the chosen category is empty; the custom category wins while its box is shown. |
| PackingView.WithCategory | components/packing-list/packing-list.tsx:185-187 | A known category leaves the list alone; a new one is added and the list re-sorted. |
| PackingView.AddItem | components/packing-list/packing-list.tsx:180-199 | A successful add appends the item, updates the categories and resets the form; otherwise the state is unchanged. |
| PackingView.AddAppends | components/packing-list/packing-list.tsx:182 | The earlier items stay in place and the new item is last. |
| PackingView.Without | components/packing-list/packing-list.tsx:220 | The remaining items are exactly those with another id, in order. |
| PackingView.DeleteItem | components/packing-list/packing-list.tsx:211-223 | The items with that id go and the categories are recomputed from the rest. |
| PackingView.DeleteFailed | components/packing-list/packing-list.tsx:224-232 | After a failed delete the re-fetched list, if any, replaces the items; the categories are kept. |
| PackingView.DeleteLeavesNoTrace | components/packing-list/packing-list.tsx:211-222 | After a delete no item has that id, and every category left names a remaining item. |
| PackingView.Filtered | components/packing-list/packing-list.tsx:236-240 | The "all" tab shows the whole list; any other tab shows exactly that category's items, in order; no list shows nothing. |
| PackingView.CategoryCount | components/packing-list/packing-list.tsx:243-245 | The count is the number of items in that category, and 0 without a list. |
| PackingView.PackedCategoryCount | components/packing-list/packing-list.tsx:248-250 | The count is the number of packed items in that category, and 0 without a list. |
| PackingView.PackedAtMostCount | components/packing-list/packing-list.tsx:243-250 | A category never has more packed items than items. |
| PackingView.CountsAddUp | components/packing-list/packing-list.tsx:243-250 | Summed over the derived categories, the item counts equal the length of the list. |
| CreateItinerary.ToggleInterest | app/create-itinerary/page.tsx:90-92 | The clicked interest's membership flips; every other interest keeps its membership; a newly selected interest is appended after the earlier selection. |
| CreateItinerary.ToggleInterestTwice | app/create-itinerary/page.tsx:90-92 | Clicking an unselected interest twice gives the selection back. |
| CreateItinerary.ChoosePreference | app/create-itinerary/page.tsx:94-128 | "none" selects exactly ["none"]. Any other option removes "none" and flips its own membership; the rest keep theirs. |
| CreateItinerary.ChooseKeepsCoherent | app/create-itinerary/page.tsx:94-128 | A click keeps a selection either ["none"] or free of "none" and of duplicates. |
| CreateItinerary.ClicksStayCoherent | app/create-itinerary/page.tsx:94-128 | From an empty selection, any clicks leave it ["none"] or free of "none" and of duplicates. |
| CreateItinerary.NoneCannotBeCleared | app/create-itinerary/page.tsx:95-96 | Clicking "none" while it is selected keeps it selected. |
| CreateItinerary.FailureToast | app/create-itinerary/page.tsx:186-192 | The failure toast is destructive and shows the thrown message, or a generic one when that is empty. |
| CreateItinerary.ErrorMessage | app/create-itinerary/page.tsx:170-175 | 429 gives the busy message. Otherwise the server's error text when present, else "Failed to generate itinerary". |
| CreateItinerary.Submit | app/create-itinerary/page.tsx:131-196 | Every submission starts by setting 10 and then 30. |
| CreateItinerary.SubmitProgressRises | app/create-itinerary/page.tsx:135-177 | The progress values are a prefix of 10, 30, 70, 90, 100 and rise strictly. |
| CreateItinerary.NavigatesOnlyOnSuccess | app/create-itinerary/page.tsx:177-185 | The page navigates iff an OK response carries an itinerary object: to the page of its id (or "undefined"), after the success toast, with progress at 100. |
| CreateItinerary.IncompleteSuccess | app/create-itinerary/page.tsx:179-185 | An OK body whose itinerary has no id navigates to /itinerary/undefined. A missing or null itinerary shows the success toast, then the failure toast of the TypeError, and does not navigate. |
| CreateItinerary.FailureMessages | app/create-itinerary/page.tsx:170-175 | A 429 shows the busy message whatever the body says; another failure shows the server's text, or the default. |
| CreateItinerary.BusyMessageAgrees | app/create-itinerary/page.tsx:172 | The page's busy message is the one the route sends with its 429. |
| CreateItinerary.FailureAlwaysExplained | app/create-itinerary/page.tsx:186-192 | A run that does not navigate ends with a destructive toast with a non-empty description. |
| Middleware.Decide | middleware.ts:35-46 | Redirect iff there is no session and the path is protected; the redirect goes to /login with redirectedFrom set to the path. |
| Middleware.SessionPasses | middleware.ts:35-46 | With a session every request passes. |
| Middleware.ProtectedExtends | middleware.ts:37-39 | Any extension of a protected path is protected. |
| Middleware.PrefixExamples | middleware.ts:35-46 | Without a session, /itinerary-x and /dashboardX redirect, while / and /api/itineraries pass. |
| WelcomeTour.Mount | components/onboarding/welcome-tour.tsx:37-43 | The dialog opens iff the stored flag is falsy (absent or empty), at step 0. |
| WelcomeTour.Next | components/onboarding/welcome-tour.tsx:45-51 | Below the last step, Next advances by one; on the last step it closes the tour. |
| WelcomeTour.Close | components/onboarding/welcome-tour.tsx:53-56 | Closing stores "true" and hides the dialog without resetting the step. |
| WelcomeTour.Dismiss | components/onboarding/welcome-tour.tsx:59 | The dialog's own close request hides it and leaves the flag and the step alone. |
| WelcomeTour.ApplyKeepsStep | components/onboarding/welcome-tour.tsx:45-59 | No event moves the step out of the four steps. |
| WelcomeTour.RunKeepsStep | components/onboarding/welcome-tour.tsx:45-59 | Whatever is clicked, the step shown stays in [0, 3]. |
| WelcomeTour.FourNextsFinish | components/onboarding/welcome-tour.tsx:37-56 | Four Nexts from a fresh tour end closed on the last step with the flag stored, and the next mount stays closed. |
| WelcomeTour.ReopensOnlyAfterDismissal | components/onboarding/welcome-tour.tsx:37-59 | After Skip or Get Started the tour stays away; after a dismissal it opens again on the next mount. |
| WelcomeTour.Label | components/onboarding/welcome-tour.tsx:80 | "Next" iff the step is below the last, otherwise "Get Started". |
| WelcomeTour.Dots | components/onboarding/welcome-tour.tsx:67-72 | There are four dots, and dot i is highlighted iff i is the current step. |
| WelcomeTour.OneDot | components/onboarding/welcome-tour.tsx:67-72 | On every step exactly one dot is highlighted. |
| Blog.Featured | app/blog/page.tsx:102 | The featured posts are exactly those marked featured, in order. |
| Blog.AnyTag | app/blog/page.tsx:108 | True iff some tag contains the query, ignoring ASCII case. |
| Blog.Search | app/blog/page.tsx:103-110 | An empty query gives all posts. Otherwise a post is kept iff its title, excerpt or a tag contains the query, ignoring case, and order is kept. |
| Blog.MatchingPosts | app/blog/page.tsx:104-109 | Exactly the matching posts, in order. |
| Blog.EmptyQueryMatchesAll | app/blog/page.tsx:103-110 | The empty query matches every post, so its shortcut returns what filtering would. |
| Blog.SearchIgnoresCase | app/blog/page.tsx:105-108 | Lower-casing the query does not change the results. |
| Blog.Tab | app/blog/page.tsx:210 | "All" shows every post; any other tab shows exactly the posts of that category, in order. |
| Blog.BrowsingShowsEverything | app/blog/page.tsx:139-210 | With an empty query the list and the "All" tab show every post, and the featured posts are among them in order. |
| Blog.ResultWord | app/blog/page.tsx:253 | "result" iff the count is 1, otherwise "results". |
| Blog.CountLine | app/blog/page.tsx:250-253 | The count line uses the singular iff exactly one post is listed, and every listed post matches the query. |

## Left out

- The language model, the database, authentication and `fetch` are parameters. Their own behaviour is not modelled: no SDK errors beyond an error value, no row-level security, no network.
- `JSON.parse` is a parameter. The model does not decide which texts are valid JSON, so "the repaired text parses" is a premise, never a conclusion.
- Prompt prose is left out. A prompt is the record of the values it interpolates.
- Dates are day numbers. `new Date`, time zones, `setDate` and `toISOString` are not modelled, so the fallback's date text is not produced.
- Budgets are whole numbers. `Number.parseFloat` and floating-point rounding are replaced by integer division rounded half up.
- Lower-casing covers ASCII letters only. `toLowerCase` on other scripts is not modelled.
- Strings are compared by Unicode code point. `sort()` compares UTF-16 code units and `order by` uses the database collation. Code units and code points order differently only when a character above U+FFFF meets one from U+E000 to U+FFFF.
- PackingView.Progress: rounds the exact quotient half up, while the source rounds a floating-point quotient. The two can differ: with 23 of 40 items packed, `Math.round((23 / 40) * 100)` is 57, because the double is just below 57.5, but the model gives 58.
- Timers are not modelled: the 90-second abort, the 300 ms progress delay, `finally` blocks and the loading flags. An abort is one more way `fetch` fails.
- React rendering, animation and the matcher regex of the route guard (middleware.ts:58) are not modelled.
- `localStorage` is one optional text.
- The blog's sample posts are not modelled; the lists work on any posts.
- Storage operations outside the core are not modelled: profiles, listing itineraries and days, creating an itinerary or a day, the complete-itinerary join, and the single packing-item update, add and delete.
- Updates patch only what the callers send. An itinerary update is a patch function, and a day update sets its activities. `updated_at` and `created_at` are not stored.
- Activity indices are integers. A non-numeric index, and the NaN it would give, is not modelled.
- Storage.SetAt: an index far past the end but within the largest array index pads the list with that many holes; the source's serialisation of such a list exceeds the engine's string limit and throws, which the model does not show.
- The texts of the `TypeError`s are the ones current engines print: `.map` read from undefined, `.title` read from null, `.id` read from undefined or null, and the call of the missing `this.supabase.from`. Other engines' wording is not modelled.
- Gemini.Generate: has no contract of its own; GenerateFails, StrictParseWins and FallbackOnlyAfterBothFail state its behaviour.
- Fence.ExtractCandidate: its own contract is the general shape of the candidate. The exact capture is stated only for well-formed fences (ExtractWrapped); backticks before the fence or inside the body are not characterised.
- Storage.CreatePackingList: its own contract covers only error propagation; CreateThenRead and SecondCreateReturnsNull state the successful outcomes.
- Storage.CreateThenRead: states the items read back as a multiset; their order is the sort that Storage.GetPackingList states.
- CreateItinerary.Submit: its own contract covers the first two progress values; the lemmas after it state the toasts, the navigation and the remaining values.

## Findings

| source | as written | input that shows it | evidently intended | confidence | as-written member | corrected member |
|---|---|---|---|---|---|---|
| lib/packing-list-generator.ts:121-124 | The outer `catch` calls the fallback with `tripDuration`, a `const` declared inside the `try` block (line 32), so it is not in scope there and the call throws a ReferenceError. | No `GEMINI_API_KEY` (or a failing model call): `getGeminiClient` throws before any list exists, and the handler rethrows "tripDuration is not defined". | Every error ends in the fallback list for the trip's duration, as the handler's own comment and the inner fallback show. | not executed | PackingGenerator.MissingKeyThrowsAsWritten | PackingGenerator.GenerateOutcomes |
| app/api/generate-itinerary/route.ts:8 | The async `createClient()` is called without `await`, so `supabase.auth` is `undefined` and `supabase.auth.getSession()` throws a TypeError inside the outer `try`. | Any request, signed in or not: the outer catch (lines 123-126) answers 500 "Failed to generate itinerary". | Await the client, as several other routes do (app/api/itineraries/[id]/packing-list/route.ts:12); three other route files share the defect. Then: 401 without a session, 400 for missing fields, then generation. | not executed | GenerateRoute.UnawaitedClientAnswersOnly500 | GenerateRoute.GeneratorUsedIffAdmitted |
| lib/storage-service.ts:12 | The `supabase` field holds the promise of the unawaited async `createClient()`, so every `this.supabase.from(...)` throws a TypeError. | `getItinerary` for an itinerary the user owns: it throws "this.supabase.from is not a function" instead of returning the row. | An awaited client, so each query reaches the database. | not executed | Storage.UnawaitedClientFailsEverything | Storage.GetItinerary |

=== FILE: blog.dfy ===
/** The post lists of app/blog/page.tsx: featured posts, the
    case-insensitive search over title, excerpt and tags, the category
    tabs, and the result-count wording. */
module Blog {
  import opened Text
  import Seqs

  datatype Post = Post(id: int, title: string, excerpt: string, category: string, featured: bool, tags: seq<string>)

  /** `posts.filter(post => post.featured)`. */
  function Featured(posts: seq<Post>): (r: seq<Post>)
    ensures forall p :: p in r <==> p in posts && p.featured
    ensures Seqs.IsSubsequence(r, posts)
  {
    Seqs.Filter(posts, (p: Post) => p.featured)
  }

  /** `haystack.toLowerCase().includes(query.toLowerCase())`. */
  predicate Mentions(haystack: string, query: string) {
    Contains(Lower(haystack), Lower(query))
  }

  /** `tags.some(tag => Mentions(tag, query))`. */
  function AnyTag(tags: seq<string>, query: string): (b: bool)
    ensures b <==> exists i | 0 <= i < |tags| :: Mentions(tags[i], query)
  {
    if |tags| == 0 then false
    else Mentions(tags[0], query) || (assert forall i | 1 <= i < |tags| :: tags[i] == tags[1..][i - 1]; AnyTag(tags[1..], query))
  }

  predicate Matches(p: Post, query: string) {
    Mentions(p.title, query) || Mentions(p.excerpt, query) || AnyTag(p.tags, query)
  }

  /** `filteredPosts`: every post for an empty query, else the posts the
      query matches, in their order. */
  function Search(posts: seq<Post>, query: string): (r: seq<Post>)
    ensures query == "" ==> r == posts
    ensures query != "" ==> forall p :: p in r <==> p in posts && Matches(p, query)
    ensures Seqs.IsSubsequence(r, posts)
  {
    if query == "" then Seqs.SubsequenceOfSelf(posts); posts else MatchingPosts(posts, query)
  }

  function MatchingPosts(posts: seq<Post>, query: string): (r: seq<Post>)
    ensures forall p :: p in r <==> p in posts && Matches(p, query)
    ensures Seqs.IsSubsequence(r, posts)
  {
    Seqs.Filter(posts, (p: Post) => Matches(p, query))
  }

  /** The empty query matches every post anyway, so its shortcut returns
      what filtering would. */
  lemma EmptyQueryMatchesAll(posts: seq<Post>)
    ensures MatchingPosts(posts, "") == Search(posts, "")
  {
    forall p | p in posts
      ensures Matches(p, "")
    {
      assert StartsWith(Lower(p.title), Lower(""));
    }
    Seqs.FilterKeepsAll(posts, (p: Post) => Matches(p, ""));
  }

  /** The search ignores the case of ASCII letters in the query. */
  lemma SearchIgnoresCase(posts: seq<Post>, query: string)
    ensures Search(posts, Lower(query)) == Search(posts, query)
  {
    LowerIdempotent(query);
    if query != "" {
      assert |Lower(query)| == |query|;
      forall p | p in posts
        ensures Matches(p, Lower(query)) == Matches(p, query)
      {
      }
      Seqs.FilterAgrees(posts, (p: Post) => Matches(p, Lower(query)), (p: Post) => Matches(p, query));
    }
  }

  /** The posts a category tab shows. */
  function Tab(posts: seq<Post>, tab: string): (r: seq<Post>)
    ensures tab == "All" ==> r == posts
    ensures tab != "All" ==> forall p :: p in r <==> p in posts && p.category == tab
    ensures Seqs.IsSubsequence(r, posts)
  {
    if tab == "All" then Seqs.SubsequenceOfSelf(posts); posts else Seqs.Filter(posts, (p: Post) => p.category == tab)
  }

  /** The featured section and the category tabs are shown only while the
      search box is empty; the search results only while it is not. */
  function ShowsBrowsing(query: string): bool {
    query == ""
  }

  /** While browsing, the search list and the "All" tab show every post, and
      the featured section repeats some of them in their order. */
  lemma BrowsingShowsEverything(posts: seq<Post>, query: string)
    requires ShowsBrowsing(query)
    ensures Search(posts, query) == posts && Tab(posts, "All") == posts
    ensures Seqs.IsSubsequence(Featured(posts), Search(posts, query))
  {
  }

  /** "Found n result(s)". */
  function ResultWord(n: nat): (w: string)
    ensures w == "result" <==> n == 1
    ensures w != "result" ==> w == "results"
  {
    if n == 1 then "result" else "results"
  }

  /** The count line names as many results as the list shows, in the
      singular exactly when there is one. */
  lemma CountLine(posts: seq<Post>, query: string)
    requires !ShowsBrowsing(query)
    ensures ResultWord(|Search(posts, query)|) == "result" <==> |Search(posts, query)| == 1
    ensures forall p | p in Search(posts, query) :: Matches(p, query)
  {
  }
}

=== FILE: create_itinerary.dfy ===
/** The form logic of app/create-itinerary/page.tsx: the interest, dietary
    and accessibility checkbox handlers, and what `handleSubmit` shows for
    each way the request can end.

    The request is a parameter: how `fetch` ended and what the body held. */
module CreateItinerary {
  import opened Wrappers
  import Seqs
  import GenerateRoute

  // ---------------------------------------------------------------------
  // Checkboxes
  // ---------------------------------------------------------------------

  /** `handleInterestChange`: a selected interest is removed, any other is
      added at the end. */
  function ToggleInterest(selected: seq<string>, id: string): (r: seq<string>)
    ensures id in r <==> id !in selected
    ensures forall x | x != id :: x in r <==> x in selected
    ensures id !in selected ==> |r| == |selected| + 1 && r[..|selected|] == selected && r[|selected|] == id
  {
    if id in selected then Seqs.Filter(selected, (x: string) => x != id) else selected + [id]
  }

  /** Clicking an unselected interest twice gives the selection back. */
  lemma ToggleInterestTwice(selected: seq<string>, id: string)
    requires id !in selected
    ensures ToggleInterest(ToggleInterest(selected, id), id) == selected
  {
    var p := (x: string) => x != id;
    Seqs.FilterConcat(selected, [id], p);
    Seqs.FilterKeepsAll(selected, p);
  }

  /** The option that clears every other choice of its group. */
  const NoneOption: string := "none"

  /** The shared semantics of `handleDietaryChange` and
      `handleAccessibilityChange`: `"none"` replaces the selection with
      itself, even when already chosen; any other option first drops
      `"none"` and is then toggled, removed if present and appended if
      not. */
  function ChoosePreference(selected: seq<string>, option: string): (r: seq<string>)
    ensures option == NoneOption ==> r == [NoneOption]
    ensures option != NoneOption ==> NoneOption !in r
    ensures option != NoneOption ==> (option in r <==> option !in selected)
    ensures option != NoneOption ==> forall x | x != option && x != NoneOption :: x in r <==> x in selected
  {
    if option == NoneOption then [NoneOption]
    else
      var rest := WithoutNone(selected);
      if option in rest then Seqs.Filter(rest, (x: string) => x != option) else rest + [option]
  }

  function WithoutNone(selected: seq<string>): (r: seq<string>)
    ensures forall x :: x in r <==> x in selected && x != NoneOption
  {
    Seqs.Filter(selected, (x: string) => x != NoneOption)
  }

  function DietaryChange(selected: seq<string>, preference: string): seq<string> {
    ChoosePreference(selected, preference)
  }

  function AccessibilityChange(selected: seq<string>, need: string): seq<string> {
    ChoosePreference(selected, need)
  }

  /** A selection the handlers can produce: `"none"` alone, or options
      without `"none"` and without repeats. */
  ghost predicate Coherent(selected: seq<string>) {
    selected == [NoneOption] || (NoneOption !in selected && Seqs.Distinct(selected))
  }

  /** Every click keeps a selection coherent. */
  lemma ChooseKeepsCoherent(selected: seq<string>, option: string)
    requires Coherent(selected)
    ensures Coherent(ChoosePreference(selected, option))
  {
    if option != NoneOption {
      var rest := WithoutNone(selected);
      if selected == [NoneOption] {
        Seqs.FilterDropsAll(selected, (x: string) => x != NoneOption);
      } else {
        Seqs.FilterDistinct(selected, (x: string) => x != NoneOption);
      }
      assert Seqs.Distinct(rest);
      if option in rest {
        Seqs.FilterDistinct(rest, (x: string) => x != option);
      }
    }
  }

  /** The selection after a sequence of clicks, starting from nothing
      selected. */
  function AfterClicks(clicks: seq<string>): seq<string> {
    if |clicks| == 0 then [] else ChoosePreference(AfterClicks(clicks[..|clicks| - 1]), clicks[|clicks| - 1])
  }

  /** Whatever is clicked, the dietary and the accessibility selections are
      coherent: `"none"` never sits beside another option and no option is
      listed twice. */
  lemma {:induction false} ClicksStayCoherent(clicks: seq<string>)
    ensures Coherent(AfterClicks(clicks))
    decreases |clicks|
  {
    if |clicks| > 0 {
      ClicksStayCoherent(clicks[..|clicks| - 1]);
      ChooseKeepsCoherent(AfterClicks(clicks[..|clicks| - 1]), clicks[|clicks| - 1]);
    }
  }

  /** Clicking `"none"` while it is selected keeps it selected. */
  lemma NoneCannotBeCleared(selected: seq<string>)
    requires selected == [NoneOption]
    ensures ChoosePreference(selected, NoneOption) == selected
  {
  }

  // ---------------------------------------------------------------------
  // Submitting
  // ---------------------------------------------------------------------

  /** The body's `itinerary` field: absent, `null`, or an object whose `id`
      may itself be absent. */
  datatype ItineraryField = Missing | Null | Present(id: Option<string>)

  /** The JSON the route answered with: its `error` text (absent when the
      body lacks it) and its `itinerary` field. */
  datatype ReplyBody = ReplyBody(error: Option<string>, itinerary: ItineraryField)

  /** How the request ended: `fetch` threw (network failure, the 90-second
      abort), or a response came whose body parsed or failed to parse. */
  datatype Answer =
    | FetchFailed(message: string)
    | Answered(status: int, body: Result<ReplyBody>)

  datatype Toast = Toast(title: string, description: string, destructive: bool)

  /** What the page did: the progress values it set, in order, the toasts it
      showed, and where it navigated. */
  datatype Submitted = Submitted(progress: seq<int>, toasts: seq<Toast>, navigate: Option<string>)

  const BusyMessage: string := "AI service is currently busy. Please try again in a few minutes."
  const CreatedToast: Toast := Toast("Itinerary created!", "Your AI-generated travel plan is ready.", false)

  /** The messages `TypeError` carries when `.id` is read from `undefined`
      and from `null`. */
  const MissingIdMessage: string := "Cannot read properties of undefined (reading 'id')"
  const NullIdMessage: string := "Cannot read properties of null (reading 'id')"

  /** An id as a template literal writes it: an absent id reads `undefined`. */
  function IdText(id: Option<string>): string {
    if id.Some? then id.value else "undefined"
  }

  /** The catch block's toast: the thrown message, or a generic one. */
  function FailureToast(message: string): (t: Toast)
    ensures t.destructive && t.description != ""
    ensures message != "" ==> t.description == message
  {
    Toast("Failed to create itinerary", if message != "" then message else "Please try again later.", true)
  }

  /** `response.ok`. */
  predicate ResponseOk(status: int) {
    200 <= status <= 299
  }

  /** The message thrown for a response that is not OK. */
  function ErrorMessage(status: int, body: ReplyBody): (m: string)
    ensures m != ""
    ensures status == 429 ==> m == BusyMessage
    ensures status != 429 && body.error.Some? && body.error.value != "" ==> m == body.error.value
    ensures status != 429 && (body.error.None? || body.error.value == "") ==> m == "Failed to generate itinerary"
  {
    if status == 429 then BusyMessage
    else if body.error.Some? && body.error.value != "" then body.error.value
    else "Failed to generate itinerary"
  }

  function Submit(answer: Answer): (r: Submitted)
    ensures |r.progress| >= 2 && r.progress[..2] == [10, 30]
  {
    match answer
    case FetchFailed(m) => Submitted([10, 30], [FailureToast(m)], None)
    case Answered(status, Err(e)) => Submitted([10, 30, 70], [FailureToast(e.message)], None)
    case Answered(status, Ok(body)) =>
      if !ResponseOk(status) then Submitted([10, 30, 70, 90], [FailureToast(ErrorMessage(status, body))], None)
      else
        match body.itinerary
        case Missing => Submitted([10, 30, 70, 90, 100], [CreatedToast, FailureToast(MissingIdMessage)], None)
        case Null => Submitted([10, 30, 70, 90, 100], [CreatedToast, FailureToast(NullIdMessage)], None)
        case Present(id) => Submitted([10, 30, 70, 90, 100], [CreatedToast], Some("/itinerary/" + IdText(id)))
  }

  /** The progress values rise strictly and follow the stages in order:
      every run sets a prefix of 10, 30, 70, 90, 100. */
  lemma SubmitProgressRises(answer: Answer)
    ensures var p := Submit(answer).progress;
            && 2 <= |p| <= 5
            && p == [10, 30, 70, 90, 100][..|p|]
            && forall i, j | 0 <= i < j < |p| :: p[i] < p[j]
  {
  }

  /** The page navigates exactly when an OK response carries an itinerary
      object, and then to the page of its id, after the success toast. */
  lemma NavigatesOnlyOnSuccess(answer: Answer)
    ensures Submit(answer).navigate.Some? <==>
              answer.Answered? && answer.body.Ok? && ResponseOk(answer.status) && answer.body.value.itinerary.Present?
    ensures Submit(answer).navigate.Some? ==>
              && Submit(answer).navigate.value == "/itinerary/" + IdText(answer.body.value.itinerary.id)
              && Submit(answer).toasts == [CreatedToast]
              && Submit(answer).progress[|Submit(answer).progress| - 1] == 100
  {
  }

  /** An OK response whose itinerary has no id still navigates, to
      `/itinerary/undefined`; one without an itinerary object shows the
      success toast and then the failure toast of the `TypeError`. */
  lemma IncompleteSuccess(status: int, error: Option<string>)
    requires ResponseOk(status)
    ensures Submit(Answered(status, Ok(ReplyBody(error, Present(None))))).navigate == Some("/itinerary/undefined")
    ensures Submit(Answered(status, Ok(ReplyBody(error, Missing)))).toasts == [CreatedToast, FailureToast(MissingIdMessage)]
    ensures Submit(Answered(status, Ok(ReplyBody(error, Null)))).toasts == [CreatedToast, FailureToast(NullIdMessage)]
    ensures Submit(Answered(status, Ok(ReplyBody(error, Missing)))).navigate.None?
  {
    assert "/itinerary/" + IdText(None) == "/itinerary/undefined";
  }

  /** A 429 shows the busy message whatever the body says; another
      failing status shows the server's error text when there is one. */
  lemma FailureMessages(status: int, body: ReplyBody)
    requires !ResponseOk(status)
    ensures status == 429 ==> Submit(Answered(status, Ok(body))).toasts == [FailureToast(BusyMessage)]
    ensures status != 429 && body.error.Some? && body.error.value != "" ==>
              Submit(Answered(status, Ok(body))).toasts == [FailureToast(body.error.value)]
    ensures status != 429 && (body.error.None? || body.error == Some("")) ==>
              Submit(Answered(status, Ok(body))).toasts == [FailureToast("Failed to generate itinerary")]
  {
  }

  /** The busy message the page shows is the one the route sends with its
      429. */
  lemma BusyMessageAgrees()
    ensures BusyMessage == GenerateRoute.BusyMessage
  {
  }

  /** Every run that does not navigate ends with a destructive toast whose
      description is never empty. */
  lemma FailureAlwaysExplained(answer: Answer)
    requires Submit(answer).navigate.None?
    ensures var t := Submit(answer).toasts;
            |t| > 0 && t[|t| - 1].destructive && t[|t| - 1].description != ""
  {
  }
}

=== FILE: fence.dfy ===
/** Fenced-block extraction (lib/gemini.ts and lib/packing-list-generator.ts):
    the reply text is matched against ```` /```(?:json)?\s*([\s\S]*?)\s*```/ ````
    and, when the capture is non-empty, the capture replaces the text.

    The regular expression is written out as the search its backtracking
    amounts to.  Its leftmost match opens at the first ```` ``` ```` of the
    text (an opening needs any later ```` ``` ````, and a later opening has
    fewer closers after it).  `(?:json)?` is greedy and never has to give
    back: the closer cannot start inside `json`.  The first `\s*` is forced
    to the whole whitespace run because no closer starts with whitespace.
    The lazy capture ends at the first closer, and the second `\s*` takes the
    whitespace in front of that closer. */
module Fence {
  import opened Wrappers
  import opened Text

  const Backticks: string := "```"

  /** Where the capture may begin once the opening fence at `p` is found:
      after the fence, an optional `json` tag and the whitespace run. */
  function OpeningEnd(text: string, p: nat): (start: nat)
    requires p + 3 <= |text|
    ensures p + 3 <= start <= |text|
  {
    var tagEnd := if StartsWith(text[p + 3..], "json") then p + 7 else p + 3;
    tagEnd + Span(text[tagEnd..], IsSpace)
  }

  /** The lazy capture and the trailing `\s*` applied to the text after the
      opening fence: everything before the first closing fence, with its
      trailing whitespace removed; `None` when no closer follows or the
      capture is empty (an empty capture is falsy in the source). */
  function Capture(body: string): (r: Option<string>)
    ensures r.None? <==> !Contains(body, Backticks) || AllSpace(body[..IndexOf(body, Backticks).value])
    ensures r.Some? ==> |r.value| > 0 && !IsSpace(r.value[|r.value| - 1])
    ensures r.Some? ==> StartsWith(body, r.value) && !Contains(r.value, Backticks)
    ensures r.Some? ==> var j := IndexOf(body, Backticks).value;
                        |r.value| <= j && AllSpace(body[|r.value|..j])
  {
    match IndexOf(body, Backticks)
    case None => None
    case Some(j) =>
      var inner := TrimEnd(body[..j]);
      TrimEndEmpty(body[..j]);
      if inner == "" then None
      else
        PrefixFreeOfPattern(body, j, inner, Backticks);
        assert body[|inner|..j] == body[..j][|inner|..];
        Some(inner)
  }

  /** Trimming leaves nothing exactly when the text is all whitespace. */
  lemma TrimEndEmpty(s: string)
    ensures TrimEnd(s) == "" <==> AllSpace(s)
  {
  }

  /** The JSON candidate taken from a model reply. */
  function ExtractCandidate(text: string): (r: string)
    ensures !Contains(text, Backticks) ==> r == text
    ensures r == text || (|r| > 0 && !IsSpace(r[0]) && !IsSpace(r[|r| - 1]) && Contains(text, r) && !Contains(r, Backticks))
  {
    match IndexOf(text, Backticks)
    case None => text
    case Some(p) =>
      var start := OpeningEnd(text, p);
      match Capture(text[start..])
      case None => text
      case Some(inner) =>
        assert |inner| > 0 && !IsSpace(inner[0]) && Contains(text, inner) by {
          OpeningEndNotSpace(text, p);
          ContainsAt(text, inner, start);
        }
        inner
  }

  /** The capture starts after the whole whitespace run. */
  lemma OpeningEndNotSpace(text: string, p: nat)
    requires p + 3 <= |text|
    ensures OpeningEnd(text, p) < |text| ==> !IsSpace(text[OpeningEnd(text, p)])
  {
    var tagEnd := if StartsWith(text[p + 3..], "json") then p + 7 else p + 3;
    var n := Span(text[tagEnd..], IsSpace);
    if tagEnd + n < |text| {
      assert text[tagEnd..][n] == text[tagEnd + n];
    }
  }

  /** A prefix of `body[..j]`, where `j` is the first occurrence of `w` in
      `body`, contains no occurrence of `w`. */
  lemma PrefixFreeOfPattern(body: string, j: nat, inner: string, w: string)
    requires |w| > 0
    requires IndexOf(body, w) == Some(j)
    requires j <= |body| && StartsWith(body[..j], inner)
    ensures !Contains(inner, w)
  {
    forall k | 0 <= k <= |inner|
      ensures !StartsWith(inner[k..], w)
    {
      if k + |w| <= |inner| {
        SameWindow(body, j, inner, k, |w|);
      }
    }
    NoOccurrence(inner, w);
  }

  lemma SameWindow(body: string, j: nat, inner: string, k: nat, n: nat)
    requires j <= |body| && StartsWith(body[..j], inner)
    requires k + n <= |inner|
    ensures k + n <= |body| && inner[k..][..n] == body[k..][..n]
  {
    assert forall i | 0 <= i < n :: inner[k..][..n][i] == inner[k + i] == body[k + i];
  }

  /** `IndexOf` finds `w` right after a prefix that lacks `w`'s first character. */
  lemma {:induction false} IndexOfAfterFree(a: string, w: string, x: string)
    requires |w| > 0 && w[0] !in a
    ensures IndexOf(a + (w + x), w) == Some(|a|)
    decreases |a|
  {
    var t := a + (w + x);
    if |a| > 0 {
      assert t[0] == a[0] != w[0];
      assert !StartsWith(t, w);
      assert t[1..] == a[1..] + (w + x);
      IndexOfAfterFree(a[1..], w, x);
    } else {
      assert t == w + x;
      assert (w + x)[..|w|] == w;
    }
  }

  lemma {:induction false} SpanOfSpaces(ws: string, y: string)
    requires AllSpace(ws)
    requires |y| > 0 && !IsSpace(y[0])
    ensures Span(ws + y, IsSpace) == |ws|
    decreases |ws|
  {
    if |ws| > 0 {
      assert (ws + y)[1..] == ws[1..] + y;
      SpanOfSpaces(ws[1..], y);
    } else {
      assert ws + y == y;
    }
  }

  lemma {:induction false} TrimEndOfSpaces(b: string, ws: string)
    requires |b| > 0 && !IsSpace(b[|b| - 1])
    requires AllSpace(ws)
    ensures TrimEnd(b + ws) == b
    decreases |ws|
  {
    if |ws| > 0 {
      assert (b + ws)[..|b + ws| - 1] == b + ws[..|ws| - 1];
      TrimEndOfSpaces(b, ws[..|ws| - 1]);
    } else {
      assert b + ws == b;
    }
  }

  /** The text after the opening fence: `tag` `ws1` `body` `ws2` ```` ``` ```` `post`. */
  function Opened(tag: string, ws1: string, body: string, ws2: string, post: string): string {
    tag + (ws1 + Closed(body, ws2, post))
  }

  /** The capture and what follows it: `body` `ws2` ```` ``` ```` `post`. */
  function Closed(body: string, ws2: string, post: string): string {
    body + (ws2 + (Backticks + post))
  }

  /** The reply `pre` ```` ``` ```` `tag` `ws1` `body` `ws2` ```` ``` ```` `post`. */
  function Wrapped(pre: string, tag: string, ws1: string, body: string, ws2: string, post: string): string {
    pre + (Backticks + Opened(tag, ws1, body, ws2, post))
  }

  /** What a well-formed fence around `body` looks like. */
  predicate WellWrapped(pre: string, tag: string, ws1: string, body: string, ws2: string) {
    && '`' !in pre
    && (tag == "" || tag == "json")
    && AllSpace(ws1) && AllSpace(ws2)
    && |body| > 0 && !IsSpace(body[0]) && !IsSpace(body[|body| - 1]) && '`' !in body
    && (tag == "json" || !StartsWith(ws1 + body, "json"))
  }

  /** A reply that wraps `body` in a fence (tagged `json` or not, with any
      whitespace inside the fence, any text without backticks before it and
      any text after it) yields exactly `body`.  When the fence is untagged,
      `body` must not itself start with `json`, which the optional tag would
      swallow. */
  lemma ExtractWrapped(pre: string, tag: string, ws1: string, body: string, ws2: string, post: string)
    requires WellWrapped(pre, tag, ws1, body, ws2)
    ensures ExtractCandidate(Wrapped(pre, tag, ws1, body, ws2, post)) == body
  {
    var text := Wrapped(pre, tag, ws1, body, ws2, post);
    WrappedOpening(pre, tag, ws1, body, ws2, post);
    ExtractVia(text, |pre|, |pre| + 3 + |tag| + |ws1|, body, ws2, post);
  }

  /** In a well-wrapped reply the opening fence is found right after `pre`,
      and the capture may begin right after the tag and `ws1`. */
  lemma WrappedOpening(pre: string, tag: string, ws1: string, body: string, ws2: string, post: string)
    requires WellWrapped(pre, tag, ws1, body, ws2)
    ensures var text := Wrapped(pre, tag, ws1, body, ws2, post);
            var start := |pre| + 3 + |tag| + |ws1|;
            && IndexOf(text, Backticks) == Some(|pre|)
            && |pre| + 3 <= |text| && OpeningEnd(text, |pre|) == start
            && start <= |text| && text[start..] == Closed(body, ws2, post)
  {
    var text := Wrapped(pre, tag, ws1, body, ws2, post);
    var x := Opened(tag, ws1, body, ws2, post);
    var y := Closed(body, ws2, post);
    IndexOfAfterFree(pre, Backticks, x);
    AfterFence(text, pre, x);
    WrappedOpeningEnd(text, |pre|, tag, ws1, body, ws2, post);
    AfterOpening(text, |pre|, tag, ws1, y);
  }

  lemma AfterFence(text: string, pre: string, x: string)
    requires text == pre + (Backticks + x)
    ensures |pre| + 3 <= |text| && text[|pre| + 3..] == x
  {
    DropAppend(pre, Backticks + x);
    DropAppend(Backticks, x);
  }

  lemma AfterOpening(text: string, p: nat, tag: string, ws1: string, y: string)
    requires p + 3 <= |text| && text[p + 3..] == tag + (ws1 + y)
    ensures p + 3 + |tag| + |ws1| <= |text| && text[p + 3 + |tag| + |ws1|..] == y
  {
    DropAppend(tag, ws1 + y);
    DropAppend(ws1, y);
    assert text[p + 3 + |tag| + |ws1|..] == text[p + 3..][|tag|..][|ws1|..];
  }

  lemma WrappedOpeningEnd(text: string, p: nat, tag: string, ws1: string, body: string, ws2: string, post: string)
    requires WellWrapped("", tag, ws1, body, ws2)
    requires p + 3 <= |text| && text[p + 3..] == Opened(tag, ws1, body, ws2, post)
    ensures OpeningEnd(text, p) == p + 3 + |tag| + |ws1|
  {
    var y := Closed(body, ws2, post);
    if tag == "" {
      UntaggedStaysUntagged(ws1, body, ws2 + (Backticks + post));
    }
    OpeningEndWrapped(text, p, tag, ws1, y);
  }

  /** Once the opening fence, the start of the capture and the capture are
      known, so is the candidate. */
  lemma ExtractVia(text: string, p: nat, start: nat, body: string, ws2: string, post: string)
    requires IndexOf(text, Backticks) == Some(p)
    requires p + 3 <= |text| && OpeningEnd(text, p) == start
    requires start <= |text| && text[start..] == Closed(body, ws2, post)
    requires |body| > 0 && !IsSpace(body[|body| - 1]) && '`' !in body
    requires AllSpace(ws2)
    ensures ExtractCandidate(text) == body
  {
    CaptureBeforeCloser(body, ws2, post);
  }

  lemma CaptureBeforeCloser(body: string, ws2: string, post: string)
    requires |body| > 0 && !IsSpace(body[|body| - 1]) && '`' !in body
    requires AllSpace(ws2)
    ensures Capture(Closed(body, ws2, post)) == Some(body)
  {
    var b := Closed(body, ws2, post);
    assert b == (body + ws2) + (Backticks + post);
    assert '`' !in body + ws2;
    IndexOfAfterFree(body + ws2, Backticks, post);
    TakeAppend(body + ws2, Backticks + post);
    TrimEndOfSpaces(body, ws2);
  }

  /** After the opening fence at `p` come the tag, the whitespace run `ws1`
      and text `y` that does not start with whitespace. */
  lemma OpeningEndWrapped(text: string, p: nat, tag: string, ws1: string, y: string)
    requires p + 3 <= |text| && text[p + 3..] == tag + (ws1 + y)
    requires tag == "" || tag == "json"
    requires AllSpace(ws1)
    requires |y| > 0 && !IsSpace(y[0])
    requires tag == "json" || !StartsWith(ws1 + y, "json")
    ensures OpeningEnd(text, p) == p + 3 + |tag| + |ws1|
  {
    if tag == "json" {
      JsonTagged(text, p, ws1 + y);
    } else {
      assert tag + (ws1 + y) == ws1 + y;
    }
    SpanOfSpaces(ws1, y);
  }

  lemma JsonTagged(text: string, p: nat, x: string)
    requires p + 3 <= |text| && text[p + 3..] == "json" + x
    ensures StartsWith(text[p + 3..], "json") && text[p + 7..] == x
  {
    assert text[p + 3..][..4] == "json";
    assert text[p + 7..] == text[p + 3..][4..];
  }

  /** `ws1` `body` not starting with `json` stays so when followed by
      whitespace or a backtick. */
  lemma UntaggedStaysUntagged(ws1: string, body: string, rest: string)
    requires !StartsWith(ws1 + body, "json")
    requires |rest| > 0 && (rest[0] == '`' || IsSpace(rest[0]))
    ensures !StartsWith(ws1 + (body + rest), "json")
  {
    var a := ws1 + body;
    assert ws1 + (body + rest) == a + rest;
    if |a| >= 4 {
      assert (a + rest)[..4] == a[..4];
    } else {
      assert (a + rest)[|a|] == rest[0];
    }
  }

  /** The reply of the source's prompt format, a `json` fence on lines of its own. */
  lemma ExtractJsonFence()
    ensures ExtractCandidate("```json\n{\"a\":1}\n```") == "{\"a\":1}"
  {
    assert "```json\n{\"a\":1}\n```" == Wrapped("", "json", "\n", "{\"a\":1}", "\n", "");
    ExtractWrapped("", "json", "\n", "{\"a\":1}", "\n", "");
  }
}

=== FILE: gemini.dfy ===
/** `generateItineraryWithGemini` and `getGeminiClient` (lib/gemini.ts): the
    itinerary generator.  It checks the API key, asks the model for a JSON
    plan, takes the JSON out of a fenced block, parses it strictly, repairs
    and re-parses it when that fails, and builds a plan of its own when
    both parses fail.

    The model and `JSON.parse` are parameters: `model` maps the prompt to
    the reply text or to the error the SDK throws, and `parse` maps a text
    to the value it denotes, `None` where `JSON.parse` throws.  Dates are
    day numbers on a continuous day count. */
module Gemini {
  import opened Wrappers
  import opened Text
  import opened Numbers
  import Fence
  import Repair

  /** A date as the form submits it: the `YYYY-MM-DD` text and its number
      on a continuous day count. */
  datatype CalendarDate = CalendarDate(text: string, day: int)

  /** One planned activity; `kind` is the source's `type` field. */
  datatype Activity = Activity(kind: string, title: string, description: string, time: string, cost: int, link: string)

  datatype Day = Day(dayNumber: int, date: int, description: string, activities: seq<Activity>)

  /** What the generator returns: the parsed value, or its own plan.  The
      reply may parse to `null`, which is returned as it is (`NullData`);
      otherwise a field that the parsed value lacks, or holds with another
      type, is `None`. */
  datatype ItineraryData = NullData | ItineraryData(title: Option<string>, days: Option<seq<Day>>)

  /** The generator's arguments.  `None` is an argument that is `undefined`
      or `null`; the source's default parameters (`"any"`, `[]`, `""`)
      apply only to `undefined`, and every test below treats both alike. */
  datatype TripRequest = TripRequest(
    destination: string,
    startDate: CalendarDate,
    endDate: CalendarDate,
    budget: int,
    interests: seq<string>,
    accommodation: Option<string>,
    transportation: Option<string>,
    dietary: Option<seq<string>>,
    accessibility: Option<seq<string>>,
    notes: Option<string>)

  // ---------------------------------------------------------------------
  // The API key
  // ---------------------------------------------------------------------

  const MissingKeyMessage: string := "GEMINI_API_KEY is not defined in environment variables"

  /** `getGeminiClient`: the key the client is built with, or the error
      thrown when the environment variable is unset or empty. */
  function Client(key: Option<string>): (r: Result<string>)
    ensures r.Ok? <==> key.Some? && key.value != ""
    ensures r.Ok? ==> r.value == key.value
    ensures r.Err? ==> r.error.message == MissingKeyMessage
  {
    if key.None? || key.value == "" then Err(Error(MissingKeyMessage)) else Ok(key.value)
  }

  // ---------------------------------------------------------------------
  // Day count and prompt
  // ---------------------------------------------------------------------

  /** `Math.ceil((end - start) / day) + 1`: the number of calendar days from
      the start to the end date, both included. */
  function DayCount(start: CalendarDate, end: CalendarDate): (n: int)
    ensures start.day + (n - 1) == end.day
  {
    end.day - start.day + 1
  }

  /** The values the prompt template interpolates; its fixed prose is left
      out.  The budget appears twice in the template, as the same value. */
  datatype Prompt = Prompt(dayCount: int, destination: string, startText: string, endText: string, budget: int)

  function PromptFor(req: TripRequest): (p: Prompt)
    ensures p.dayCount == DayCount(req.startDate, req.endDate)
    ensures p.destination == req.destination && p.budget == req.budget
    ensures p.startText == req.startDate.text && p.endText == req.endDate.text
  {
    Prompt(DayCount(req.startDate, req.endDate), req.destination, req.startDate.text, req.endDate.text, req.budget)
  }

  /** The prompt depends on the destination, the dates and the budget only:
      interests, preferences, needs and notes never reach the model. */
  lemma PromptIgnoresPreferences(a: TripRequest, b: TripRequest)
    ensures PromptFor(a) == PromptFor(b) <==>
              && a.destination == b.destination && a.budget == b.budget
              && a.startDate.text == b.startDate.text && a.endDate.text == b.endDate.text
              && DayCount(a.startDate, a.endDate) == DayCount(b.startDate, b.endDate)
  {
  }

  // ---------------------------------------------------------------------
  // Preference phrases
  // ---------------------------------------------------------------------

  /** A labelled phrase never equals a neutral phrase that starts with
      another letter. */
  lemma LabelledDiffers(prefix: string, x: string, neutral: string)
    requires |prefix| > 0 && |neutral| > 0 && prefix[0] != neutral[0]
    ensures prefix + x != neutral
  {
    assert (prefix + x)[0] == prefix[0];
  }

  /** A list preference is named when the list is present, non-empty and
      free of the `"none"` sentinel. */
  predicate ListNamed(xs: Option<seq<string>>) {
    xs.Some? && |xs.value| > 0 && "none" !in xs.value
  }

  /** A single choice is named when it is present, non-empty and not `"any"`. */
  predicate ChoiceNamed(v: Option<string>) {
    v.Some? && v.value != "" && v.value != "any"
  }

  /** A list preference as the prompt phrases it: `heading` and the items
      joined with ", " when the list is named, else the neutral phrase.
      The dietary preferences and the accessibility needs use it, with
      the labels and neutral phrases below. */
  function ListPhrase(heading: string, neutral: string, xs: Option<seq<string>>): (r: string)
    requires |heading| > 0 && |neutral| > 0 && heading[0] != neutral[0]
    ensures r == neutral <==> !ListNamed(xs)
    ensures ListNamed(xs) ==> StartsWith(r, heading) && r[|heading|..] == Join(xs.value, ", ")
  {
    if ListNamed(xs) then
      LabelledDiffers(heading, Join(xs.value, ", "), neutral);
      heading + Join(xs.value, ", ")
    else neutral
  }

  /** A single-choice preference as a prompt phrases it: `heading` and the
      value when the choice is named, else the neutral phrase. */
  function ChoicePhrase(heading: string, neutral: string, v: Option<string>): (r: string)
    requires |heading| > 0 && |neutral| > 0 && heading[0] != neutral[0]
    ensures r == neutral <==> !ChoiceNamed(v)
    ensures ChoiceNamed(v) ==> StartsWith(r, heading) && r[|heading|..] == v.value
  {
    if ChoiceNamed(v) then
      LabelledDiffers(heading, v.value, neutral);
      heading + v.value
    else neutral
  }

  /** Two choices read the same once an absent, empty or `"any"` choice
      counts as none. */
  predicate SameChoice(u: Option<string>, v: Option<string>) {
    ChoiceNamed(u) == ChoiceNamed(v) && (ChoiceNamed(u) ==> u.value == v.value)
  }

  /** Two phrases built with the same heading are equal exactly when the
      choices read the same. */
  lemma {:induction false} ChoicePhraseSeparates(heading: string, neutral: string, u: Option<string>, v: Option<string>)
    requires |heading| > 0 && |neutral| > 0 && heading[0] != neutral[0]
    ensures ChoicePhrase(heading, neutral, u) == ChoicePhrase(heading, neutral, v) <==> SameChoice(u, v)
  {
    var x, y := ChoicePhrase(heading, neutral, u), ChoicePhrase(heading, neutral, v);
    if ChoiceNamed(u) && ChoiceNamed(v) && x == y {
      assert u.value == x[|heading|..] == y[|heading|..] == v.value;
    }
  }

  function DietaryPhrase(xs: Option<seq<string>>): string {
    ListPhrase("Dietary Preferences: ", "No specific dietary preferences", xs)
  }

  function AccessibilityPhrase(xs: Option<seq<string>>): string {
    ListPhrase("Accessibility Needs: ", "No specific accessibility requirements", xs)
  }

  function AccommodationPhrase(v: Option<string>): string {
    ChoicePhrase("Preferred Accommodation: ", "No specific accommodation preference", v)
  }

  function TransportationPhrase(v: Option<string>): string {
    ChoicePhrase("Preferred Transportation: ", "No specific transportation preference", v)
  }

  function NotesPhrase(v: Option<string>): (r: string)
    ensures r == "" <==> v.None? || v.value == ""
    ensures v.Some? && v.value != "" ==> StartsWith(r, "Additional Notes: ") && r[18..] == v.value
  {
    if v.Some? && v.value != "" then "Additional Notes: " + v.value else ""
  }

  /** Two notes read the same once an absent or empty note counts as none. */
  predicate SameNote(u: Option<string>, v: Option<string>) {
    var named := (w: Option<string>) => w.Some? && w.value != "";
    named(u) == named(v) && (named(u) ==> u.value == v.value)
  }

  lemma {:induction false} NotesPhraseSeparates(u: Option<string>, v: Option<string>)
    ensures NotesPhrase(u) == NotesPhrase(v) <==> SameNote(u, v)
  {
    var x, y := NotesPhrase(u), NotesPhrase(v);
    if u.Some? && u.value != "" && v.Some? && v.value != "" && x == y {
      assert u.value == x[18..] == y[18..] == v.value;
    }
  }

  // ---------------------------------------------------------------------
  // The fallback plan
  // ---------------------------------------------------------------------

  const FallbackTime: string := "09:00"
  const FallbackLink: string := "https://example.com/explore"

  /** `interests[0] || "sightseeing"`. */
  function FallbackKind(interests: seq<string>): (k: string)
    ensures k != ""
    ensures |interests| > 0 && interests[0] != "" ==> k == interests[0]
    ensures |interests| == 0 || interests[0] == "" ==> k == "sightseeing"
  {
    if |interests| > 0 && interests[0] != "" then interests[0] else "sightseeing"
  }

  /** The one activity every fallback day carries, for a plan of `n` days. */
  function FallbackActivity(req: TripRequest, n: int): Activity
    requires n > 0
  {
    Activity(
      FallbackKind(req.interests),
      "Explore " + req.destination,
      "Spend the day exploring the highlights of " + req.destination + ".",
      FallbackTime,
      RoundDiv(req.budget, n * 3),
      FallbackLink)
  }

  function DayDescription(destination: string, number: nat): string {
    "Day " + (NatToString(number) + (" in " + destination))
  }

  /** Day `i` (from 0) of an `n`-day fallback plan. */
  function FallbackDay(req: TripRequest, n: int, i: nat): Day
    requires i < n
  {
    Day(i + 1, req.startDate.day + i, DayDescription(req.destination, i + 1), [FallbackActivity(req, n)])
  }

  /** The plan built when both parses fail: `Array.from({ length: dayCount })`
      has no elements when the day count is zero or negative. */
  function Fallback(req: TripRequest): (r: ItineraryData)
    ensures r.ItineraryData? && r.days.Some?
    ensures r.title == Some(IntToString(DayCount(req.startDate, req.endDate)) + "-Day Adventure in " + req.destination)
    ensures |r.days.value| == Max(0, DayCount(req.startDate, req.endDate))
    ensures forall i | 0 <= i < |r.days.value| ::
              && r.days.value[i].dayNumber == i + 1
              && r.days.value[i].date == req.startDate.day + i
              && r.days.value[i].description == "Day " + NatToString(i + 1) + " in " + req.destination
  {
    var n := DayCount(req.startDate, req.endDate);
    var count := Max(0, n);
    ItineraryData(
      Some(IntToString(n) + "-Day Adventure in " + req.destination),
      Some(seq(count, i requires 0 <= i < count => FallbackDay(req, n, i))))
  }

  /** Every fallback day carries the same single activity: exploring the
      destination, of the first interest's kind (or sightseeing), at nine,
      with the explore link and the budget split over three activities a
      day. */
  lemma FallbackActivities(req: TripRequest, i: nat)
    requires i < |Fallback(req).days.value|
    ensures var n := DayCount(req.startDate, req.endDate);
            var acts := Fallback(req).days.value[i].activities;
            && n > 0 && |acts| == 1
            && acts[0].title == "Explore " + req.destination
            && acts[0].description == "Spend the day exploring the highlights of " + req.destination + "."
            && acts[0].kind == FallbackKind(req.interests)
            && acts[0].time == "09:00" && acts[0].link == "https://example.com/explore"
            && 2 * (3 * n) * acts[0].cost - 3 * n <= 2 * req.budget < 2 * (3 * n) * acts[0].cost + 3 * n
  {
  }

  /** The sum of the costs of every activity of a plan. */
  function TotalCost(days: seq<Day>): int {
    if |days| == 0 then 0 else ActivitiesCost(days[0].activities) + TotalCost(days[1..])
  }

  function ActivitiesCost(acts: seq<Activity>): int {
    if |acts| == 0 then 0 else acts[0].cost + ActivitiesCost(acts[1..])
  }

  /** The fallback plan spends about a third of the budget: its total cost
      `t` satisfies `|3t - budget| <= 3n/2` for `n` days. */
  lemma FallbackSpendsAThird(req: TripRequest)
    requires DayCount(req.startDate, req.endDate) > 0
    ensures var n := DayCount(req.startDate, req.endDate);
            var t := TotalCost(Fallback(req).days.value);
            6 * t - 3 * n <= 2 * req.budget < 6 * t + 3 * n
  {
    var n := DayCount(req.startDate, req.endDate);
    var days := Fallback(req).days.value;
    var c := RoundDiv(req.budget, n * 3);
    forall i | 0 <= i < |days|
      ensures ActivitiesCost(days[i].activities) == c
    {
      FallbackDayCost(req, i);
    }
    UniformCost(days, c);
    ThirdOfBudget(req.budget, n, c);
  }

  lemma FallbackDayCost(req: TripRequest, i: nat)
    requires i < |Fallback(req).days.value|
    ensures ActivitiesCost(Fallback(req).days.value[i].activities) == RoundDiv(req.budget, DayCount(req.startDate, req.endDate) * 3)
  {
    var n := DayCount(req.startDate, req.endDate);
    assert Fallback(req).days.value[i].activities == [FallbackActivity(req, n)];
  }

  /** `n` activities each costing the rounded third-of-a-day share. */
  lemma ThirdOfBudget(budget: int, n: int, c: int)
    requires n > 0 && c == RoundDiv(budget, n * 3)
    ensures 6 * (n * c) - 3 * n <= 2 * budget < 6 * (n * c) + 3 * n
  {
    assert 2 * (n * 3) * c == 6 * (n * c);
  }

  /** Days whose activities all cost `c` together cost `c` per day. */
  lemma {:induction false} UniformCost(days: seq<Day>, c: int)
    requires forall i | 0 <= i < |days| :: ActivitiesCost(days[i].activities) == c
    ensures TotalCost(days) == |days| * c
    decreases |days|
  {
    if |days| > 0 {
      assert ActivitiesCost(days[0].activities) == c;
      UniformCost(days[1..], c);
    }
  }

  /** The fallback days have pairwise different descriptions. */
  lemma FallbackDescriptionsDistinct(req: TripRequest, i: nat, j: nat)
    requires i < j < |Fallback(req).days.value|
    ensures Fallback(req).days.value[i].description != Fallback(req).days.value[j].description
  {
    DescriptionsDiffer(req.destination, i + 1, j + 1);
  }

  /** Different day numbers give different descriptions: the number is read
      back from the text after `"Day "`. */
  lemma DescriptionsDiffer(destination: string, a: nat, b: nat)
    requires a != b
    ensures DayDescription(destination, a) != DayDescription(destination, b)
  {
    DescriptionDigits(destination, a);
    DescriptionDigits(destination, b);
    ParseNatToString(a);
    ParseNatToString(b);
  }

  lemma DescriptionDigits(destination: string, number: nat)
    ensures var d := DayDescription(destination, number);
            var digits := NatToString(number);
            && |d| == 4 + |digits| + 4 + |destination|
            && d[4..4 + |digits|] == digits
  {
  }

  /** The title starts with the decimal day count, which reads back as that
      count; an end date before the start gives a signed count such as
      "-1-Day Adventure in …", since nothing checks the order of the dates. */
  lemma FallbackTitleNamesDayCount(req: TripRequest)
    ensures var n := DayCount(req.startDate, req.endDate);
            var title := Fallback(req).title.value;
            var digits := NatToString(if n < 0 then -n else n);
            && ParseDigits(digits) == (if n < 0 then -n else n)
            && (n >= 0 ==> title == digits + "-Day Adventure in " + req.destination)
            && (n < 0 ==> title == "-" + digits + "-Day Adventure in " + req.destination)
  {
    var n := DayCount(req.startDate, req.endDate);
    ParseNatToString(if n < 0 then -n else n);
  }

  // ---------------------------------------------------------------------
  // Generation
  // ---------------------------------------------------------------------

  /** The strict parse, then the repaired parse, then the fallback. */
  function ParseOrFallback(candidate: string, req: TripRequest, parse: string -> Option<ItineraryData>): (r: ItineraryData)
    ensures parse(candidate).Some? ==> r == parse(candidate).value
    ensures parse(candidate).None? && parse(Repair.Repair(candidate)).Some? ==> r == parse(Repair.Repair(candidate)).value
    ensures parse(candidate).None? && parse(Repair.Repair(candidate)).None? ==> r == Fallback(req)
  {
    match parse(candidate)
    case Some(v) => v
    case None =>
      match parse(Repair.Repair(candidate))
      case Some(v) => v
      case None => Fallback(req)
  }

  /** `generateItineraryWithGemini`: an error raised outside the parsing
      block (a missing key, a failing model call) is rethrown as it is. */
  function Generate(key: Option<string>, req: TripRequest, model: Prompt -> Result<string>, parse: string -> Option<ItineraryData>): (r: Result<ItineraryData>)
  {
    match Client(key)
    case Err(e) => Err(e)
    case Ok(_) =>
      match model(PromptFor(req))
      case Err(e) => Err(e)
      case Ok(reply) => Ok(ParseOrFallback(Fence.ExtractCandidate(reply), req, parse))
  }

  /** The generator fails exactly when the key is missing or the model call
      fails, and then with that error; parsing never makes it fail. */
  lemma GenerateFails(key: Option<string>, req: TripRequest, model: Prompt -> Result<string>, parse: string -> Option<ItineraryData>)
    ensures Generate(key, req, model, parse).Err? <==> (key.None? || key.value == "" || model(PromptFor(req)).Err?)
    ensures key.None? || key.value == "" ==> Generate(key, req, model, parse) == Err(Error(MissingKeyMessage))
    ensures key.Some? && key.value != "" && model(PromptFor(req)).Err? ==>
              Generate(key, req, model, parse) == Err(model(PromptFor(req)).error)
  {
  }

  /** A candidate that parses strictly is returned as parsed, whatever the
      repaired text would parse to: the repair never runs. */
  lemma StrictParseWins(key: Option<string>, req: TripRequest, model: Prompt -> Result<string>,
                        parse: string -> Option<ItineraryData>, other: string -> Option<ItineraryData>)
    requires key.Some? && key.value != "" && model(PromptFor(req)).Ok?
    requires var c := Fence.ExtractCandidate(model(PromptFor(req)).value);
             parse(c).Some? && other(c) == parse(c)
    ensures Generate(key, req, model, parse) == Generate(key, req, model, other)
    ensures Generate(key, req, model, parse) == Ok(parse(Fence.ExtractCandidate(model(PromptFor(req)).value)).value)
  {
  }

  /** The fallback plan is returned only after both parses failed: when
      either parse succeeds the result is that parsed value. */
  lemma FallbackOnlyAfterBothFail(key: Option<string>, req: TripRequest, model: Prompt -> Result<string>, parse: string -> Option<ItineraryData>)
    requires Generate(key, req, model, parse).Ok?
    ensures var c := Fence.ExtractCandidate(model(PromptFor(req)).value);
            var v := Generate(key, req, model, parse).value;
            || (parse(c).Some? && v == parse(c).value)
            || (parse(c).None? && parse(Repair.Repair(c)).Some? && v == parse(Repair.Repair(c)).value)
            || (parse(c).None? && parse(Repair.Repair(c)).None? && v == Fallback(req))
  {
  }

  /** A reply with no fence is parsed as it is; only a fenced reply is cut
      down to its first block. */
  lemma UnfencedReplyParsedWhole(key: Option<string>, req: TripRequest, model: Prompt -> Result<string>, parse: string -> Option<ItineraryData>)
    requires key.Some? && key.value != "" && model(PromptFor(req)).Ok?
    requires !Contains(model(PromptFor(req)).value, Fence.Backticks)
    requires parse(model(PromptFor(req)).value).Some?
    ensures Generate(key, req, model, parse) == Ok(parse(model(PromptFor(req)).value).value)
  {
  }
}

=== FILE: generate_route.dfy ===
/** The `POST` handler of app/api/generate-itinerary/route.ts: check the
    session, validate the body, generate an itinerary, store it and its
    days, and classify failures.

    Everything outside the handler is a parameter of `Env`: the session,
    the parsed body, the generator, the image lookup and the two inserts.
    The handler's result records the response and the writes it issued. */
module GenerateRoute {
  import opened Wrappers
  import opened Text
  import opened Gemini

  /** The JSON body as destructured; a field that is absent or `null` is
      `None`, and a `budget` that was `NaN` arrives as `null`. */
  datatype RequestBody = RequestBody(
    destination: Option<string>,
    startDate: Option<CalendarDate>,
    endDate: Option<CalendarDate>,
    budget: Option<int>,
    interests: Option<seq<string>>,
    accommodation: Option<string>,
    transportation: Option<string>,
    dietary: Option<seq<string>>,
    accessibility: Option<seq<string>>,
    notes: Option<string>)

  /** The `itineraries` row the handler inserts. */
  datatype ItineraryRecord = ItineraryRecord(
    userId: string,
    title: Option<string>,
    destination: string,
    startDate: string,
    endDate: string,
    budget: int,
    interests: seq<string>,
    imageUrl: string,
    accommodation: string,
    transportation: string,
    dietary: seq<string>,
    accessibility: seq<string>,
    notes: string)

  /** The inserted row as `.select().single()` returns it. */
  datatype SavedItinerary = SavedItinerary(id: string, record: ItineraryRecord)

  /** One `itinerary_days` row. */
  datatype DayRow = DayRow(itineraryId: string, dayNumber: int, date: int, description: string, activities: seq<Activity>)

  datatype Write = InsertItinerary(record: ItineraryRecord) | InsertDays(rows: seq<DayRow>)

  /** The world the handler talks to.  `body` is `None` when
      `request.json()` throws; `insertDays` gives the insert's error, if any. */
  datatype Env = Env(
    session: Option<string>,
    body: Option<RequestBody>,
    generate: TripRequest -> Result<ItineraryData>,
    image: string -> string,
    insertItinerary: ItineraryRecord -> Result<SavedItinerary>,
    insertDays: seq<DayRow> -> Option<Error>)

  /** The JSON response (`error`, or the saved itinerary with its days) and
      the writes that were issued. */
  datatype Outcome = Outcome(
    status: int,
    error: Option<string>,
    itinerary: Option<SavedItinerary>,
    days: Option<seq<Day>>,
    writes: seq<Write>)

  function Reject(status: int, message: string): Outcome {
    Outcome(status, Some(message), None, None, [])
  }

  const BusyMessage: string := "AI service is currently busy. Please try again in a few minutes."
  const GenerateFailedMessage: string := "Failed to generate itinerary. Please try again later."

  /** The message `TypeError` carries when `.map` is read from `undefined`. */
  const MissingDaysMessage: string := "Cannot " + "read " + "properties " + "of " + "undefined " + "(reading " + "'map')"

  /** The message `TypeError` carries when `.title` is read from `null`. */
  const NullTitleMessage: string := "Cannot " + "read " + "properties " + "of " + "null " + "(reading " + "'title')"

  // ---------------------------------------------------------------------
  // Validation and defaults
  // ---------------------------------------------------------------------

  predicate TruthyText(v: Option<string>) {
    v.Some? && v.value != ""
  }

  predicate TruthyDate(v: Option<CalendarDate>) {
    v.Some? && v.value.text != ""
  }

  /** `!destination || !startDate || !endDate || !budget || !interests`
      fails: a budget of zero is falsy, an empty array is not. */
  predicate Valid(b: RequestBody) {
    && TruthyText(b.destination) && TruthyDate(b.startDate) && TruthyDate(b.endDate)
    && b.budget.Some? && b.budget.value != 0
    && b.interests.Some?
  }

  /** The generator's arguments, passed on as received. */
  function TripOf(b: RequestBody): TripRequest
    requires Valid(b)
  {
    TripRequest(b.destination.value, b.startDate.value, b.endDate.value, b.budget.value, b.interests.value,
                b.accommodation, b.transportation, b.dietary, b.accessibility, b.notes)
  }

  /** `x || d` on an optional text. */
  function TextOr(v: Option<string>, d: string): (r: string)
    ensures TruthyText(v) ==> r == v.value
    ensures !TruthyText(v) ==> r == d
  {
    if TruthyText(v) then v.value else d
  }

  /** The stored row: the body's fields, the generated title, the image, and
      `"any"`, `[]` and `""` for missing preferences. */
  function RecordOf(user: string, b: RequestBody, title: Option<string>, imageUrl: string): (r: ItineraryRecord)
    requires Valid(b)
    ensures r.accommodation == TextOr(b.accommodation, "any")
    ensures r.transportation == TextOr(b.transportation, "any")
    ensures r.dietary == b.dietary.GetOr([]) && r.accessibility == b.accessibility.GetOr([])
    ensures r.notes == TextOr(b.notes, "")
  {
    ItineraryRecord(
      user, title, b.destination.value, b.startDate.value.text, b.endDate.value.text, b.budget.value,
      b.interests.value, imageUrl,
      TextOr(b.accommodation, "any"), TextOr(b.transportation, "any"),
      b.dietary.GetOr([]), b.accessibility.GetOr([]), TextOr(b.notes, ""))
  }

  /** One row per generated day, in order, under the new itinerary's id. */
  function DayRows(id: string, days: seq<Day>): (rows: seq<DayRow>)
    ensures |rows| == |days|
    ensures forall i | 0 <= i < |rows| ::
              rows[i] == DayRow(id, days[i].dayNumber, days[i].date, days[i].description, days[i].activities)
  {
    if |days| == 0 then []
    else [DayRow(id, days[0].dayNumber, days[0].date, days[0].description, days[0].activities)] + DayRows(id, days[1..])
  }

  /** The rows carry the days back: reading the day fields off the rows
      gives the generated days. */
  lemma {:induction false} DayRowsRoundTrip(id: string, days: seq<Day>)
    ensures DaysOf(DayRows(id, days)) == days
    decreases |days|
  {
    if |days| > 0 {
      DayRowsRoundTrip(id, days[1..]);
      assert DayRows(id, days)[1..] == DayRows(id, days[1..]);
    }
  }

  function DaysOf(rows: seq<DayRow>): seq<Day> {
    if |rows| == 0 then []
    else [Day(rows[0].dayNumber, rows[0].date, rows[0].description, rows[0].activities)] + DaysOf(rows[1..])
  }

  // ---------------------------------------------------------------------
  // The handler
  // ---------------------------------------------------------------------

  /** The status and message for an error thrown while generating or
      storing: 429 when the message mentions a rate limit or a quota. */
  function Classify(message: string): (r: (int, string))
    ensures r.0 == 429 <==> Contains(message, "rate limit") || Contains(message, "quota")
    ensures r.0 == 429 || r.0 == 500
    ensures r.1 == (if r.0 == 429 then BusyMessage else GenerateFailedMessage)
  {
    if Contains(message, "rate limit") || Contains(message, "quota") then (429, BusyMessage)
    else (500, GenerateFailedMessage)
  }

  /** The answer of the outer `catch`, whatever was thrown. */
  const OuterFailure: Outcome := Reject(500, "Failed to generate itinerary")

  /** The handler with the client it evidently means to use: the awaited
      result of `createClient()`. */
  function Post(env: Env): Outcome {
    if env.session.None? then Reject(401, "Unauthorized")
    else if env.body.None? then OuterFailure
    else if !Valid(env.body.value) then Reject(400, "Missing required fields")
    else Generated(env, env.session.value, env.body.value)
  }

  /** The request reaches the generator: signed in, with a body that
      passes validation. */
  predicate Admitted(env: Env) {
    env.session.Some? && env.body.Some? && Valid(env.body.value)
  }

  /** From the generator call on: generate, insert the itinerary, map and
      insert the days.  A plan that parsed to `null` fails on reading its
      title, before any insert. */
  function Generated(env: Env, user: string, b: RequestBody): (r: Outcome)
    requires Valid(b)
    ensures r.status == 200 || r.status == 429 || r.status == 500
    ensures r.status == 200 <==> r.error.None?
    ensures r.status == 200 ==> r.itinerary.Some? && r.days.Some? && |r.writes| == 2
    ensures r.status != 200 ==> r.itinerary.None? && r.days.None?
    ensures r.status == 429 ==> env.generate(TripOf(b)).Err? && r.writes == []
    ensures |r.writes| <= 2
    ensures r.writes != [] ==> && r.writes[0].InsertItinerary?
                               && r.writes[0].record.userId == user
                               && r.writes[0].record.destination == b.destination.value
    ensures |r.writes| == 2 ==> r.writes[1].InsertDays?
  {
    match env.generate(TripOf(b))
    case Err(e) =>
      var c := Classify(e.message);
      Outcome(c.0, Some(c.1), None, None, [])
    case Ok(NullData) =>
      TypeErrorsAreNotBusy();
      var c := Classify(NullTitleMessage);
      Outcome(c.0, Some(c.1), None, None, [])
    case Ok(ItineraryData(title, plannedDays)) =>
      var record := RecordOf(user, b, title, env.image(b.destination.value));
      match env.insertItinerary(record)
      case Err(_) => Outcome(500, Some("Failed to save itinerary"), None, None, [InsertItinerary(record)])
      case Ok(saved) =>
        match plannedDays
        case None =>
          TypeErrorsAreNotBusy();
          var c := Classify(MissingDaysMessage);
          Outcome(c.0, Some(c.1), None, None, [InsertItinerary(record)])
        case Some(days) =>
          var rows := DayRows(saved.id, days);
          match env.insertDays(rows)
          case Some(_) => Outcome(500, Some("Failed to save itinerary days"), None, None, [InsertItinerary(record), InsertDays(rows)])
          case None => Outcome(200, None, Some(saved), Some(days), [InsertItinerary(record), InsertDays(rows)])
  }

  /** The handler as written: `createClient()` is async and is called
      without `await`, so `supabase` is a promise, `supabase.auth` is
      `undefined`, and the `getSession()` call throws a `TypeError` inside
      the outer `try`.  Its `catch` answers every request, before the
      session, the body or the generator is looked at. */
  function PostAsWritten(env: Env): (r: Outcome)
    ensures r.status == 500 && r.error.Some? && r.writes == []
    ensures r.itinerary.None? && r.days.None?
  {
    OuterFailure
  }

  // ---------------------------------------------------------------------
  // Properties
  // ---------------------------------------------------------------------

  /** The unawaited client turns every answer into the outer failure: the
      handler as written agrees with the intended one only on a signed-in
      request whose body cannot be read.  No request is ever told 401,
      400, 429 or 200. */
  lemma UnawaitedClientAnswersOnly500(env: Env)
    ensures PostAsWritten(env) == Post(env) <==> env.session.Some? && env.body.None?
    ensures env.session.None? ==> Post(env).status == 401 && PostAsWritten(env).status == 500
  {
    if Admitted(env) {
      var r := Generated(env, env.session.value, env.body.value);
      assert r.error != Some("Failed to generate itinerary") by {
        assert |"Failed to generate itinerary"| == 28;
        assert |"Failed to save itinerary"| == 24;
        assert |"Failed to save itinerary days"| == 29;
        assert |GenerateFailedMessage| > 28 && |BusyMessage| > 28;
      }
    }
  }

  /** A generator that always fails with a quota error. */
  const QuotaExceeded: TripRequest -> Result<ItineraryData> := (t: TripRequest) => Err(Error("quota"))

  /** Without a session the answer is 401, before the body is read: nothing
      is written, and the generator is never consulted (any other
      generator gives the same answer). */
  lemma NoSessionIsUnauthorized(env: Env, g: TripRequest -> Result<ItineraryData>)
    requires env.session.None?
    ensures Post(env) == Reject(401, "Unauthorized") && Post(env).writes == []
    ensures Post(env.(generate := g)) == Post(env)
  {
  }

  /** A signed-in request with a falsy required field is answered 400 with
      no write, whatever the generator would have said. */
  lemma InvalidIsBadRequest(env: Env, g: TripRequest -> Result<ItineraryData>)
    requires env.session.Some? && env.body.Some? && !Valid(env.body.value)
    ensures Post(env) == Reject(400, "Missing required fields") && Post(env).writes == []
    ensures Post(env.(generate := g)) == Post(env)
  {
  }

  /** A budget of zero is rejected; an empty interest list is accepted. */
  lemma ZeroBudgetRejectedEmptyInterestsAccepted(b: RequestBody)
    requires TruthyText(b.destination) && TruthyDate(b.startDate) && TruthyDate(b.endDate)
    ensures !Valid(b.(budget := Some(0)))
    ensures Valid(b.(budget := Some(1), interests := Some([])))
  {
  }

  /** The generator is consulted exactly for admitted requests: for any
      other request, swapping the generator changes nothing, and a
      generator that reports an exhausted quota turns the answer into 429
      exactly when the request is admitted. */
  lemma GeneratorUsedIffAdmitted(env: Env, g: TripRequest -> Result<ItineraryData>)
    ensures !Admitted(env) ==> Post(env.(generate := g)) == Post(env)
    ensures Post(env.(generate := QuotaExceeded)).status == 429 <==> Admitted(env)
  {
    if Admitted(env) {
      assert StartsWith("quota", "quota");
    }
  }

  /** A reply that parsed to `null` fails on its title before any insert:
      500, with nothing written. */
  lemma NullPlanWritesNothing(env: Env)
    requires Admitted(env)
    requires env.generate(TripOf(env.body.value)) == Ok(NullData)
    ensures Post(env) == Outcome(500, Some(GenerateFailedMessage), None, None, [])
  {
  }

  /** A failed itinerary insert answers 500 and no day is written. */
  lemma ItineraryInsertFailureWritesNoDays(env: Env)
    requires Admitted(env)
    requires env.generate(TripOf(env.body.value)).Ok?
    requires var data := env.generate(TripOf(env.body.value)).value;
             && data.ItineraryData?
             && env.insertItinerary(RecordOf(env.session.value, env.body.value, data.title, env.image(env.body.value.destination.value))).Err?
    ensures Post(env).status == 500
    ensures forall w | w in Post(env).writes :: w.InsertItinerary?
  {
  }

  /** A failed days insert answers 500, and the itinerary row written
      before it stays: the writes are the itinerary, then the days, with
      nothing undoing the first. */
  lemma DaysInsertFailureKeepsItinerary(env: Env)
    requires Admitted(env)
    requires env.generate(TripOf(env.body.value)).Ok?
    requires var b := env.body.value;
             var data := env.generate(TripOf(b)).value;
             && data.ItineraryData?
             && var record := RecordOf(env.session.value, b, data.title, env.image(b.destination.value));
             && env.insertItinerary(record).Ok?
             && data.days.Some?
             && env.insertDays(DayRows(env.insertItinerary(record).value.id, data.days.value)).Some?
    ensures Post(env).status == 500
    ensures |Post(env).writes| == 2 && Post(env).writes[0].InsertItinerary? && Post(env).writes[1].InsertDays?
  {
  }

  /** A success answers 200 with the saved row and the generated days (not
      re-read from storage), after writing one row per day under the saved
      itinerary's id. */
  lemma SuccessReturnsGeneratedDays(env: Env)
    requires Post(env).status == 200
    ensures Admitted(env)
    ensures var data := env.generate(TripOf(env.body.value)).value;
            && env.generate(TripOf(env.body.value)).Ok?
            && data.ItineraryData?
            && data.days.Some?
            && Post(env).days == data.days
            && Post(env).itinerary.Some?
            && Post(env).writes[1] == InsertDays(DayRows(Post(env).itinerary.value.id, data.days.value))
  {
  }

  /** A generator error answers 429 exactly when its message mentions a rate
      limit or a quota, and 500 otherwise; nothing is written. */
  lemma GenerationErrorStatus(env: Env)
    requires Admitted(env)
    requires env.generate(TripOf(env.body.value)).Err?
    ensures var m := env.generate(TripOf(env.body.value)).error.message;
            && (Post(env).status == 429 <==> Contains(m, "rate limit") || Contains(m, "quota"))
            && (Post(env).status == 429 || Post(env).status == 500)
            && Post(env).writes == []
  {
  }

  /** A parsed plan without a `days` array is caught after the itinerary was
      written and answers 500: the saved itinerary has no days. */
  lemma MissingDaysAfterInsert(env: Env)
    requires Admitted(env)
    requires env.generate(TripOf(env.body.value)).Ok?
    requires var b := env.body.value;
             var data := env.generate(TripOf(b)).value;
             && data.ItineraryData?
             && env.insertItinerary(RecordOf(env.session.value, b, data.title, env.image(b.destination.value))).Ok?
             && data.days.None?
    ensures Post(env).status == 500 && Post(env).error == Some(GenerateFailedMessage)
    ensures |Post(env).writes| == 1 && Post(env).writes[0].InsertItinerary?
  {
  }

  /** A thrown message with no `q` and without one of the letters of
      "rate limit" is a plain 500. */
  lemma {:induction false} NotBusy(m: string, c: char)
    requires 'q' !in m && c in "rate limit" && c !in m
    ensures Classify(m) == (500, GenerateFailedMessage)
  {
    assert "quota"[0] == 'q';
    MissingChar(m, "quota", 'q');
    MissingChar(m, "rate limit", c);
  }

  /** Neither `TypeError` the handler can meet mentions a rate limit or a
      quota. */
  lemma TypeErrorsAreNotBusy()
    ensures Classify(MissingDaysMessage) == (500, GenerateFailedMessage)
    ensures Classify(NullTitleMessage) == (500, GenerateFailedMessage)
  {
    MissingDaysLetters();
    NullTitleLetters();
    assert "rate limit"[5] == 'l' && "rate limit"[7] == 'm';
    NotBusy(MissingDaysMessage, 'l');
    NotBusy(NullTitleMessage, 'm');
  }

  lemma MissingDaysLetters()
    ensures 'q' !in MissingDaysMessage && 'l' !in MissingDaysMessage
  {
    assert 'q' !in "Cannot " && 'q' !in "read " && 'q' !in "properties " && 'q' !in "of ";
    assert 'q' !in "undefined " && 'q' !in "(reading " && 'q' !in "'map')";
    assert 'l' !in "Cannot " && 'l' !in "read " && 'l' !in "properties " && 'l' !in "of ";
    assert 'l' !in "undefined " && 'l' !in "(reading " && 'l' !in "'map')";
  }

  lemma NullTitleLetters()
    ensures 'q' !in NullTitleMessage && 'm' !in NullTitleMessage
  {
    assert 'q' !in "Cannot " && 'q' !in "read " && 'q' !in "properties " && 'q' !in "of ";
    assert 'q' !in "null " && 'q' !in "(reading " && 'q' !in "'title')";
    assert 'm' !in "Cannot " && 'm' !in "read " && 'm' !in "properties " && 'm' !in "of ";
    assert 'm' !in "null " && 'm' !in "(reading " && 'm' !in "'title')";
  }
}

=== FILE: middleware.dfy ===
/** The route guard of middleware.ts: a request without a session whose
    path starts with one of the protected prefixes is redirected to the
    login page, which is told where the visitor came from; every other
    request passes through. */
module Middleware {
  import opened Text

  datatype Decision = Next | Redirect(target: string, redirectedFrom: string)

  /** `pathname.startsWith(...)` for the three protected areas; a raw
      prefix test, so it does not look at path segments. */
  predicate Protected(path: string) {
    StartsWith(path, "/dashboard") || StartsWith(path, "/create-itinerary") || StartsWith(path, "/itinerary")
  }

  function Decide(hasSession: bool, path: string): (d: Decision)
    ensures d.Redirect? <==> !hasSession && Protected(path)
    ensures d.Redirect? ==> d.target == "/login" && d.redirectedFrom == path
  {
    if !hasSession && Protected(path) then Redirect("/login", path) else Next
  }

  /** A signed-in visitor always passes. */
  lemma SessionPasses(path: string)
    ensures Decide(true, path) == Next
  {
  }

  /** Extending a protected path keeps it protected: everything below a
      protected prefix is guarded too. */
  lemma ProtectedExtends(path: string, more: string)
    requires Protected(path)
    ensures Protected(path + more)
  {
    assert forall w: string | StartsWith(path, w) :: (path + more)[..|w|] == path[..|w|];
  }

  /** Because the test is on raw prefixes, paths that merely begin like a
      protected area are guarded as well, while the home page and the API
      are not. */
  lemma PrefixExamples()
    ensures Decide(false, "/itinerary-x") == Redirect("/login", "/itinerary-x")
    ensures Decide(false, "/dashboardX") == Redirect("/login", "/dashboardX")
    ensures Decide(false, "/") == Next
    ensures Decide(false, "/api/itineraries") == Next
  {
    assert "/itinerary-x"[..10] == "/itinerary";
    assert "/dashboardX"[..10] == "/dashboard";
    assert "/api/itineraries"[1] != "/dashboard"[1];
    assert "/api/itineraries"[1] != "/create-itinerary"[1];
    assert "/api/itineraries"[1] != "/itinerary"[1];
  }
}

=== FILE: numbers.dfy ===
/** JavaScript's `Math.min`, `Math.max`, `Math.ceil(a / b)` and
    `Math.round(a / b)` on whole numbers. */
module Numbers {

  function Min(a: int, b: int): (r: int)
    ensures r <= a && r <= b && (r == a || r == b)
  {
    if a <= b then a else b
  }

  function Max(a: int, b: int): (r: int)
    ensures r >= a && r >= b && (r == a || r == b)
  {
    if a >= b then a else b
  }

  /** `Math.ceil(a / b)` for a positive divisor: the least integer not
      below the exact quotient. */
  function CeilDiv(a: int, b: int): (r: int)
    requires b > 0
    ensures b * (r - 1) < a <= b * r
  {
    -((-a) / b)
  }

  /** `Math.round(a / b)` for a positive divisor: the integer nearest the
      exact quotient, halves rounded up (`Math.round(x)` is `floor(x + 1/2)`). */
  function RoundDiv(a: int, b: int): (r: int)
    requires b > 0
    ensures 2 * b * r - b <= 2 * a < 2 * b * r + b
  {
    var q := (2 * a + b) / (2 * b);
    assert 2 * a + b == 2 * b * q + (2 * a + b) % (2 * b);
    q
  }

  /** Multiplying by a natural number keeps the order. */
  lemma Scale(n: nat, a: int, b: int)
    requires a <= b
    ensures n * a <= n * b
  {
    assert n * b - n * a == n * (b - a);
  }
}

=== FILE: packing_generator.dfy ===
/** `generatePackingList` and `generateFallbackPackingList`
    (lib/packing-list-generator.ts): ask the model for a packing list, take
    the JSON out of a fenced block, parse it once (there is no repair step
    here) and fall back to a fixed list when that fails.

    The model and `JSON.parse` are parameters, as in module Gemini. */
module PackingGenerator {
  import opened Wrappers
  import opened Text
  import opened Numbers
  import Fence
  import Gemini

  /** One packing item; `notes` is `null` when absent. */
  datatype PackingItem = PackingItem(
    name: string,
    category: string,
    quantity: int,
    isPacked: bool,
    isEssential: bool,
    notes: Option<string>)

  /** The generator's result.  `categories` is passed through from the
      parsed value unchecked, so it is `None` when that value has none. */
  datatype PackingList = PackingList(categories: Option<seq<string>>, items: seq<PackingItem>)

  /** The value `JSON.parse` produced; a field it lacks, or holds with
      another type, is `None`. */
  datatype ParsedPackingList = ParsedPackingList(categories: Option<seq<string>>, items: Option<seq<PackingItem>>)

  /** The generator's arguments; `None` is `undefined`. */
  datatype PackingRequest = PackingRequest(
    destination: string,
    startDate: Gemini.CalendarDate,
    endDate: Gemini.CalendarDate,
    interests: seq<string>,
    accommodation: Option<string>,
    transportation: Option<string>,
    notes: Option<string>)

  // ---------------------------------------------------------------------
  // Prompt
  // ---------------------------------------------------------------------

  /** The values the packing prompt interpolates (its prose is left out).
      Unlike the itinerary prompt, this one carries the preferences. */
  datatype PackingPrompt = PackingPrompt(
    duration: int,
    destination: string,
    startText: string,
    endText: string,
    interests: string,
    accommodation: string,
    transportation: string,
    notes: string)

  function AccommodationLine(v: Option<string>): string {
    Gemini.ChoicePhrase("Accommodation: ", "No specific accommodation preference", v)
  }

  function TransportationLine(v: Option<string>): string {
    Gemini.ChoicePhrase("Transportation: ", "No specific transportation preference", v)
  }

  function TripDuration(req: PackingRequest): int {
    Gemini.DayCount(req.startDate, req.endDate)
  }

  function PackingPromptFor(req: PackingRequest): (p: PackingPrompt)
    ensures p.duration == TripDuration(req)
    ensures p.interests == Join(req.interests, ", ")
    ensures p.accommodation == AccommodationLine(req.accommodation)
    ensures p.transportation == TransportationLine(req.transportation)
    ensures p.notes == Gemini.NotesPhrase(req.notes)
  {
    PackingPrompt(
      TripDuration(req), req.destination, req.startDate.text, req.endDate.text,
      Join(req.interests, ", "),
      AccommodationLine(req.accommodation),
      TransportationLine(req.transportation),
      Gemini.NotesPhrase(req.notes))
  }

  /** Every field of the request reaches the packing prompt: two requests
      get the same prompt exactly when they agree on the destination, the
      date texts, the duration and the joined interests, and their
      accommodation, transportation and notes are the same once an absent,
      empty or `"any"` choice (an absent or empty note) is read as none. */
  lemma PackingPromptReflectsRequest(a: PackingRequest, b: PackingRequest)
    ensures PackingPromptFor(a) == PackingPromptFor(b) <==>
              && a.destination == b.destination
              && a.startDate.text == b.startDate.text && a.endDate.text == b.endDate.text
              && TripDuration(a) == TripDuration(b)
              && Join(a.interests, ", ") == Join(b.interests, ", ")
              && Gemini.SameChoice(a.accommodation, b.accommodation)
              && Gemini.SameChoice(a.transportation, b.transportation)
              && Gemini.SameNote(a.notes, b.notes)
  {
    Gemini.ChoicePhraseSeparates("Accommodation: ", "No specific accommodation preference", a.accommodation, b.accommodation);
    Gemini.ChoicePhraseSeparates("Transportation: ", "No specific transportation preference", a.transportation, b.transportation);
    Gemini.NotesPhraseSeparates(a.notes, b.notes);
  }

  // ---------------------------------------------------------------------
  // The fallback list
  // ---------------------------------------------------------------------

  const FallbackCategories: seq<string> := ["Clothing", "Toiletries", "Electronics", "Documents", "Miscellaneous"]

  /** An unpacked essential item without notes. */
  function Essential(name: string, category: string, quantity: int): PackingItem {
    PackingItem(name, category, quantity, false, true, None)
  }

  /** `generateFallbackPackingList(destination, duration)`. */
  function FallbackList(destination: string, duration: int): PackingList {
    PackingList(Some(FallbackCategories), [
      Essential("T-shirts", "Clothing", Min(duration, 7)),
      Essential("Underwear", "Clothing", Min(duration + 2, 10)),
      Essential("Socks", "Clothing", Min(duration, 7)),
      Essential("Pants/Shorts", "Clothing", CeilDiv(duration, 3)),
      Essential("Toothbrush", "Toiletries", 1),
      Essential("Toothpaste", "Toiletries", 1),
      Essential("Shampoo", "Toiletries", 1),
      Essential("Soap/Body wash", "Toiletries", 1),
      Essential("Phone charger", "Electronics", 1),
      Essential("Phone", "Electronics", 1),
      PackingItem("Passport", "Documents", 1, false, true, Some("Keep in a secure place")),
      Essential("Travel insurance", "Documents", 1),
      Essential("Credit/Debit cards", "Documents", 2),
      Essential("First aid kit", "Miscellaneous", 1),
      PackingItem("Water bottle", "Miscellaneous", 1, false, false, None)
    ])
  }

  /** The fallback has fifteen unpacked items, all in one of its five
      categories, and every item but the water bottle is essential. */
  lemma FallbackShape(destination: string, duration: int)
    ensures var l := FallbackList(destination, duration);
            && l.categories == Some(["Clothing", "Toiletries", "Electronics", "Documents", "Miscellaneous"])
            && |l.items| == 15
            && (forall i | 0 <= i < 15 :: l.items[i].category in l.categories.value)
            && (forall i | 0 <= i < 15 :: !l.items[i].isPacked)
            && (forall i | 0 <= i < 15 :: l.items[i].isEssential <==> l.items[i].name != "Water bottle")
  {
  }

  /** The fallback quantities: a shirt and a pair of socks a day up to a
      week, two spare sets of underwear up to ten, a pair of trousers every
      three days, two cards, and one of everything else.  Every item is
      unpacked and essential except the water bottle, and only the
      passport has a note. */
  lemma FallbackQuantities(destination: string, d: int)
    ensures var items := FallbackList(destination, d).items;
            && |items| == 15
            && items[0].quantity == items[2].quantity == (if d <= 7 then d else 7)
            && items[1].quantity == (if d + 2 <= 10 then d + 2 else 10)
            && 3 * (items[3].quantity - 1) < d <= 3 * items[3].quantity
            && items[12].quantity == 2
            && (forall i | 4 <= i < 15 && i != 12 :: items[i].quantity == 1)
            && (forall i | 0 <= i < 15 :: !items[i].isPacked && (items[i].isEssential <==> i != 14))
            && (forall i | 0 <= i < 15 :: items[i].notes.Some? <==> i == 10)
  {
  }

  /** For a trip of at least one day every quantity is at least one. */
  lemma FallbackQuantitiesPositive(destination: string, d: int)
    requires d >= 1
    ensures forall i | 0 <= i < |FallbackList(destination, d).items| :: FallbackList(destination, d).items[i].quantity >= 1
  {
    FallbackQuantities(destination, d);
  }

  /** The destination is not used: the same duration gives the same list. */
  lemma FallbackIgnoresDestination(a: string, b: string, d: int)
    ensures FallbackList(a, d) == FallbackList(b, d)
  {
  }

  // ---------------------------------------------------------------------
  // Generation
  // ---------------------------------------------------------------------

  /** Every parsed item marked unpacked, its other fields kept. */
  function Unpacked(items: seq<PackingItem>): (r: seq<PackingItem>)
    ensures |r| == |items|
    ensures forall i | 0 <= i < |r| :: !r[i].isPacked
    ensures forall i | 0 <= i < |r| ::
              && r[i].name == items[i].name && r[i].category == items[i].category
              && r[i].quantity == items[i].quantity && r[i].isEssential == items[i].isEssential
              && r[i].notes == items[i].notes
  {
    seq(|items|, i requires 0 <= i < |items| => items[i].(isPacked := false))
  }

  /** The parse step: the parsed list with every item unpacked, or the
      fallback when the text does not parse or the value has no `items`
      array (`.map` of `undefined` throws into the same handler). */
  function ParseOrFallback(candidate: string, req: PackingRequest, parse: string -> Option<ParsedPackingList>): PackingList {
    match parse(candidate)
    case Some(ParsedPackingList(categories, Some(items))) => PackingList(categories, Unpacked(items))
    case _ => FallbackList(req.destination, TripDuration(req))
  }

  /** `generatePackingList` AS WRITTEN.  The outer handler calls the fallback
      with `tripDuration`, a `const` of the `try` block and so not in scope
      in the `catch`: every error it catches (a missing key, a failing model
      call) turns into a `ReferenceError` instead of a fallback list. */
  function GenerateAsWritten(key: Option<string>, req: PackingRequest, model: PackingPrompt -> Result<string>,
                             parse: string -> Option<ParsedPackingList>): (r: Result<PackingList>)
  {
    match Gemini.Client(key)
    case Err(_) => Err(Error("tripDuration is not defined"))
    case Ok(_) =>
      match model(PackingPromptFor(req))
      case Err(_) => Err(Error("tripDuration is not defined"))
      case Ok(reply) => Ok(ParseOrFallback(Fence.ExtractCandidate(reply), req, parse))
  }

  /** The scoping defect shows with no key at all: the caller gets an error
      where the handler evidently meant to return the fallback list. */
  lemma MissingKeyThrowsAsWritten(req: PackingRequest, model: PackingPrompt -> Result<string>,
                                  parse: string -> Option<ParsedPackingList>)
    ensures GenerateAsWritten(None, req, model, parse) == Err(Error("tripDuration is not defined"))
    ensures GenerateAsWritten(None, req, model, parse) != Ok(FallbackList(req.destination, TripDuration(req)))
  {
  }

  /** `generatePackingList` as intended: it never fails, and any error
      outside the parse step also gives the fallback list (the duration is
      plain date arithmetic and cannot itself fail). */
  function Generate(key: Option<string>, req: PackingRequest, model: PackingPrompt -> Result<string>,
                    parse: string -> Option<ParsedPackingList>): (r: PackingList)
    ensures Gemini.Client(key).Err? ==> r == FallbackList(req.destination, TripDuration(req))
  {
    match Gemini.Client(key)
    case Err(_) => FallbackList(req.destination, TripDuration(req))
    case Ok(_) =>
      match model(PackingPromptFor(req))
      case Err(_) => FallbackList(req.destination, TripDuration(req))
      case Ok(reply) => ParseOrFallback(Fence.ExtractCandidate(reply), req, parse)
  }

  /** The intended generator returns a parsed list exactly when the model
      answered and its candidate parsed with an `items` array; every other
      path gives the fallback list for the trip's duration. */
  lemma GenerateOutcomes(key: Option<string>, req: PackingRequest, model: PackingPrompt -> Result<string>,
                         parse: string -> Option<ParsedPackingList>)
    ensures var r := Generate(key, req, model, parse);
            var parsed := ParsedReply(key, req, model, parse);
            && (parsed.Some? ==> r == PackingList(parsed.value.categories, Unpacked(parsed.value.items.value)))
            && (parsed.None? ==> r == FallbackList(req.destination, TripDuration(req)))
  {
  }

  /** The parsed value the generator uses, when the key is set, the model
      answered and the candidate parsed to a value with an `items` array. */
  function ParsedReply(key: Option<string>, req: PackingRequest, model: PackingPrompt -> Result<string>,
                       parse: string -> Option<ParsedPackingList>): (r: Option<ParsedPackingList>)
    ensures r.Some? ==> r.value.items.Some?
  {
    if Gemini.Client(key).Err? || model(PackingPromptFor(req)).Err? then None
    else
      var p := parse(Fence.ExtractCandidate(model(PackingPromptFor(req)).value));
      if p.Some? && p.value.items.Some? then p else None
  }

  /** Where the model answered, the written and the intended generator
      agree; they differ only on the errors the outer handler catches. */
  lemma AsWrittenAgreesOnAnswers(key: Option<string>, req: PackingRequest, model: PackingPrompt -> Result<string>,
                                 parse: string -> Option<ParsedPackingList>)
    ensures Gemini.Client(key).Ok? && model(PackingPromptFor(req)).Ok? ==>
              GenerateAsWritten(key, req, model, parse) == Ok(Generate(key, req, model, parse))
    ensures Gemini.Client(key).Err? || model(PackingPromptFor(req)).Err? ==>
              GenerateAsWritten(key, req, model, parse).Err?
  {
  }
}

=== FILE: packing_view.dfy ===
/** The state logic of components/packing-list/packing-list.tsx: the
    category tabs derived from the items, the progress bar, the optimistic
    packed toggle and its revert, adding and deleting items, the category
    filter and the per-category counts.

    The items are the `packing_items` rows the API returns.  Each handler is
    a function from the component's state and what its request answered to
    the next state; the requests themselves are left out. */
module PackingView {
  import opened Wrappers
  import opened Numbers
  import Seqs
  import opened StringOrder
  import opened Storage

  /** The fields of the "add item" form that the handlers read or reset. */
  datatype ItemForm = ItemForm(name: string, category: string, quantity: int, isEssential: bool, notes: string)

  const EmptyForm: ItemForm := ItemForm("", "", 1, false, "")

  datatype ViewState = ViewState(
    list: Option<seq<ItemRow>>,
    categories: seq<string>,
    progress: int,
    form: ItemForm,
    customCategory: string,
    showAddCategory: bool)

  // ---------------------------------------------------------------------
  // Categories
  // ---------------------------------------------------------------------

  function CategoriesOf(items: seq<ItemRow>): (r: seq<string>)
    ensures |r| == |items|
    ensures forall k | 0 <= k < |items| :: r[k] == items[k].category
  {
    seq(|items|, k requires 0 <= k < |items| => items[k].category)
  }

  /** `Array.from(new Set(items.map(i => i.category))).sort()`. */
  function Categories(items: seq<ItemRow>): (r: seq<string>)
    ensures Seqs.Sorted(r, StrLeq)
    ensures Seqs.Distinct(r)
    ensures forall c :: c in r <==> exists k | 0 <= k < |items| :: items[k].category == c
  {
    var unique := Seqs.Dedupe(CategoriesOf(items));
    StrLeqIsTotal();
    Seqs.SortKeepsDistinct(unique, StrLeq);
    SortStrings(unique)
  }

  /** The state after the list was fetched or generated: a list replaces the
      items and the categories; no list (`data.packingList` falsy) clears
      the items on fetch and leaves everything as it was on generate. */
  function Fetched(s: ViewState, answer: Option<seq<ItemRow>>): (r: ViewState)
    ensures answer.Some? ==> r.list == answer && r.categories == Categories(answer.value)
    ensures answer.None? ==> r == s.(list := None)
  {
    match answer
    case Some(items) => s.(list := Some(items), categories := Categories(items))
    case None => s.(list := None)
  }

  function Generated(s: ViewState, answer: Option<seq<ItemRow>>): (r: ViewState)
    ensures answer.Some? ==> r == Fetched(s, answer)
    ensures answer.None? ==> r == s
  {
    if answer.Some? then Fetched(s, answer) else s
  }

  // ---------------------------------------------------------------------
  // Progress
  // ---------------------------------------------------------------------

  function PackedCount(items: seq<ItemRow>): (n: nat)
    ensures n <= |items|
  {
    |Seqs.Filter(items, (x: ItemRow) => x.isPacked)|
  }

  /** The progress effect: for a non-empty list, the percentage of packed
      items rounded half up (within half a percent of the exact share);
      otherwise the bar keeps its previous value. */
  function Progress(previous: int, list: Option<seq<ItemRow>>): (r: int)
    ensures list.Some? && |list.value| > 0 ==> 0 <= r <= 100
    ensures list.Some? && |list.value| > 0 ==>
              var n := |list.value|;
              2 * n * r - n <= 200 * PackedCount(list.value) < 2 * n * r + n
    ensures list.None? || |list.value| == 0 ==> r == previous
  {
    if list.Some? && |list.value| > 0 then
      PercentBounds(PackedCount(list.value), |list.value|);
      RoundDiv(100 * PackedCount(list.value), |list.value|)
    else previous
  }

  /** The bar reads 0 exactly when fewer than half a percent of the items
      are packed, and 100 exactly when no more than half a percent are
      unpacked; in particular nothing packed gives 0 and everything packed
      gives 100. */
  lemma ProgressEnds(previous: int, items: seq<ItemRow>)
    requires |items| > 0
    ensures var p := PackedCount(items);
            && (Progress(previous, Some(items)) == 0 <==> 200 * p < |items|)
            && (Progress(previous, Some(items)) == 100 <==> 200 * p >= 199 * |items|)
            && (p == 0 ==> Progress(previous, Some(items)) == 0)
            && (p == |items| ==> Progress(previous, Some(items)) == 100)
  {
    PercentBounds(PackedCount(items), |items|);
  }

  /** When the packed share is a whole percentage the bar shows exactly
      that percentage: one of four packed reads 25. */
  lemma ProgressExactShare(previous: int, items: seq<ItemRow>, q: int)
    requires |items| > 0 && 100 * PackedCount(items) == q * |items|
    ensures Progress(previous, Some(items)) == q
  {
    RoundedExact(|items|, Progress(previous, Some(items)), q);
  }

  /** Within half of `n` of an exact multiple of `n` lies only that multiple. */
  lemma RoundedExact(n: int, r: int, q: int)
    requires n > 0 && 2 * n * r - n <= 2 * (q * n) < 2 * n * r + n
    ensures r == q
  {
    assert 2 * n * (r - q) == 2 * n * r - 2 * (q * n);
    NoSmallMultiple(n, r - q);
  }

  /** The only multiple of `2n` in `(-n, n]` is zero. */
  lemma NoSmallMultiple(n: int, x: int)
    requires n > 0 && -n < 2 * n * x <= n
    ensures x == 0
  {
  }

  /** The rounded percentage `p` of `n`, with its two ends. */
  lemma PercentBounds(p: nat, n: nat)
    requires 0 < n && p <= n
    ensures var r := RoundDiv(100 * p, n);
            && 0 <= r <= 100
            && (r == 0 <==> 200 * p < n)
            && (r == 100 <==> 200 * p >= 199 * n)
  {
    var r := RoundDiv(100 * p, n);
    assert 2 * n * r - n <= 200 * p < 2 * n * r + n;
    if r >= 101 {
      Scale(n, 101, r);
    }
    if r <= -1 {
      Scale(n, r, -1);
    }
    if r >= 1 {
      Scale(n, 1, r);
    }
    if r <= 99 {
      Scale(n, r, 99);
    }
  }

  // ---------------------------------------------------------------------
  // Packed toggle
  // ---------------------------------------------------------------------

  /** `prevList?.map(item => item.id === id ? {...item, is_packed: v} : item) || null`. */
  function SetPacked(list: Option<seq<ItemRow>>, id: nat, v: bool): (r: Option<seq<ItemRow>>)
    ensures r.None? <==> list.None?
    ensures list.Some? ==> |r.value| == |list.value|
    ensures list.Some? ==> forall k | 0 <= k < |list.value| ::
              r.value[k] == if list.value[k].id == id then list.value[k].(isPacked := v) else list.value[k]
  {
    match list
    case None => None
    case Some(items) =>
      Some(seq(|items|, k requires 0 <= k < |items| => if items[k].id == id then items[k].(isPacked := v) else items[k]))
  }

  /** The optimistic update sets the flag to the negation of the value the
      checkbox showed, not of the item's current flag. */
  function Toggle(list: Option<seq<ItemRow>>, id: nat, shown: bool): (r: Option<seq<ItemRow>>)
    ensures list.Some? ==> r.Some? && |r.value| == |list.value|
    ensures list.Some? ==> forall k | 0 <= k < |list.value| && list.value[k].id == id :: r.value[k].isPacked == !shown
  {
    SetPacked(list, id, !shown)
  }

  /** The revert after a failed request writes back the value shown, and
      touches no other item and no other field. */
  function Revert(list: Option<seq<ItemRow>>, id: nat, shown: bool): (r: Option<seq<ItemRow>>)
    ensures list.None? ==> r.None?
    ensures list.Some? ==> r.Some? && |r.value| == |list.value|
    ensures list.Some? ==> forall k | 0 <= k < |list.value| && list.value[k].id == id :: r.value[k].isPacked == shown
    ensures list.Some? ==> forall k | 0 <= k < |list.value| :: r.value[k].(isPacked := list.value[k].isPacked) == list.value[k]
    ensures list.Some? ==> forall k | 0 <= k < |list.value| && list.value[k].id != id :: r.value[k] == list.value[k]
  {
    SetPacked(list, id, shown)
  }

  /** When the checkbox showed the item's real flag, the revert gives back
      the list exactly as it was before the toggle. */
  lemma RevertRestores(list: Option<seq<ItemRow>>, id: nat, shown: bool)
    requires list.Some? ==> forall x | x in list.value && x.id == id :: x.isPacked == shown
    ensures Revert(Toggle(list, id, shown), id, shown) == list
  {
    if list.Some? {
      var items := list.value;
      var back := Revert(Toggle(list, id, shown), id, shown).value;
      assert |back| == |items|;
      forall k | 0 <= k < |items|
        ensures back[k] == items[k]
      {
        if items[k].id == id {
          assert items[k] in items;
        }
      }
      assert back == items;
    }
  }

  /** The toggle changes no other item, and no other field. */
  lemma ToggleOnlyFlag(list: Option<seq<ItemRow>>, id: nat, shown: bool)
    requires list.Some?
    ensures var r := Toggle(list, id, shown).value;
            && |r| == |list.value|
            && (forall k | 0 <= k < |r| :: r[k].(isPacked := list.value[k].isPacked) == list.value[k])
            && (forall k | 0 <= k < |r| && list.value[k].id != id :: r[k] == list.value[k])
  {
  }

  // ---------------------------------------------------------------------
  // Adding and deleting
  // ---------------------------------------------------------------------

  /** The category the add handler sends: the custom one while its box is
      shown, the selected one otherwise. */
  function ChosenCategory(s: ViewState): string {
    if s.showAddCategory then s.customCategory else s.form.category
  }

  /** What pressing "add" sends, if anything: nothing when the name or the
      chosen category is empty. */
  function AddRequest(s: ViewState): (r: Option<ItemForm>)
    ensures r.None? <==> s.form.name == "" || ChosenCategory(s) == ""
    ensures r.Some? ==> r.value == s.form.(category := ChosenCategory(s))
  {
    if s.form.name == "" || ChosenCategory(s) == "" then None
    else Some(s.form.(category := ChosenCategory(s)))
  }

  /** `categories.includes(c) ? categories : [...categories, c].sort()`. */
  function WithCategory(categories: seq<string>, c: string): (r: seq<string>)
    ensures c in categories ==> r == categories
    ensures c !in categories ==> multiset(r) == multiset(categories) + multiset{c} && Seqs.Sorted(r, StrLeq)
  {
    if c in categories then categories else SortStrings(categories + [c])
  }

  /** The add handler, given the item the server answered with (`None` when
      `data.item` is falsy or there was no request). */
  function AddItem(s: ViewState, created: Option<ItemRow>): (r: ViewState)
    ensures AddRequest(s).None? || created.None? ==> r == s
    ensures AddRequest(s).Some? && created.Some? ==>
              && r.list == Some(s.list.GetOr([]) + [created.value])
              && r.categories == WithCategory(s.categories, ChosenCategory(s))
              && r.form == EmptyForm && r.customCategory == "" && !r.showAddCategory
              && r.progress == s.progress
  {
    if AddRequest(s).None? || created.None? then s
    else
      ViewState(Some(s.list.GetOr([]) + [created.value]), WithCategory(s.categories, ChosenCategory(s)),
                s.progress, EmptyForm, "", false)
  }

  /** A successful add keeps every earlier item in place and puts the new
      one last. */
  lemma AddAppends(s: ViewState, created: ItemRow)
    requires AddRequest(s).Some?
    ensures var items := AddItem(s, Some(created)).list.value;
            && |items| == |s.list.GetOr([])| + 1
            && items[|items| - 1] == created
            && items[..|items| - 1] == s.list.GetOr([])
  {
    var before := s.list.GetOr([]);
    assert (before + [created])[..|before|] == before;
  }

  /** The remaining items after deleting `id`. */
  function Without(items: seq<ItemRow>, id: nat): (r: seq<ItemRow>)
    ensures forall x :: x in r <==> x in items && x.id != id
    ensures Seqs.IsSubsequence(r, items)
  {
    Seqs.Filter(items, (x: ItemRow) => x.id != id)
  }

  /** The delete handler when the request went through: the items with that
      id go, the order of the rest is kept, and the categories are derived
      again from what remains. */
  function DeleteItem(s: ViewState, id: nat): (r: ViewState)
    ensures s.list.None? ==> r == s
    ensures s.list.Some? ==> r.list == Some(Without(s.list.value, id)) && r.categories == Categories(Without(s.list.value, id))
  {
    match s.list
    case None => s
    case Some(items) => s.(list := Some(Without(items, id)), categories := Categories(Without(items, id)))
  }

  /** The delete handler when the request threw: the optimistic removal
      stands unless the refetch returns a list, and the categories are not
      recomputed. */
  function DeleteFailed(s: ViewState, id: nat, refetched: Option<seq<ItemRow>>): (r: ViewState)
    ensures r.categories == s.categories
    ensures refetched.Some? ==> r.list == refetched
    ensures refetched.None? && s.list.Some? ==> r.list == Some(Without(s.list.value, id))
  {
    var removed := if s.list.Some? then Some(Without(s.list.value, id)) else None;
    if refetched.Some? then s.(list := refetched) else s.(list := removed)
  }

  /** After a delete no item with that id is left and no category names an
      item that is gone. */
  lemma DeleteLeavesNoTrace(s: ViewState, id: nat, c: string)
    requires s.list.Some?
    requires c in DeleteItem(s, id).categories
    ensures forall x | x in DeleteItem(s, id).list.value :: x.id != id
    ensures exists x | x in s.list.value :: x.id != id && x.category == c
  {
    var rest := Without(s.list.value, id);
    var k :| 0 <= k < |rest| && rest[k].category == c;
    assert rest[k] in rest;
  }

  // ---------------------------------------------------------------------
  // Filter and counts
  // ---------------------------------------------------------------------

  /** The items the active tab shows. */
  function Filtered(list: Option<seq<ItemRow>>, active: string): (r: seq<ItemRow>)
    ensures list.None? ==> r == []
    ensures list.Some? && active == "all" ==> r == list.value
    ensures list.Some? && active != "all" ==>
              Seqs.IsSubsequence(r, list.value) && forall x :: x in r <==> x in list.value && x.category == active
  {
    match list
    case None => []
    case Some(items) => if active == "all" then items else InCategory(items, active)
  }

  function InCategory(items: seq<ItemRow>, c: string): (r: seq<ItemRow>)
    ensures forall x :: x in r <==> x in items && x.category == c
    ensures Seqs.IsSubsequence(r, items)
  {
    Seqs.Filter(items, (x: ItemRow) => x.category == c)
  }

  function PackedInCategory(items: seq<ItemRow>, c: string): (r: seq<ItemRow>)
    ensures forall x :: x in r <==> x in items && x.category == c && x.isPacked
  {
    Seqs.Filter(items, (x: ItemRow) => x.category == c && x.isPacked)
  }

  /** `getCategoryCount`. */
  function CategoryCount(list: Option<seq<ItemRow>>, c: string): (n: nat)
    ensures list.None? ==> n == 0
    ensures list.Some? ==> n == |InCategory(list.value, c)|
  {
    if list.Some? then |InCategory(list.value, c)| else 0
  }

  /** `getPackedCategoryCount`. */
  function PackedCategoryCount(list: Option<seq<ItemRow>>, c: string): (n: nat)
    ensures list.None? ==> n == 0
    ensures list.Some? ==> n == |PackedInCategory(list.value, c)|
  {
    if list.Some? then |PackedInCategory(list.value, c)| else 0
  }

  /** A category never has more packed items than items. */
  lemma PackedAtMostCount(list: Option<seq<ItemRow>>, c: string)
    ensures PackedCategoryCount(list, c) <= CategoryCount(list, c)
  {
    if list.Some? {
      PackedSubset(list.value, c);
    }
  }

  lemma {:induction false} PackedSubset(items: seq<ItemRow>, c: string)
    ensures |PackedInCategory(items, c)| <= |InCategory(items, c)|
    decreases |items|
  {
    if |items| > 0 {
      PackedSubset(items[1..], c);
    }
  }

  /** The "all" tab of a loaded list shows as many items as the category
      tabs together. */
  lemma {:induction false} CountsAddUp(items: seq<ItemRow>)
    ensures SumCounts(items, Categories(items)) == |items|
  {
    var cs := Categories(items);
    forall x | x in items
      ensures x.category in cs
    {
      var k :| 0 <= k < |items| && items[k] == x;
    }
    SumCountsAll(items, cs);
  }

  /** The item counts of the categories `cs`, added up. */
  function SumCounts(items: seq<ItemRow>, cs: seq<string>): nat {
    if |cs| == 0 then 0 else |InCategory(items, cs[0])| + SumCounts(items, cs[1..])
  }

  /** How many entries of `cs` equal `c`. */
  function Hits(cs: seq<string>, c: string): nat {
    if |cs| == 0 then 0 else (if cs[0] == c then 1 else 0) + Hits(cs[1..], c)
  }

  lemma {:induction false} HitsAbsent(cs: seq<string>, c: string)
    requires c !in cs
    ensures Hits(cs, c) == 0
    decreases |cs|
  {
    if |cs| > 0 {
      HitsAbsent(cs[1..], c);
    }
  }

  lemma {:induction false} HitsOnce(cs: seq<string>, c: string)
    requires Seqs.Distinct(cs) && c in cs
    ensures Hits(cs, c) == 1
    decreases |cs|
  {
    if cs[0] == c {
      HitsAbsent(cs[1..], c);
    } else {
      HitsOnce(cs[1..], c);
    }
  }

  /** Putting one item in front adds one to the count of each category
      entry that names it. */
  lemma {:induction false} SumCountsCons(x: ItemRow, rest: seq<ItemRow>, cs: seq<string>)
    ensures SumCounts([x] + rest, cs) == Hits(cs, x.category) + SumCounts(rest, cs)
    decreases |cs|
  {
    if |cs| > 0 {
      SumCountsCons(x, rest, cs[1..]);
      assert ([x] + rest)[1..] == rest;
    }
  }

  lemma {:induction false} SumCountsAll(items: seq<ItemRow>, cs: seq<string>)
    requires Seqs.Distinct(cs)
    requires forall x | x in items :: x.category in cs
    ensures SumCounts(items, cs) == |items|
    decreases |items|
  {
    if |items| == 0 {
      SumCountsEmpty(cs);
    } else {
      assert items == [items[0]] + items[1..];
      SumCountsAll(items[1..], cs);
      SumCountsCons(items[0], items[1..], cs);
      HitsOnce(cs, items[0].category);
    }
  }

  lemma {:induction false} SumCountsEmpty(cs: seq<string>)
    ensures SumCounts([], cs) == 0
    decreases |cs|
  {
    if |cs| > 0 {
      SumCountsEmpty(cs[1..]);
    }
  }
}

=== FILE: repair.dfy ===
/** The five textual repairs `generateItineraryWithGemini` applies to a
    candidate that failed to parse (lib/gemini.ts), in the order the source
    chains its `.replace` calls.

    Each step is a global replace (module Replace) whose pattern is written
    out as a search at the start of the remaining text.  None of the five
    patterns ever needs to backtrack into a shorter run: each `\s*` is
    followed by a non-space, each `\w+` by a non-word character, and each
    lazy group stops at the first closer. */
module Repair {
  import opened Wrappers
  import opened Text
  import opened Replace
  import ReplaceOrder
  import Seqs

  // ---------------------------------------------------------------------
  // Step 1: /([{,]\s*)(\w+)(\s*:)/g  ->  '$1"$2"$3'
  // ---------------------------------------------------------------------

  predicate IsKeyOpener(c: char) {
    c == '{' || c == ','
  }

  /** A match of step 1 at the start of a text: the key is
      `[keyStart, keyEnd)` and the colon sits at `colon`. */
  datatype KeyMatch = KeyMatch(keyStart: nat, keyEnd: nat, colon: nat)

  /** `s` starts with an opener, whitespace `[1, a)`, a word `[a, b)`,
      whitespace `[b, c)` and a colon at `c`: the shape step 1 matches. */
  predicate BareKeyAt(s: string, a: nat, b: nat, c: nat) {
    && 1 <= a < b <= c < |s|
    && IsKeyOpener(s[0]) && s[c] == ':'
    && (forall k | 1 <= k < a :: IsSpace(s[k]))
    && (forall k | a <= k < b :: IsWordChar(s[k]))
    && (forall k | b <= k < c :: IsSpace(s[k]))
  }

  function MatchBareKey(s: string): (m: Option<KeyMatch>)
    ensures m.Some? ==> BareKeyAt(s, m.value.keyStart, m.value.keyEnd, m.value.colon)
  {
    if |s| == 0 || !IsKeyOpener(s[0]) then None
    else
      var a := RunEnd(s, 1, IsSpace);
      var b := RunEnd(s, a, IsWordChar);
      var c := RunEnd(s, b, IsSpace);
      if a < b && c < |s| && s[c] == ':' then Some(KeyMatch(a, b, c)) else None
  }

  /** Every occurrence of the shape is found, with exactly those bounds: the
      match is unique. */
  lemma MatchBareKeyComplete(s: string, a: nat, b: nat, c: nat)
    requires BareKeyAt(s, a, b, c)
    ensures MatchBareKey(s) == Some(KeyMatch(a, b, c))
  {
    RunEndExact(s, 1, IsSpace, a);
    RunEndExact(s, a, IsWordChar, b);
    RunEndExact(s, b, IsSpace, c);
  }

  /** The pattern of step 1 with its replacement. */
  function KeyAt(s: string): (r: Option<Replacement>)
    ensures r.Some? ==> 0 < r.value.length <= |s|
  {
    match MatchBareKey(s)
    case Some(m) => Some(KeyReplacement(s, m))
    case None => None
  }
  lemma KeyAtAdvances()
    ensures Advances(KeyAt)
  {
  }


  /** What step 1 writes for a match: the opener and whitespace, the key
      between double quotes, then the whitespace and colon. */
  function KeyReplacement(s: string, m: KeyMatch): Replacement
    requires m.keyStart <= m.keyEnd <= m.colon < |s|
  {
    Replacement(m.colon + 1, s[..m.keyStart] + ("\"" + (s[m.keyStart..m.keyEnd] + ("\"" + s[m.keyEnd..m.colon + 1]))))
  }

  lemma KeyText(s: string, m: KeyMatch)
    requires m.keyStart <= m.keyEnd <= m.colon < |s|
    ensures KeyReplacement(s, m).length == m.colon + 1
    ensures KeyReplacement(s, m).text == s[..m.keyStart] + ("\"" + (s[m.keyStart..m.keyEnd] + ("\"" + s[m.keyEnd..m.colon + 1])))
  {
  }

  /** Step 1: put double quotes around every bare key. */
  function QuoteKeys(s: string): string {
    ReplaceAll(s, KeyAt)
  }

  /** `s` with every `c` deleted. */
  function Without(s: string, c: char): (r: string)
    ensures |r| <= |s|
    ensures c !in r
  {
    if |s| == 0 then ""
    else (if s[0] == c then "" else [s[0]]) + Without(s[1..], c)
  }

  lemma {:induction false} WithoutConcat(a: string, b: string, c: char)
    ensures Without(a + b, c) == Without(a, c) + Without(b, c)
  {
    if |a| > 0 {
      assert (a + b)[1..] == a[1..] + b;
      WithoutConcat(a[1..], b, c);
    } else {
      assert a + b == b;
    }
  }

  /** A text read with its double quotes deleted. */
  function Unquoted(s: string): string {
    Without(s, '"')
  }

  lemma UnquotedConcat(a: string, b: string)
    ensures Unquoted(a + b) == Unquoted(a) + Unquoted(b)
  {
    WithoutConcat(a, b, '"');
  }

  /** Step 1 only inserts `"` characters: the input is kept, in order,
      inside the output, and deleting every `"` from input and output gives
      the same text. */
  lemma QuoteKeysOnlyInsertsQuotes(s: string)
    ensures Seqs.IsSubsequence(s, QuoteKeys(s))
    ensures Unquoted(QuoteKeys(s)) == Unquoted(s)
  {
    QuoteKeysKeepsInput(s);
    QuoteKeysUnquoted(s);
  }

  lemma QuoteKeysKeepsInput(s: string)
    ensures Seqs.IsSubsequence(s, QuoteKeys(s))
  {
    forall t | KeyAt(t).Some?
      ensures Seqs.IsSubsequence(t[..KeyAt(t).value.length], KeyAt(t).value.text)
    {
      KeyAtKeepsMatch(t);
    }
    KeyAtAdvances();
    ReplaceOrder.Grows(s, KeyAt);
  }

  lemma KeyAtKeepsMatch(t: string)
    requires KeyAt(t).Some?
    ensures Seqs.IsSubsequence(t[..KeyAt(t).value.length], KeyAt(t).value.text)
  {
    var m := MatchBareKey(t).value;
    KeyText(t, m);
    MatchKeepsText(t, m);
  }

  lemma MatchKeepsText(t: string, m: KeyMatch)
    requires m.keyStart <= m.keyEnd <= m.colon < |t|
    ensures Seqs.IsSubsequence(t[..m.colon + 1],
                               t[..m.keyStart] + ("\"" + (t[m.keyStart..m.keyEnd] + ("\"" + t[m.keyEnd..m.colon + 1]))))
  {
    QuotingKeeps(t[..m.keyStart], t[m.keyStart..m.keyEnd], t[m.keyEnd..m.colon + 1]);
    assert t[..m.colon + 1] == t[..m.keyStart] + (t[m.keyStart..m.keyEnd] + t[m.keyEnd..m.colon + 1]);
  }

  lemma QuoteKeysUnquoted(s: string)
    ensures Unquoted(QuoteKeys(s)) == Unquoted(s)
  {
    forall t | KeyAt(t).Some?
      ensures Unquoted(KeyAt(t).value.text) == Unquoted(t[..KeyAt(t).value.length])
    {
      KeyAtOnlyInsertsQuotes(t);
    }
    forall a, b
      ensures Unquoted(a + b) == Unquoted(a) + Unquoted(b)
    {
      UnquotedConcat(a, b);
    }
    KeyAtAdvances();
    Preserves(s, KeyAt, Unquoted);
  }

  lemma KeyAtOnlyInsertsQuotes(t: string)
    requires KeyAt(t).Some?
    ensures Unquoted(KeyAt(t).value.text) == Unquoted(t[..KeyAt(t).value.length])
  {
    var m := MatchBareKey(t).value;
    KeyText(t, m);
    MatchOnlyInsertsQuotes(t, m);
  }

  lemma MatchOnlyInsertsQuotes(t: string, m: KeyMatch)
    requires m.keyStart <= m.keyEnd <= m.colon < |t|
    ensures Unquoted(t[..m.keyStart] + ("\"" + (t[m.keyStart..m.keyEnd] + ("\"" + t[m.keyEnd..m.colon + 1]))))
         == Unquoted(t[..m.colon + 1])
  {
    QuotesAround(t[..m.keyStart], t[m.keyStart..m.keyEnd], t[m.keyEnd..m.colon + 1]);
    assert t[..m.colon + 1] == t[..m.keyStart] + (t[m.keyStart..m.keyEnd] + t[m.keyEnd..m.colon + 1]);
  }

  /** Quoting `y` between `x` and `z` keeps the unquoted text inside. */
  lemma QuotingKeeps(x: string, y: string, z: string)
    ensures Seqs.IsSubsequence(x + (y + z), x + ("\"" + (y + ("\"" + z))))
  {
    Seqs.SubsequenceOfSelf(x);
    Seqs.SubsequenceOfSelf(y);
    Seqs.SubsequenceOfSelf(z);
    Seqs.SubsequenceConcat([], "\"", z, z);
    Seqs.SubsequenceConcat(y, y, z, "\"" + z);
    Seqs.SubsequenceConcat([], "\"", y + z, y + ("\"" + z));
    Seqs.SubsequenceConcat(x, x, y + z, "\"" + (y + ("\"" + z)));
  }

  /** Quoting `y` between `x` and `z` reads the same without quotes. */
  lemma QuotesAround(x: string, y: string, z: string)
    ensures Unquoted(x + ("\"" + (y + ("\"" + z)))) == Unquoted(x + (y + z))
  {
    QuotedInside(y, z);
    UnquotedConcat(x, "\"" + (y + ("\"" + z)));
    UnquotedConcat(x, y + z);
  }

  lemma QuotedInside(y: string, z: string)
    ensures Unquoted("\"" + (y + ("\"" + z))) == Unquoted(y + z)
  {
    DropQuote(z);
    UnquotedConcat(y, "\"" + z);
    UnquotedConcat(y, z);
    DropQuote(y + ("\"" + z));
  }

  lemma DropQuote(z: string)
    ensures Unquoted("\"" + z) == Unquoted(z)
  {
    UnquotedConcat("\"", z);
    assert Unquoted("\"") == "";
  }

  /** A bare key at the front is quoted and the scan goes on after its colon. */
  lemma QuoteKeysQuotesKey(s: string, a: nat, b: nat, c: nat)
    requires BareKeyAt(s, a, b, c)
    ensures QuoteKeys(s) == s[..a] + ("\"" + (s[a..b] + ("\"" + s[b..c + 1]))) + QuoteKeys(s[c + 1..])
  {
    MatchBareKeyComplete(s, a, b, c);
    QuoteKeysAt(s, a, b, c);
  }

  lemma QuoteKeysAt(s: string, a: nat, b: nat, c: nat)
    requires a <= b <= c < |s|
    requires MatchBareKey(s) == Some(KeyMatch(a, b, c))
    ensures QuoteKeys(s) == s[..a] + ("\"" + (s[a..b] + ("\"" + s[b..c + 1]))) + QuoteKeys(s[c + 1..])
  {
    KeyAtIs(s, a, b, c);
    KeyAtAdvances();
    MatchedAs(s, KeyAt, c + 1, s[..a] + ("\"" + (s[a..b] + ("\"" + s[b..c + 1]))));
  }

  lemma KeyAtIs(s: string, a: nat, b: nat, c: nat)
    requires a <= b <= c < |s|
    requires MatchBareKey(s) == Some(KeyMatch(a, b, c))
    ensures KeyAt(s) == Some(Replacement(c + 1, s[..a] + ("\"" + (s[a..b] + ("\"" + s[b..c + 1])))))
  {
    KeyText(s, KeyMatch(a, b, c));
  }

  /** Text in which no position starts a bare key passes step 1 unchanged. */
  lemma QuoteKeysNoBareKey(s: string)
    requires forall k | 0 <= k < |s| :: MatchBareKey(s[k..]).None?
    ensures QuoteKeys(s) == s
  {
    KeyAtAdvances();
    NoMatch(s, KeyAt);
  }

  // ---------------------------------------------------------------------
  // Step 2: /([{,]\s*"\w+")\s*:\s*'([^']*?)'/g  ->  '$1: "$2"'
  // ---------------------------------------------------------------------

  /** A match of step 2 at the start of a text: the key's quotes are at
      `keyOpen` and `keyClose`, the colon at `colon`, the value's quotes at
      `open` and `close`. */
  datatype ValueMatch = ValueMatch(keyOpen: nat, keyClose: nat, colon: nat, open: nat, close: nat)

  predicate NotSingleQuote(c: char) {
    c != '\''
  }

  /** The shape step 2 matches: an opener, whitespace, a double-quoted word
      key, whitespace, a colon, whitespace, and a single-quoted value that
      ends at the first single quote after its opening one. */
  predicate SingleQuotedAt(s: string, m: ValueMatch) {
    && 1 <= m.keyOpen && m.keyOpen + 1 < m.keyClose < m.colon < m.open < m.close < |s|
    && IsKeyOpener(s[0])
    && (forall k | 1 <= k < m.keyOpen :: IsSpace(s[k]))
    && s[m.keyOpen] == '"'
    && (forall k | m.keyOpen < k < m.keyClose :: IsWordChar(s[k]))
    && s[m.keyClose] == '"'
    && (forall k | m.keyClose < k < m.colon :: IsSpace(s[k]))
    && s[m.colon] == ':'
    && (forall k | m.colon < k < m.open :: IsSpace(s[k]))
    && s[m.open] == '\''
    && (forall k | m.open < k < m.close :: s[k] != '\'')
    && s[m.close] == '\''
  }

  function MatchSingleQuoted(s: string): (m: Option<ValueMatch>)
    ensures m.Some? ==> SingleQuotedAt(s, m.value)
  {
    if |s| == 0 || !IsKeyOpener(s[0]) then None
    else
      var a := RunEnd(s, 1, IsSpace);
      if a >= |s| || s[a] != '"' then None
      else
        var b := RunEnd(s, a + 1, IsWordChar);
        if b == a + 1 || b >= |s| || s[b] != '"' then None
        else QuotedValue(s, a, b)
  }

  /** The part of step 2's shape after the key's closing quote at `b`. */
  predicate QuotedValueAt(s: string, m: ValueMatch) {
    && m.keyClose < m.colon < m.open < m.close < |s|
    && (forall k | m.keyClose < k < m.colon :: IsSpace(s[k]))
    && s[m.colon] == ':'
    && (forall k | m.colon < k < m.open :: IsSpace(s[k]))
    && s[m.open] == '\''
    && (forall k | m.open < k < m.close :: s[k] != '\'')
    && s[m.close] == '\''
  }

  /** The rest of step 2's match once the key `[a, b]` is found: whitespace,
      a colon, whitespace and a single-quoted value. */
  function QuotedValue(s: string, a: nat, b: nat): (m: Option<ValueMatch>)
    requires b < |s|
    ensures m.Some? ==> m.value.keyOpen == a && m.value.keyClose == b && QuotedValueAt(s, m.value)
  {
    var c := RunEnd(s, b + 1, IsSpace);
    if c >= |s| || s[c] != ':' then None else ValueAfterColon(s, a, b, c)
  }

  /** Whitespace and a single-quoted value after the colon at `c`. */
  function ValueAfterColon(s: string, a: nat, b: nat, c: nat): (m: Option<ValueMatch>)
    requires c < |s|
    ensures m.Some? ==> m.value == ValueMatch(a, b, c, m.value.open, m.value.close)
    ensures m.Some? ==> c < m.value.open < m.value.close < |s|
    ensures m.Some? ==> (forall k | c < k < m.value.open :: IsSpace(s[k]))
    ensures m.Some? ==> s[m.value.open] == '\'' && s[m.value.close] == '\''
    ensures m.Some? ==> forall k | m.value.open < k < m.value.close :: s[k] != '\''
  {
    var d := RunEnd(s, c + 1, IsSpace);
    if d >= |s| || s[d] != '\'' then None
    else
      var e := RunEnd(s, d + 1, NotSingleQuote);
      if e >= |s| then None else Some(ValueMatch(a, b, c, d, e))
  }

  /** Every occurrence of the shape is found, with exactly those positions. */
  lemma MatchSingleQuotedComplete(s: string, m: ValueMatch)
    requires SingleQuotedAt(s, m)
    ensures MatchSingleQuoted(s) == Some(m)
  {
    RunEndExact(s, 1, IsSpace, m.keyOpen);
    RunEndExact(s, m.keyOpen + 1, IsWordChar, m.keyClose);
    QuotedValueComplete(s, m);
  }

  lemma QuotedValueComplete(s: string, m: ValueMatch)
    requires QuotedValueAt(s, m)
    ensures QuotedValue(s, m.keyOpen, m.keyClose) == Some(m)
  {
    RunEndExact(s, m.keyClose + 1, IsSpace, m.colon);
    ValueAfterColonComplete(s, m);
  }

  lemma ValueAfterColonComplete(s: string, m: ValueMatch)
    requires m.colon < m.open < m.close < |s|
    requires forall k | m.colon < k < m.open :: IsSpace(s[k])
    requires s[m.open] == '\'' && s[m.close] == '\''
    requires forall k | m.open < k < m.close :: s[k] != '\''
    ensures ValueAfterColon(s, m.keyOpen, m.keyClose, m.colon) == Some(m)
  {
    RunEndExact(s, m.colon + 1, IsSpace, m.open);
    RunEndExact(s, m.open + 1, NotSingleQuote, m.close);
  }

  /** The pattern of step 2 with its replacement. */
  function ValueAt(s: string): (r: Option<Replacement>)
    ensures r.Some? ==> 0 < r.value.length <= |s|
  {
    match MatchSingleQuoted(s)
    case Some(m) => Some(ValueReplacement(s, m))
    case None => None
  }
  lemma ValueAtAdvances()
    ensures Advances(ValueAt)
  {
  }


  /** What step 2 writes for a match: the key, `: "`, the value and `"`. */
  function ValueReplacement(s: string, m: ValueMatch): Replacement
    requires m.keyClose < m.open < m.close < |s|
  {
    Replacement(m.close + 1, s[..m.keyClose + 1] + (": \"" + (s[m.open + 1..m.close] + "\"")))
  }

  /** Step 2: turn the single-quoted value of a double-quoted key into a
      double-quoted one, writing the separator as `: `. */
  function SingleToDouble(s: string): string {
    ReplaceAll(s, ValueAt)
  }

  /** How step 2 reads one character: whitespace as nothing, `'` as `"`. */
  function NormalChar(c: char): string {
    if IsSpace(c) then "" else if c == '\'' then "\"" else [c]
  }

  /** A text read without whitespace and with `'` as `"`. */
  function Normal(s: string): string {
    if |s| == 0 then "" else NormalChar(s[0]) + Normal(s[1..])
  }

  lemma {:induction false} NormalConcat(a: string, b: string)
    ensures Normal(a + b) == Normal(a) + Normal(b)
    decreases |a|
  {
    if |a| > 0 {
      NormalConcat(a[1..], b);
      NormalStep(a, b);
    } else {
      assert a + b == b;
    }
  }

  /** The inductive step of `NormalConcat`. */
  lemma NormalStep(a: string, b: string)
    requires |a| > 0
    requires Normal(a[1..] + b) == Normal(a[1..]) + Normal(b)
    ensures Normal(a + b) == Normal(a) + Normal(b)
  {
    NormalCons(a, b);
    Associative(NormalChar(a[0]), Normal(a[1..]), Normal(b));
  }


  lemma Associative(x: string, y: string, z: string)
    ensures x + (y + z) == (x + y) + z
  {
  }

  lemma NormalCons(a: string, b: string)
    requires |a| > 0
    ensures Normal(a + b) == NormalChar(a[0]) + Normal(a[1..] + b)
  {
    assert (a + b)[0] == a[0];
    assert (a + b)[1..] == a[1..] + b;
  }


  /** Step 2 changes nothing but whitespace and the kind of quote: the text
      read without whitespace and with `'` as `"` is the same before and
      after. */
  lemma SingleToDoubleKeepsNormal(s: string)
    ensures Normal(SingleToDouble(s)) == Normal(s)
  {
    EveryValueKeepsNormal();
    NormalSplits();
    ValueAtAdvances();
    Preserves(s, ValueAt, Normal);
  }

  lemma EveryValueKeepsNormal()
    ensures forall t :: ValueAt(t).Some? ==> Normal(ValueAt(t).value.text) == Normal(t[..ValueAt(t).value.length])
  {
    forall t | ValueAt(t).Some?
      ensures Normal(ValueAt(t).value.text) == Normal(t[..ValueAt(t).value.length])
    {
      ValueAtKeepsNormal(t);
    }
  }

  lemma NormalSplits()
    ensures Splits(Normal)
  {
    forall a, b
      ensures Normal(a + b) == Normal(a) + Normal(b)
    {
      NormalConcat(a, b);
    }
  }

  lemma ValueAtKeepsNormal(t: string)
    requires ValueAt(t).Some?
    ensures Normal(ValueAt(t).value.text) == Normal(t[..ValueAt(t).value.length])
  {
    var m := MatchSingleQuoted(t).value;
    MatchKeepsNormal(t, m);
    ReplacementText(t, m);
  }

  lemma ReplacementText(t: string, m: ValueMatch)
    requires m.keyClose < m.open < m.close < |t|
    ensures ValueReplacement(t, m).length == m.close + 1
    ensures ValueReplacement(t, m).text == t[..m.keyClose + 1] + (": \"" + (t[m.open + 1..m.close] + "\""))
  {
  }

  lemma MatchKeepsNormal(t: string, m: ValueMatch)
    requires SingleQuotedAt(t, m)
    ensures Normal(t[..m.keyClose + 1] + (": \"" + (t[m.open + 1..m.close] + "\"")))
         == Normal(t[..m.close + 1])
  {
    Cut(t, m.keyClose, m.colon, m.open, m.close);
    SpacesBetween(t, m.keyClose + 1, m.colon);
    SpacesBetween(t, m.colon + 1, m.open);
    MatchedNormal(t[..m.keyClose + 1], t[m.keyClose + 1..m.colon], t[m.colon + 1..m.open], t[m.open + 1..m.close]);
    ReplacementNormal(t[..m.keyClose + 1], t[m.open + 1..m.close]);
  }

  /** The matched text of step 2 cut into key, whitespace, colon,
      whitespace and quoted value. */
  lemma Cut(t: string, b: nat, c: nat, d: nat, e: nat)
    requires b < c < d < e < |t| && t[c] == ':' && t[d] == '\'' && t[e] == '\''
    ensures t[..e + 1] == t[..b + 1] + (t[b + 1..c] + (":" + (t[c + 1..d] + ("'" + (t[d + 1..e] + "'")))))
  {
    assert t[d + 1..e + 1] == t[d + 1..e] + "'";
    assert t[d..e + 1] == "'" + t[d + 1..e + 1];
    assert t[c + 1..e + 1] == t[c + 1..d] + t[d..e + 1];
    assert t[c..e + 1] == ":" + t[c + 1..e + 1];
    assert t[b + 1..e + 1] == t[b + 1..c] + t[c..e + 1];
    assert t[..e + 1] == t[..b + 1] + t[b + 1..e + 1];
  }

  lemma SpacesBetween(t: string, i: nat, j: nat)
    requires i <= j <= |t|
    requires forall k | i <= k < j :: IsSpace(t[k])
    ensures AllSpace(t[i..j])
  {
  }

  /** How the replacement text of step 2 reads. */
  lemma ReplacementNormal(x: string, v: string)
    ensures Normal(x + (": \"" + (v + "\""))) == Normal(x) + (":" + ("\"" + (Normal(v) + "\"")))
  {
    Literals();
    NormalConcat(v, "\"");
    SeparatorNormal(v + "\"");
    NormalConcat(x, ": \"" + (v + "\""));
  }

  lemma SeparatorNormal(w: string)
    ensures Normal(": \"" + w) == ":" + ("\"" + Normal(w))
  {
    SeparatorLiteral();
    NormalConcat(": \"", w);
    JoinLiteral(Normal(w));
  }

  lemma JoinLiteral(x: string)
    ensures ":\"" + x == ":" + ("\"" + x)
  {
  }

  lemma SeparatorLiteral()
    ensures Normal(": \"") == ":\""
  {
    assert ": \""[1..] == " \"";
    assert " \""[1..] == "\"";
    assert "\""[1..] == "";
  }

  lemma Literals()
    ensures Normal("\"") == "\""
    ensures Normal("'") == "\""
    ensures Normal(":") == ":"
  {
    assert "\""[1..] == "";
  }

  /** How the matched text of step 2 reads: the key, `:"`, the value and `"`. */
  lemma MatchedNormal(x: string, w1: string, w2: string, v: string)
    requires AllSpace(w1) && AllSpace(w2)
    ensures Normal(x + (w1 + (":" + (w2 + ("'" + (v + "'"))))))
         == Normal(x) + (":" + ("\"" + (Normal(v) + "\"")))
  {
    var y := "'" + (v + "'");
    QuotedNormal(v);
    SpacedNormal(w2, y);
    NormalConcat(":", w2 + y);
    Literals();
    SpacedNormal(w1, ":" + (w2 + y));
    NormalConcat(x, w1 + (":" + (w2 + y)));
  }

  lemma QuotedNormal(v: string)
    ensures Normal("'" + (v + "'")) == "\"" + (Normal(v) + "\"")
  {
    Literals();
    NormalConcat(v, "'");
    NormalConcat("'", v + "'");
  }

  /** Whitespace in front reads as nothing. */
  lemma SpacedNormal(w: string, y: string)
    requires AllSpace(w)
    ensures Normal(w + y) == Normal(y)
  {
    NormalOfSpaces(w);
    NormalConcat(w, y);
  }

  lemma {:induction false} NormalOfSpaces(s: string)
    requires AllSpace(s)
    ensures Normal(s) == ""
  {
    if |s| > 0 {
      NormalOfSpaces(s[1..]);
    }
  }

  /** Without single quotes step 2 has nothing to do. */
  lemma SingleToDoubleNoSingleQuote(s: string)
    requires '\'' !in s
    ensures SingleToDouble(s) == s
  {
    forall k | 0 <= k < |s|
      ensures ValueAt(s[k..]).None?
    {
      assert '\'' !in s[k..];
    }
    ValueAtAdvances();
    NoMatch(s, ValueAt);
  }

  // ---------------------------------------------------------------------
  // Step 3: /,(\s*[}\]])/g  ->  '$1'
  // ---------------------------------------------------------------------

  predicate IsCloser(c: char) {
    c == '}' || c == ']'
  }

  /** A comma at the start of `s`, followed by whitespace and a closing
      bracket at the returned index. */
  function MatchTrailingComma(s: string): (m: Option<nat>)
    ensures m.Some? ==> 0 < m.value < |s| && s[0] == ',' && IsCloser(s[m.value])
    ensures m.Some? ==> forall k | 1 <= k < m.value :: IsSpace(s[k])
  {
    if |s| == 0 || s[0] != ',' then None
    else
      var a := RunEnd(s, 1, IsSpace);
      if a < |s| && IsCloser(s[a]) then Some(a) else None
  }

  /** The pattern of step 3 with its replacement: the match without its comma. */
  function CommaAt(s: string): (r: Option<Replacement>)
    ensures r.Some? ==> 0 < r.value.length <= |s|
  {
    match MatchTrailingComma(s)
    case Some(a) => Some(Replacement(a + 1, s[1..a + 1]))
    case None => None
  }
  lemma CommaAtAdvances()
    ensures Advances(CommaAt)
  {
  }


  /** Step 3: delete each comma that only whitespace separates from a `}` or `]`. */
  function RemoveTrailingCommas(s: string): string {
    ReplaceAll(s, CommaAt)
  }

  /** The reference for step 3, position by position: a character is dropped
      exactly when it is a comma that is followed, across whitespace only,
      by a closing bracket. */
  function DropTrailingCommas(s: string): (r: string)
    ensures |r| <= |s|
  {
    if |s| == 0 then ""
    else (if MatchTrailingComma(s).Some? then "" else [s[0]]) + DropTrailingCommas(s[1..])
  }

  /** A text read with its commas deleted. */
  function Uncomma(s: string): string {
    Without(s, ',')
  }

  lemma UncommaConcat(a: string, b: string)
    ensures Uncomma(a + b) == Uncomma(a) + Uncomma(b)
  {
    WithoutConcat(a, b, ',');
  }

  /** Step 3 deletes commas and nothing else. */
  lemma RemoveTrailingCommasOnlyCommas(s: string)
    ensures Uncomma(RemoveTrailingCommas(s)) == Uncomma(s)
  {
    forall t | CommaAt(t).Some?
      ensures Uncomma(CommaAt(t).value.text) == Uncomma(t[..CommaAt(t).value.length])
    {
      var a := MatchTrailingComma(t).value;
      assert t[..a + 1] == [','] + t[1..a + 1];
      UncommaConcat([','], t[1..a + 1]);
    }
    forall a, b
      ensures Uncomma(a + b) == Uncomma(a) + Uncomma(b)
    {
      UncommaConcat(a, b);
    }
    CommaAtAdvances();
    Preserves(s, CommaAt, Uncomma);
  }

  /** A comma-free prefix passes through the reference unchanged. */
  lemma {:induction false} DropCommaFreePrefix(s: string, n: nat)
    requires n <= |s|
    requires forall k | 0 <= k < n :: s[k] != ','
    ensures DropTrailingCommas(s) == s[..n] + DropTrailingCommas(s[n..])
  {
    if n > 0 {
      var u := s[1..];
      assert MatchTrailingComma(s) == None;
      assert DropTrailingCommas(s) == [s[0]] + DropTrailingCommas(u);
      forall k | 0 <= k < n - 1
        ensures u[k] != ','
      {
        assert u[k] == s[k + 1];
      }
      DropCommaFreePrefix(u, n - 1);
      assert u[n - 1..] == s[n..];
      assert s[..n] == [s[0]] + u[..n - 1];
    }
  }

  /** The left-to-right scan of step 3 deletes exactly the commas the
      position-by-position reference drops. */
  lemma {:induction false} RemoveTrailingCommasIsReference(s: string)
    ensures RemoveTrailingCommas(s) == DropTrailingCommas(s)
    decreases |s|
  {
    if |s| > 0 {
      match MatchTrailingComma(s)
      case Some(a) =>
        CommaAtAdvances();
        Matched(s, CommaAt);
        RemoveTrailingCommasIsReference(s[a + 1..]);
        ReferenceDropsComma(s, a);
      case None =>
        CommaAtAdvances();
        Copied(s, CommaAt);
        RemoveTrailingCommasIsReference(s[1..]);
    }
  }

  /** Where step 3 matches, the reference drops the comma and copies the
      whitespace and the bracket. */
  lemma ReferenceDropsComma(s: string, a: nat)
    requires MatchTrailingComma(s) == Some(a)
    ensures DropTrailingCommas(s) == s[1..a + 1] + DropTrailingCommas(s[a + 1..])
  {
    var u := s[1..];
    forall k | 0 <= k < a
      ensures u[k] != ','
    {
      assert u[k] == s[k + 1];
    }
    DropCommaFreePrefix(u, a);
    assert u[..a] == s[1..a + 1];
    assert u[a..] == s[a + 1..];
  }

  // ---------------------------------------------------------------------
  // Step 4: /\/\/.*$/gm  ->  ''
  // ---------------------------------------------------------------------

  /** The pattern of step 4: `//` and the rest of its line, replaced by
      nothing. */
  function LineCommentAt(s: string): (r: Option<Replacement>)
    ensures r.Some? ==> 0 < r.value.length <= |s|
  {
    if StartsWith(s, "//") then Some(Replacement(RunEnd(s, 2, NotLineTerminator), "")) else None
  }
  lemma LineCommentAtAdvances()
    ensures Advances(LineCommentAt)
  {
  }


  /** Step 4: delete from each `//` to the end of its line. */
  function StripLineComments(s: string): string {
    ReplaceAll(s, LineCommentAt)
  }

  /** A text read as its line terminators only. */
  function Lines(s: string): string {
    if |s| == 0 then "" else LineChar(s[0]) + Lines(s[1..])
  }

  function LineChar(c: char): string {
    if IsLineTerminator(c) then [c] else ""
  }

  lemma {:induction false} LinesConcat(a: string, b: string)
    ensures Lines(a + b) == Lines(a) + Lines(b)
    decreases |a|
  {
    if |a| > 0 {
      LinesConcat(a[1..], b);
      LinesStep(a, b);
    } else {
      assert a + b == b;
    }
  }

  /** The inductive step of `LinesConcat`. */
  lemma LinesStep(a: string, b: string)
    requires |a| > 0
    requires Lines(a[1..] + b) == Lines(a[1..]) + Lines(b)
    ensures Lines(a + b) == Lines(a) + Lines(b)
  {
    LinesCons(a, b);
    Associative(LineChar(a[0]), Lines(a[1..]), Lines(b));
  }


  lemma LinesCons(a: string, b: string)
    requires |a| > 0
    ensures Lines(a + b) == LineChar(a[0]) + Lines(a[1..] + b)
  {
    assert (a + b)[0] == a[0];
    assert (a + b)[1..] == a[1..] + b;
  }


  lemma {:induction false} NoTerminators(s: string)
    requires forall k | 0 <= k < |s| :: NotLineTerminator(s[k])
    ensures Lines(s) == ""
  {
    if |s| > 0 {
      NoTerminators(s[1..]);
    }
  }

  /** Step 4 keeps every line terminator, so the text keeps its lines. */
  lemma StripLineCommentsKeepsLines(s: string)
    ensures Lines(StripLineComments(s)) == Lines(s)
  {
    forall t | LineCommentAt(t).Some?
      ensures Lines(LineCommentAt(t).value.text) == Lines(t[..LineCommentAt(t).value.length])
    {
      var n := LineCommentAt(t).value.length;
      assert t[..2] == "//";
      NoTerminators(t[..n]);
    }
    forall a, b
      ensures Lines(a + b) == Lines(a) + Lines(b)
    {
      LinesConcat(a, b);
    }
    LineCommentAtAdvances();
    Preserves(s, LineCommentAt, Lines);
  }

  /** The shape of step 4's output: a character not starting `//` is
      copied, a comment leaves the output empty or at a line terminator,
      and no two adjacent characters of the output form `//`. */
  lemma {:induction false} StripLineCommentsShape(s: string)
    ensures Shaped(s, StripLineComments(s))
    decreases |s|
  {
    if |s| > 0 {
      if StartsWith(s, "//") {
        var n := RunEnd(s, 2, NotLineTerminator);
        CommentStep(s);
        StripLineCommentsShape(s[n..]);
      } else {
        LineCommentAtAdvances();
        Copied(s, LineCommentAt);
        StripLineCommentsShape(s[1..]);
        AfterCopied(s, StripLineComments(s[1..]));
        SlashesAfter(s[0], StripLineComments(s[1..]));
      }
    }
  }

  /** The shape of step 4's output `r` for input `s`: a first character
      that does not start `//` is copied, a comment leaves the output empty
      or at a line terminator, and no two adjacent characters form `//`. */
  ghost predicate Shaped(s: string, r: string) {
    && (|s| == 0 ==> |r| == 0)
    && (|s| > 0 && !StartsWith(s, "//") ==> |r| > 0 && r[0] == s[0])
    && (StartsWith(s, "//") ==> |r| == 0 || IsLineTerminator(r[0]))
    && NoAdjacentSlashes(r)
  }

  /** A comment is dropped and the scan resumes at the line terminator, or
      at the end. */
  lemma CommentStep(s: string)
    requires StartsWith(s, "//")
    ensures var n := RunEnd(s, 2, NotLineTerminator);
      && StripLineComments(s) == StripLineComments(s[n..])
      && (n < |s| ==> !StartsWith(s[n..], "//") && IsLineTerminator(s[n..][0]))
  {
    var n := RunEnd(s, 2, NotLineTerminator);
    LineCommentAtAdvances();
    Matched(s, LineCommentAt);
    assert "" + StripLineComments(s[n..]) == StripLineComments(s[n..]);
    assert n < |s| ==> s[n..][0] == s[n];
    assert n + 2 <= |s| ==> s[n..][..2][0] == s[n];
  }

  /** After a copied `/` the output does not go on with `/`. */
  lemma AfterCopied(s: string, r: string)
    requires |s| > 0 && !StartsWith(s, "//") && Shaped(s[1..], r)
    ensures s[0] == '/' ==> |r| == 0 || r[0] != '/'
  {
    if s[0] == '/' && |s| > 1 {
      assert s[..2] == [s[0], s[1]] && "//" == ['/', '/'];
      assert |s| > 2 ==> s[1..][..2][0] == s[1];
      assert s[1..][0] == s[1];
    }
  }

  /** No `/` is immediately followed by another `/`. */
  predicate NoAdjacentSlashes(r: string) {
    forall k | 0 <= k < |r| - 1 :: !(r[k] == '/' && r[k + 1] == '/')
  }

  lemma SlashesAfter(c: char, r: string)
    requires NoAdjacentSlashes(r)
    requires c == '/' ==> |r| == 0 || r[0] != '/'
    ensures NoAdjacentSlashes([c] + r)
  {
    var t := [c] + r;
    forall k | 0 <= k < |t| - 1
      ensures !(t[k] == '/' && t[k + 1] == '/')
    {
      if k > 0 {
        assert t[k] == r[k - 1] && t[k + 1] == r[k];
      }
    }
  }

  /** After step 4 no `//` is left anywhere. */
  lemma StripLineCommentsNoneLeft(s: string)
    ensures !Contains(StripLineComments(s), "//")
  {
    StripLineCommentsShape(s);
    var r := StripLineComments(s);
    forall k | 0 <= k <= |r|
      ensures !StartsWith(r[k..], "//")
    {
      if k + 2 <= |r| {
        assert r[k..][..2] == [r[k], r[k + 1]];
      }
    }
    NoOccurrence(r, "//");
  }

  /** Step 4 does not know about string literals: in a line such as
      `"link": "https://example.com/explore"`, everything from the URL's
      `//` to the end of the line is lost, closing quote included. */
  lemma StripLineCommentsCutsLinks(head: string, rest: string)
    requires '/' !in head
    requires forall k | 0 <= k < |rest| :: NotLineTerminator(rest[k])
    ensures StripLineComments(head + ("https:" + ("//" + rest))) == head + "https:"
  {
    var tail := "//" + rest;
    assert head + ("https:" + tail) == (head + "https:") + tail;
    SlashFreeCopied(head + "https:", tail);
    assert tail[..2] == "//";
    forall k | 2 <= k < |tail|
      ensures NotLineTerminator(tail[k])
    {
      assert tail[k] == rest[k - 2];
    }
    RunEndExact(tail, 2, NotLineTerminator, |tail|);
    LineCommentAtAdvances();
    Matched(tail, LineCommentAt);
    assert tail[|tail|..] == "";
  }

  /** Text without `/` in front of `tail` is copied by step 4. */
  lemma SlashFreeCopied(head: string, tail: string)
    requires '/' !in head
    ensures StripLineComments(head + tail) == head + StripLineComments(tail)
  {
    var s := head + tail;
    forall k | 0 <= k < |head|
      ensures LineCommentAt(s[k..]).None?
    {
      assert s[k] == head[k];
      assert |s[k..]| >= 2 ==> s[k..][..2][0] == s[k];
    }
    LineCommentAtAdvances();
    CopiesPrefix(s, LineCommentAt, |head|);
    assert s[..|head|] == head;
    assert s[|head|..] == tail;
  }

  // ---------------------------------------------------------------------
  // Step 5: /\/\*[\s\S]*?\*\//g  ->  ''
  // ---------------------------------------------------------------------

  /** A block comment at the start of `s`: its length up to and including
      the first closing star-slash after the opener. */
  function MatchBlockComment(s: string): (m: Option<nat>)
    ensures m.Some? ==> 4 <= m.value <= |s| && StartsWith(s, "/*")
  {
    if !StartsWith(s, "/*") then None
    else
      match IndexOf(s[2..], "*/")
      case None => None
      case Some(j) => Some(j + 4)
  }

  /** The pattern of step 5, replaced by nothing. */
  function BlockCommentAt(s: string): (r: Option<Replacement>)
    ensures r.Some? ==> 0 < r.value.length <= |s|
  {
    match MatchBlockComment(s)
    case Some(n) => Some(Replacement(n, ""))
    case None => None
  }
  lemma BlockCommentAtAdvances()
    ensures Advances(BlockCommentAt)
  {
  }


  /** Step 5: delete every closed block comment; an unclosed opener stays. */
  function StripBlockComments(s: string): string {
    ReplaceAll(s, BlockCommentAt)
  }

  /** Step 5 only deletes: its result is a subsequence of its input. */
  lemma StripBlockCommentsOnlyDeletes(s: string)
    ensures Seqs.IsSubsequence(StripBlockComments(s), s)
  {
    BlockCommentAtAdvances();
    ReplaceOrder.Shrinks(s, BlockCommentAt);
  }

  /** Without a slash-star opener step 5 has nothing to do. */
  lemma StripBlockCommentsNoOpener(s: string)
    requires !Contains(s, "/*")
    ensures StripBlockComments(s) == s
  {
    forall k | 0 <= k < |s|
      ensures BlockCommentAt(s[k..]).None?
    {
      if StartsWith(s[k..], "/*") {
        ContainsAt(s, "/*", k);
      }
    }
    BlockCommentAtAdvances();
    NoMatch(s, BlockCommentAt);
  }

  /** A closed comment at the front is removed whole and the rest is
      processed on its own. */
  lemma StripBlockCommentsRemovesComment(c: string, rest: string)
    requires !Contains(c, "*/")
    ensures StripBlockComments("/*" + (c + ("*/" + rest))) == StripBlockComments(rest)
  {
    var s := "/*" + (c + ("*/" + rest));
    assert s[..2] == "/*";
    assert s[2..] == c + ("*/" + rest);
    FirstCloser(c, rest);
    BlockCommentAtAdvances();
    Matched(s, BlockCommentAt);
    assert s[|c| + 4..] == rest;
  }

  /** The first closing star-slash of `c`, closer, `rest` is the one after
      `c` when `c` has none. */
  lemma {:induction false} FirstCloser(c: string, rest: string)
    requires !Contains(c, "*/")
    ensures IndexOf(c + ("*/" + rest), "*/") == Some(|c|)
    decreases |c|
  {
    var t := c + ("*/" + rest);
    if |c| == 0 {
      assert t == "*/" + rest;
      assert t[..2] == "*/";
    } else {
      assert !StartsWith(t, "*/") by {
        if |c| >= 2 {
          assert t[..2] == c[..2];
        } else {
          assert t[1] == '*';
        }
      }
      assert t[1..] == c[1..] + ("*/" + rest);
      FirstCloser(c[1..], rest);
    }
  }

  // ---------------------------------------------------------------------
  // The chain
  // ---------------------------------------------------------------------

  /** Where every opener is directly followed by a single quote, step 1
      finds no bare key. */
  lemma QuoteKeysSkipsQuotedOpeners(s: string)
    requires forall k | 0 <= k < |s| && IsKeyOpener(s[k]) :: k + 1 < |s| && s[k + 1] == '\''
    ensures QuoteKeys(s) == s
  {
    forall k | 0 <= k < |s|
      ensures MatchBareKey(s[k..]).None?
    {
      var t := s[k..];
      if IsKeyOpener(t[0]) {
        assert t[1] == s[k + 1] == '\'';
        RunEndExact(t, 1, IsSpace, 1);
        RunEndExact(t, 1, IsWordChar, 1);
      }
    }
    QuoteKeysNoBareKey(s);
  }

  /** Step 2 needs a double-quoted key: without `"` it has nothing to do. */
  lemma SingleToDoubleNoDoubleQuote(s: string)
    requires '"' !in s
    ensures SingleToDouble(s) == s
  {
    forall k | 0 <= k < |s|
      ensures ValueAt(s[k..]).None?
    {
      var t := s[k..];
      if IsKeyOpener(t[0]) {
        var a := RunEnd(t, 1, IsSpace);
        if a < |t| {
          assert t[a] == s[k + a];
        }
      }
    }
    ValueAtAdvances();
    NoMatch(s, ValueAt);
  }

  /** Without commas step 3 has nothing to do. */
  lemma RemoveTrailingCommasNoComma(s: string)
    requires ',' !in s
    ensures RemoveTrailingCommas(s) == s
  {
    forall k | 0 <= k < |s|
      ensures CommaAt(s[k..]).None?
    {
      assert s[k..][0] == s[k];
    }
    CommaAtAdvances();
    NoMatch(s, CommaAt);
  }

  /** A text without `"`, `,` or `/` whose every `{` is directly followed
      by `'` passes all five steps unchanged: single-quoted keys are never
      repaired. */
  lemma RepairKeepsSingleQuotedKeys(s: string)
    requires '"' !in s && ',' !in s && '/' !in s
    requires forall k | 0 <= k < |s| && s[k] == '{' :: k + 1 < |s| && s[k + 1] == '\''
    ensures Repair(s) == s
  {
    QuoteKeysSkipsQuotedOpeners(s);
    SingleToDoubleNoDoubleQuote(s);
    RemoveTrailingCommasNoComma(s);
    SlashFreeCopied(s, "");
    assert s + "" == s;
    MissingChar(s, "/*", '/');
    StripBlockCommentsNoOpener(s);
  }

  /** The object `{'a': 'b'}` comes out of the repair as it went in. */
  lemma SingleQuotedObjectNotRepaired()
    ensures Repair("{'a': 'b'}") == "{'a': 'b'}"
  {
    RepairKeepsSingleQuotedKeys("{'a': 'b'}");
  }

  /** The repaired candidate: the five steps in the source's order. */
  function Repair(s: string): string {
    StripBlockComments(StripLineComments(RemoveTrailingCommas(SingleToDouble(QuoteKeys(s)))))
  }
}

=== FILE: replace.dfy ===
/** A global `String.prototype.replace` with a regular expression: the text
    is scanned left to right; where the pattern matches, the match is
    replaced and the scan resumes after it; elsewhere one character is
    copied.  The pattern is a parameter `at` that inspects the rest of the
    text and reports the match starting there, if any. */
module Replace {
  import opened Wrappers

  /** A match at the start of a text: how many characters it covers and
      what takes their place. */
  datatype Replacement = Replacement(length: nat, text: string)

  /** Every match covers at least one character and stays inside the text,
      so the scan always moves forward. */
  ghost predicate Advances(at: string -> Option<Replacement>) {
    forall t :: at(t).Some? ==> 0 < at(t).value.length <= |t|
  }

  function ReplaceAll(s: string, at: string -> Option<Replacement>): string
    requires Advances(at)
    decreases |s|
  {
    if |s| == 0 then ""
    else
      match at(s)
      case Some(m) => m.text + ReplaceAll(s[m.length..], at)
      case None => [s[0]] + ReplaceAll(s[1..], at)
  }

  /** One step of the scan where a match starts. */
  lemma Matched(s: string, at: string -> Option<Replacement>)
    requires Advances(at) && |s| > 0 && at(s).Some?
    ensures ReplaceAll(s, at) == at(s).value.text + ReplaceAll(s[at(s).value.length..], at)
  {
  }

  /** `Matched` with the match given by its parts. */
  lemma MatchedAs(s: string, at: string -> Option<Replacement>, length: nat, text: string)
    requires Advances(at) && |s| > 0 && at(s) == Some(Replacement(length, text))
    ensures ReplaceAll(s, at) == text + ReplaceAll(s[length..], at)
  {
    Matched(s, at);
  }

  /** One step of the scan where no match starts. */
  lemma Copied(s: string, at: string -> Option<Replacement>)
    requires Advances(at) && |s| > 0 && at(s).None?
    ensures ReplaceAll(s, at) == [s[0]] + ReplaceAll(s[1..], at)
  {
  }

  /** A prefix in which no match starts is copied as it is. */
  lemma {:induction false} CopiesPrefix(s: string, at: string -> Option<Replacement>, n: nat)
    requires Advances(at) && n <= |s|
    requires forall k | 0 <= k < n :: at(s[k..]).None?
    ensures ReplaceAll(s, at) == s[..n] + ReplaceAll(s[n..], at)
    decreases n
  {
    if n > 0 {
      CopiesPrefix(s, at, n - 1);
      var t := s[n - 1..];
      Copied(t, at);
      Shift(s, n);
    }
  }

  lemma Shift(s: string, n: nat)
    requires 0 < n <= |s|
    ensures s[n - 1..][1..] == s[n..]
    ensures s[..n] == s[..n - 1] + [s[n - 1..][0]]
  {
  }

  /** A text in which no match starts passes unchanged. */
  lemma NoMatch(s: string, at: string -> Option<Replacement>)
    requires Advances(at)
    requires forall k | 0 <= k < |s| :: at(s[k..]).None?
    ensures ReplaceAll(s, at) == s
  {
    CopiesPrefix(s, at, |s|);
    assert s[|s|..] == "";
  }

  /** `f` reads a concatenation as the concatenation of the readings. */
  ghost predicate Splits(f: string -> string) {
    forall a, b :: f(a + b) == f(a) + f(b)
  }

  /** A reading that splits over concatenation and that every single
      replacement leaves unchanged is left unchanged by the whole scan. */
  lemma {:induction false} Preserves(s: string, at: string -> Option<Replacement>, f: string -> string)
    requires Advances(at) && Splits(f)
    requires forall t :: at(t).Some? ==> f(at(t).value.text) == f(t[..at(t).value.length])
    ensures f(ReplaceAll(s, at)) == f(s)
    decreases |s|
  {
    if |s| > 0 {
      match at(s)
      case Some(m) =>
        Matched(s, at);
        Preserves(s[m.length..], at, f);
        assert f(m.text + ReplaceAll(s[m.length..], at)) == f(m.text) + f(ReplaceAll(s[m.length..], at));
        assert s == s[..m.length] + s[m.length..];
        assert f(s[..m.length] + s[m.length..]) == f(s[..m.length]) + f(s[m.length..]);
      case None =>
        Copied(s, at);
        Preserves(s[1..], at, f);
        assert f([s[0]] + ReplaceAll(s[1..], at)) == f([s[0]]) + f(ReplaceAll(s[1..], at));
        assert s == [s[0]] + s[1..];
        assert f([s[0]] + s[1..]) == f([s[0]]) + f(s[1..]);
    }
  }
}

=== FILE: replace_order.dfy ===
/** What a global replace keeps of its input: when every single
    replacement only deletes characters of its match, or only inserts
    characters around it, the whole replace does the same. */
module ReplaceOrder {
  import opened Wrappers
  import opened Replace
  import Seqs

  /** When every replacement is a subsequence of the text it matches, the
      whole result is a subsequence of the input. */
  lemma {:induction false} Shrinks(s: string, at: string -> Option<Replacement>)
    requires Advances(at)
    requires forall t :: at(t).Some? ==> Seqs.IsSubsequence(at(t).value.text, t[..at(t).value.length])
    ensures Seqs.IsSubsequence(ReplaceAll(s, at), s)
    decreases |s|
  {
    if |s| > 0 {
      match at(s)
      case Some(m) =>
        Matched(s, at);
        Shrinks(s[m.length..], at);
        JoinParts(s, m.length, m.text, ReplaceAll(s[m.length..], at));
      case None =>
        Copied(s, at);
        Shrinks(s[1..], at);
        Seqs.SubsequenceOfSelf(s[..1]);
        assert s[..1] == [s[0]];
        JoinParts(s, 1, s[..1], ReplaceAll(s[1..], at));
    }
  }

  /** When every match is a subsequence of its replacement, the input is a
      subsequence of the whole result. */
  lemma {:induction false} Grows(s: string, at: string -> Option<Replacement>)
    requires Advances(at)
    requires forall t :: at(t).Some? ==> Seqs.IsSubsequence(t[..at(t).value.length], at(t).value.text)
    ensures Seqs.IsSubsequence(s, ReplaceAll(s, at))
    decreases |s|
  {
    if |s| > 0 {
      match at(s)
      case Some(m) =>
        Matched(s, at);
        Grows(s[m.length..], at);
        SplitParts(s, m.length, m.text, ReplaceAll(s[m.length..], at));
      case None =>
        Copied(s, at);
        Grows(s[1..], at);
        Seqs.SubsequenceOfSelf(s[..1]);
        assert s[..1] == [s[0]];
        SplitParts(s, 1, s[..1], ReplaceAll(s[1..], at));
    }
  }

  /** Subsequences of the two parts of `s` split at `n` join into one of `s`. */
  lemma JoinParts(s: string, n: nat, a: string, b: string)
    requires n <= |s| && Seqs.IsSubsequence(a, s[..n]) && Seqs.IsSubsequence(b, s[n..])
    ensures Seqs.IsSubsequence(a + b, s)
  {
    Seqs.SubsequenceConcat(a, s[..n], b, s[n..]);
    assert s[..n] + s[n..] == s;
  }

  /** The two parts of `s` split at `n`, kept inside `a` and `b`, are kept
      inside `a + b`. */
  lemma SplitParts(s: string, n: nat, a: string, b: string)
    requires n <= |s| && Seqs.IsSubsequence(s[..n], a) && Seqs.IsSubsequence(s[n..], b)
    ensures Seqs.IsSubsequence(s, a + b)
  {
    Seqs.SubsequenceConcat(s[..n], a, s[n..], b);
    assert s[..n] + s[n..] == s;
  }
}

=== FILE: seqs.dfy ===
/** Sequence operations the source performs through `Array.prototype`
    methods: `filter`, de-duplication through a `Set`, and sorting. */
module Seqs {

  /** `a` is obtained from `b` by deleting elements (order kept). */
  ghost predicate IsSubsequence<T>(a: seq<T>, b: seq<T>)
    decreases |b|
  {
    |a| == 0 || (|b| > 0 && ((a[0] == b[0] && IsSubsequence(a[1..], b[1..])) || IsSubsequence(a, b[1..])))
  }

  /** `s.filter(p)`. */
  function Filter<T(!new)>(s: seq<T>, p: T -> bool): (r: seq<T>)
    ensures |r| <= |s|
    ensures forall x :: x in r <==> x in s && p(x)
    ensures IsSubsequence(r, s)
  {
    if |s| == 0 then []
    else if p(s[0]) then [s[0]] + Filter(s[1..], p)
    else Filter(s[1..], p)
  }

  lemma {:induction false} FilterConcat<T(!new)>(a: seq<T>, b: seq<T>, p: T -> bool)
    ensures Filter(a + b, p) == Filter(a, p) + Filter(b, p)
  {
    if |a| > 0 {
      assert (a + b)[1..] == a[1..] + b;
      FilterConcat(a[1..], b, p);
    } else {
      assert a + b == b;
    }
  }

  /** When every element passes, filtering changes nothing. */
  lemma {:induction false} FilterKeepsAll<T(!new)>(s: seq<T>, p: T -> bool)
    requires forall x | x in s :: p(x)
    ensures Filter(s, p) == s
  {
    if |s| > 0 {
      FilterKeepsAll(s[1..], p);
    }
  }

  lemma {:induction false} FilterDropsAll<T(!new)>(s: seq<T>, p: T -> bool)
    requires forall x | x in s :: !p(x)
    ensures Filter(s, p) == []
    decreases |s|
  {
    if |s| > 0 {
      FilterDropsAll(s[1..], p);
    }
  }

  /** Filters that agree on every element select the same elements. */
  lemma {:induction false} FilterAgrees<T(!new)>(s: seq<T>, p: T -> bool, q: T -> bool)
    requires forall x | x in s :: p(x) == q(x)
    ensures Filter(s, p) == Filter(s, q)
    decreases |s|
  {
    if |s| > 0 {
      FilterAgrees(s[1..], p, q);
    }
  }

  lemma {:induction false} SubsequenceOfSelf<T>(s: seq<T>)
    ensures IsSubsequence(s, s)
    decreases |s|
  {
    if |s| > 0 {
      SubsequenceOfSelf(s[1..]);
    }
  }

  /** Subsequences of two parts give a subsequence of the joined parts. */
  lemma {:induction false} SubsequenceConcat<T>(a1: seq<T>, b1: seq<T>, a2: seq<T>, b2: seq<T>)
    requires IsSubsequence(a1, b1) && IsSubsequence(a2, b2)
    ensures IsSubsequence(a1 + a2, b1 + b2)
    decreases |b1|
  {
    if |b1| == 0 {
      assert a1 + a2 == a2 && b1 + b2 == b2;
    } else if |a1| == 0 {
      SubsequenceConcat(a1, b1[1..], a2, b2);
      assert a1 + a2 == a2;
      assert (b1 + b2)[1..] == b1[1..] + b2;
    } else {
      assert (a1 + a2)[1..] == a1[1..] + a2;
      assert (b1 + b2)[1..] == b1[1..] + b2;
      if a1[0] == b1[0] && IsSubsequence(a1[1..], b1[1..]) {
        SubsequenceConcat(a1[1..], b1[1..], a2, b2);
      } else {
        SubsequenceConcat(a1, b1[1..], a2, b2);
      }
    }
  }

  ghost predicate Distinct<T>(s: seq<T>) {
    forall i, j | 0 <= i < j < |s| :: s[i] != s[j]
  }

  /** Filtering keeps a sequence free of duplicates. */
  lemma {:induction false} FilterDistinct<T(!new)>(s: seq<T>, p: T -> bool)
    requires Distinct(s)
    ensures Distinct(Filter(s, p))
    decreases |s|
  {
    if |s| > 0 {
      FilterDistinct(s[1..], p);
      assert s[0] !in s[1..] by {
        forall j | 0 <= j < |s| - 1
          ensures s[1..][j] != s[0]
        {
          assert s[1..][j] == s[j + 1];
        }
      }
    }
  }

  /** `Array.from(new Set(s))`: the elements of `s` in order of first
      occurrence, each once. */
  function Dedupe<T(==,!new)>(s: seq<T>): (r: seq<T>)
    ensures Distinct(r)
    ensures forall x :: x in r <==> x in s
  {
    if |s| == 0 then []
    else
      var d := Dedupe(s[..|s| - 1]);
      assert forall x :: x in s <==> x in s[..|s| - 1] || x == s[|s| - 1];
      if s[|s| - 1] in d then d else d + [s[|s| - 1]]
  }

  /** A total relation: every pair is comparable one way or the other. */
  ghost predicate Total<T(!new)>(leq: (T, T) -> bool) {
    forall a, b :: leq(a, b) || leq(b, a)
  }

  /** Every element is `leq` its successor. */
  ghost predicate Sorted<T>(s: seq<T>, leq: (T, T) -> bool) {
    forall i | 0 <= i < |s| - 1 :: leq(s[i], s[i + 1])
  }

  function Insert<T(!new)>(x: T, s: seq<T>, leq: (T, T) -> bool): (r: seq<T>)
    requires Total(leq)
    ensures multiset(r) == multiset(s) + multiset{x}
    ensures r[0] == x || (|s| > 0 && r[0] == s[0])
    ensures Sorted(s, leq) ==> Sorted(r, leq)
  {
    if |s| == 0 || leq(x, s[0]) then [x] + s
    else
      assert s == [s[0]] + s[1..];
      [s[0]] + Insert(x, s[1..], leq)
  }

  /** A stable sort of `s` by `leq`: what `Array.prototype.sort` (and an
      `order by`) returns. */
  function Sort<T(!new)>(s: seq<T>, leq: (T, T) -> bool): (r: seq<T>)
    requires Total(leq)
    ensures multiset(r) == multiset(s)
    ensures Sorted(r, leq)
  {
    if |s| == 0 then []
    else
      assert s == [s[0]] + s[1..];
      Insert(s[0], Sort(s[1..], leq), leq)
  }

  /** Sorting keeps the length and the elements, so distinct input gives
      distinct output. */
  lemma SortKeepsDistinct<T(!new)>(s: seq<T>, leq: (T, T) -> bool)
    requires Total(leq)
    requires Distinct(s)
    ensures Distinct(Sort(s, leq))
    ensures |Sort(s, leq)| == |s|
    ensures forall x :: x in Sort(s, leq) <==> x in s
  {
    var r := Sort(s, leq);
    assert |r| == |multiset(r)| == |multiset(s)| == |s|;
    forall x
      ensures x in r <==> x in s
    {
      assert x in r <==> x in multiset(r);
      assert x in s <==> x in multiset(s);
    }
    forall i, j | 0 <= i < j < |r|
      ensures r[i] != r[j]
    {
      if r[i] == r[j] {
        DuplicateCount(r, i, j);
        DistinctCount(s, r[i]);
        assert false;
      }
    }
  }

  lemma {:induction false} DuplicateCount<T>(s: seq<T>, i: int, j: int)
    requires 0 <= i < j < |s| && s[i] == s[j]
    ensures multiset(s)[s[i]] >= 2
  {
    var x := s[i];
    assert s == s[..i] + [x] + s[i + 1..j] + [x] + s[j + 1..];
    assert multiset(s) == multiset(s[..i]) + multiset{x} + multiset(s[i + 1..j]) + multiset{x} + multiset(s[j + 1..]);
  }

  lemma {:induction false} DistinctCount<T>(s: seq<T>, x: T)
    requires Distinct(s)
    ensures multiset(s)[x] <= 1
  {
    if |s| > 0 {
      assert s == [s[0]] + s[1..];
      assert Distinct(s[1..]);
      DistinctCount(s[1..], x);
      if s[0] == x {
        assert x !in s[1..];
        assert multiset(s[1..])[x] == 0;
      }
    }
  }
}

=== FILE: storage.dfy ===
/** lib/storage-service.ts: the itinerary, day, activity and packing-list
    operations of `StorageService` over an in-memory picture of the tables.

    A table is a sequence of rows in the order the database returns them.
    `.single()` succeeds only on exactly one row and otherwise fails with
    the PostgREST code `PGRST116`; an `Error`'s message holds the code.
    Failures of the database itself (a refused insert, a dropped
    connection) are parameters. */
module Storage {
  import opened Wrappers
  import Seqs
  import opened StringOrder
  import Gemini
  import GenerateRoute
  import PackingGenerator

  const NoSingleRow: Error := Error("PGRST116")

  /** `.single()` on the rows a query matched. */
  function Single<T>(rows: seq<T>): (r: Result<T>)
    ensures r.Ok? <==> |rows| == 1
    ensures r.Ok? ==> r.value == rows[0]
    ensures r.Err? ==> r.error == NoSingleRow
  {
    if |rows| == 1 then Ok(rows[0]) else Err(NoSingleRow)
  }

  // ---------------------------------------------------------------------
  // Activity lists
  // ---------------------------------------------------------------------

  /** An element of a day's `activities` JSON array: `activities[i] = x`
      past the end leaves holes, which are stored as `null`. */
  datatype Entry = Null | Item(activity: Gemini.Activity)

  /** `[...a, x]`. */
  function Appended<T>(a: seq<T>, x: T): (r: seq<T>)
    ensures |r| == |a| + 1 && r[|a|] == x
    ensures forall k | 0 <= k < |a| :: r[k] == a[k]
  {
    a + [x]
  }

  /** The largest array index of JavaScript: `2^32 - 2`. */
  const MaxArrayIndex: int := 0xFFFF_FFFE

  /** `a[i] = x` on a copy of `a`: in range it replaces one element; past
      the end, up to the largest array index, it pads with holes and puts
      `x` at `i`.  A negative index, or one above the largest array index,
      names a property that is not an element and that JSON drops, so the
      array is unchanged. */
  function SetAt<T>(a: seq<T>, i: int, x: T, hole: T): (r: seq<T>)
    ensures i < 0 ==> r == a
    ensures 0 <= i < |a| ==> |r| == |a| && r[i] == x && forall k | 0 <= k < |a| && k != i :: r[k] == a[k]
    ensures |a| <= i <= MaxArrayIndex ==> |r| == i + 1 && r[i] == x && r[..|a|] == a && forall k | |a| <= k < i :: r[k] == hole
    ensures |a| <= i && MaxArrayIndex < i ==> r == a
  {
    if 0 <= i < |a| then a[i := x]
    else if i < 0 || MaxArrayIndex < i then a
    else a + seq(i - |a|, _ => hole) + [x]
  }

  /** The index `splice(i, ...)` starts at: negative indices count from the
      end, and both ends clamp. */
  function SpliceStart(len: nat, i: int): (r: nat)
    ensures 0 <= i <= len ==> r == i
    ensures i > len ==> r == len
    ensures i < 0 && 0 <= len + i ==> r == len + i
    ensures len + i < 0 ==> r == 0
  {
    if i < 0 then (if len + i < 0 then 0 else len + i)
    else if i < len then i else len
  }

  /** `a.splice(i, 1)` on a copy of `a`: the element at the start index is
      removed when there is one. */
  function SpliceOne<T>(a: seq<T>, i: int): (r: seq<T>)
    ensures 0 <= i < |a| ==> r == a[..i] + a[i + 1..]
    ensures i >= |a| ==> r == a
    ensures i < 0 && 0 <= |a| + i ==> r == a[..|a| + i] + a[|a| + i + 1..]
    ensures |a| + i < 0 && |a| > 0 ==> r == a[1..]
  {
    var s := SpliceStart(|a|, i);
    if s < |a| then a[..s] + a[s + 1..] else a
  }

  /** Deleting at the index just appended gives the list back. */
  lemma DeleteUndoesAdd<T>(a: seq<T>, x: T)
    ensures SpliceOne(Appended(a, x), |a|) == a
    ensures SpliceOne(Appended(a, x), -1) == a
  {
    assert Appended(a, x)[..|a|] == a;
  }

  /** Writing back the element already at an index changes nothing. */
  lemma SetSameIsIdentity<T>(a: seq<T>, i: int, hole: T)
    requires 0 <= i < |a|
    ensures SetAt(a, i, a[i], hole) == a
  {
  }

  /** Deleting inside the list removes exactly one occurrence. */
  lemma DeleteRemovesOne<T>(a: seq<T>, i: int)
    requires 0 <= i < |a|
    ensures multiset(SpliceOne(a, i)) + multiset{a[i]} == multiset(a)
  {
    assert a == a[..i] + [a[i]] + a[i + 1..];
  }

  // ---------------------------------------------------------------------
  // Tables
  // ---------------------------------------------------------------------

  /** An `itinerary_days` row. */
  datatype StoredDay = StoredDay(id: string, itineraryId: string, dayNumber: int, date: int, description: string, activities: seq<Entry>)

  /** A `packing_lists` row. */
  datatype ListRow = ListRow(id: nat, itineraryId: string, userId: string)

  /** A `packing_items` row. */
  datatype ItemRow = ItemRow(
    id: nat, listId: nat, name: string, category: string, quantity: int,
    isPacked: bool, isEssential: bool, notes: Option<string>)

  /** The tables; `nextId` is the next generated packing id. */
  datatype Db = Db(
    itineraries: seq<GenerateRoute.SavedItinerary>,
    days: seq<StoredDay>,
    lists: seq<ListRow>,
    items: seq<ItemRow>,
    nextId: nat)

  /** The tables after an operation, and what it returned or threw. */
  datatype Step<T> = Step(db: Db, result: Result<T>)

  // ---------------------------------------------------------------------
  // Itineraries: every query filters on the id and the owner
  // ---------------------------------------------------------------------

  predicate Owns(r: GenerateRoute.SavedItinerary, id: string, user: string) {
    r.id == id && r.record.userId == user
  }

  /** The rows with that id and owner, in table order. */
  function OwnedIn(rows: seq<GenerateRoute.SavedItinerary>, id: string, user: string): (r: seq<GenerateRoute.SavedItinerary>)
    ensures forall x :: x in r <==> x in rows && Owns(x, id, user)
  {
    Seqs.Filter(rows, (x: GenerateRoute.SavedItinerary) => Owns(x, id, user))
  }

  function OwnedItineraries(db: Db, id: string, user: string): (r: seq<GenerateRoute.SavedItinerary>)
    ensures forall x :: x in r <==> x in db.itineraries && Owns(x, id, user)
  {
    OwnedIn(db.itineraries, id, user)
  }

  /** The error of `StorageService` as written: its `supabase` field holds
      the promise that the unawaited async `createClient()` returns, so
      every `this.supabase.from(...)` throws this `TypeError` before any
      statement reaches the database. */
  const UnawaitedClient: Error := Error("this.supabase.from is not a function")

  /** `getItinerary`: `select().eq("id").eq("user_id").single()`.  A fault
      of the database is thrown, and so is `.single()` finding no row or
      several. */
  function GetItinerary(db: Db, id: string, user: string, fault: Option<Error>): (r: Result<GenerateRoute.SavedItinerary>)
    ensures fault.Some? ==> r == Err(fault.value)
    ensures fault.None? ==> (r.Ok? <==> |OwnedItineraries(db, id, user)| == 1)
    ensures fault.None? && r.Err? ==> r.error == NoSingleRow
    ensures r.Ok? ==> r.value in db.itineraries && Owns(r.value, id, user)
  {
    if fault.Some? then Err(fault.value) else Single(OwnedItineraries(db, id, user))
  }

  /** `update(...).eq("id").eq("user_id").select().single()`: the patch is
      applied to the matching rows only, then exactly one updated row must
      come back.  A refused statement changes nothing and is thrown. */
  function UpdateItinerary(db: Db, id: string, user: string, patch: GenerateRoute.ItineraryRecord -> GenerateRoute.ItineraryRecord,
                           fault: Option<Error>)
    : (r: Step<GenerateRoute.SavedItinerary>)
    ensures fault.Some? ==> r == Step(db, Err(fault.value))
    ensures fault.None? ==> (r.result.Ok? <==> |OwnedItineraries(db, id, user)| == 1)
    ensures |r.db.itineraries| == |db.itineraries|
    ensures forall k | 0 <= k < |db.itineraries| && !Owns(db.itineraries[k], id, user) ::
              r.db.itineraries[k] == db.itineraries[k]
    ensures fault.None? ==> forall k | 0 <= k < |db.itineraries| && Owns(db.itineraries[k], id, user) ::
              r.db.itineraries[k] == GenerateRoute.SavedItinerary(id, patch(db.itineraries[k].record))
    ensures r.db.days == db.days && r.db.lists == db.lists && r.db.items == db.items
  {
    if fault.Some? then Step(db, Err(fault.value))
    else
      var rows := db.itineraries;
      var updated := seq(|rows|, k requires 0 <= k < |rows| =>
                           if Owns(rows[k], id, user) then GenerateRoute.SavedItinerary(id, patch(rows[k].record)) else rows[k]);
      Step(db.(itineraries := updated), Single(Patched(rows, id, user, patch)))
  }

  /** The rows an update by id and owner returns, after the patch. */
  function Patched(rows: seq<GenerateRoute.SavedItinerary>, id: string, user: string,
                   patch: GenerateRoute.ItineraryRecord -> GenerateRoute.ItineraryRecord)
    : (r: seq<GenerateRoute.SavedItinerary>)
    ensures |r| == |OwnedIn(rows, id, user)|
  {
    if |rows| == 0 then []
    else if Owns(rows[0], id, user) then [GenerateRoute.SavedItinerary(id, patch(rows[0].record))] + Patched(rows[1..], id, user, patch)
    else Patched(rows[1..], id, user, patch)
  }

  /** `delete().eq("id").eq("user_id")`: the matching rows go, every other
      row stays in order; a refused statement changes nothing and is
      thrown. */
  function DeleteItinerary(db: Db, id: string, user: string, fault: Option<Error>): (r: Step<bool>)
    ensures fault.Some? ==> r == Step(db, Err(fault.value))
    ensures fault.None? ==> r.result == Ok(true)
    ensures fault.None? ==> forall x :: x in r.db.itineraries <==> x in db.itineraries && !Owns(x, id, user)
    ensures Seqs.IsSubsequence(r.db.itineraries, db.itineraries)
    ensures r.db.days == db.days && r.db.lists == db.lists && r.db.items == db.items
  {
    if fault.Some? then Seqs.SubsequenceOfSelf(db.itineraries); Step(db, Err(fault.value))
    else Step(db.(itineraries := Seqs.Filter(db.itineraries, (x: GenerateRoute.SavedItinerary) => !Owns(x, id, user))), Ok(true))
  }

  /** Another user's itinerary cannot be read, changed or deleted through
      its id, whether or not the database faults. */
  lemma ForeignItineraryUntouched(db: Db, k: nat, user: string,
                                  patch: GenerateRoute.ItineraryRecord -> GenerateRoute.ItineraryRecord, fault: Option<Error>)
    requires k < |db.itineraries| && db.itineraries[k].record.userId != user
    ensures GetItinerary(db, db.itineraries[k].id, user, fault) != Ok(db.itineraries[k])
    ensures UpdateItinerary(db, db.itineraries[k].id, user, patch, fault).db.itineraries[k] == db.itineraries[k]
    ensures db.itineraries[k] in DeleteItinerary(db, db.itineraries[k].id, user, fault).db.itineraries
  {
  }

  // ---------------------------------------------------------------------
  // Days: every query filters on the day id and the itinerary id
  // ---------------------------------------------------------------------

  predicate DayOf(d: StoredDay, dayId: string, itineraryId: string) {
    d.id == dayId && d.itineraryId == itineraryId
  }

  function DaysMatching(days: seq<StoredDay>, dayId: string, itineraryId: string): (r: seq<StoredDay>)
    ensures forall d :: d in r <==> d in days && DayOf(d, dayId, itineraryId)
  {
    Seqs.Filter(days, (d: StoredDay) => DayOf(d, dayId, itineraryId))
  }

  function MatchingDays(db: Db, dayId: string, itineraryId: string): (r: seq<StoredDay>)
    ensures forall d :: d in r <==> d in db.days && DayOf(d, dayId, itineraryId)
  {
    DaysMatching(db.days, dayId, itineraryId)
  }

  /** `getItineraryDay`: a fault is thrown, and so is `.single()` finding
      no day or several. */
  function GetDay(db: Db, dayId: string, itineraryId: string, fault: Option<Error>): (r: Result<StoredDay>)
    ensures fault.Some? ==> r == Err(fault.value)
    ensures fault.None? ==> (r.Ok? <==> |MatchingDays(db, dayId, itineraryId)| == 1)
    ensures fault.None? && r.Err? ==> r.error == NoSingleRow
    ensures r.Ok? ==> r.value in db.days && DayOf(r.value, dayId, itineraryId)
  {
    if fault.Some? then Err(fault.value) else Single(MatchingDays(db, dayId, itineraryId))
  }

  /** The days table with the activities of the matching rows replaced. */
  function WithActivities(days: seq<StoredDay>, dayId: string, itineraryId: string, activities: seq<Entry>): (r: seq<StoredDay>)
    ensures |r| == |days|
    ensures forall k | 0 <= k < |days| ::
              r[k] == if DayOf(days[k], dayId, itineraryId) then days[k].(activities := activities) else days[k]
  {
    seq(|days|, k requires 0 <= k < |days| =>
          if DayOf(days[k], dayId, itineraryId) then days[k].(activities := activities) else days[k])
  }

  /** `updateItineraryDay(dayId, itineraryId, { activities })`; a refused
      statement changes nothing and is thrown. */
  function UpdateDay(db: Db, dayId: string, itineraryId: string, activities: seq<Entry>, fault: Option<Error>): (r: Step<StoredDay>)
    ensures fault.Some? ==> r == Step(db, Err(fault.value))
    ensures fault.None? ==> r.db == db.(days := WithActivities(db.days, dayId, itineraryId, activities))
    ensures fault.None? ==> (r.result.Ok? <==> |MatchingDays(db, dayId, itineraryId)| == 1)
    ensures r.result.Ok? ==> DayOf(r.result.value, dayId, itineraryId) && r.result.value.activities == activities
  {
    if fault.Some? then Step(db, Err(fault.value))
    else
      var days := WithActivities(db.days, dayId, itineraryId, activities);
      var found := DaysMatching(days, dayId, itineraryId);
      FilterMapped(db.days, dayId, itineraryId, activities);
      assert forall d | d in found :: d.activities == activities;
      Step(db.(days := days), Single(found))
  }

  /** `deleteItineraryDay`: `delete().eq("id").eq("itinerary_id")`; the
      matching rows go, every other row stays in order; a refused statement
      changes nothing and is thrown. */
  function DeleteDay(db: Db, dayId: string, itineraryId: string, fault: Option<Error>): (r: Step<bool>)
    ensures fault.Some? ==> r == Step(db, Err(fault.value))
    ensures fault.None? ==> r.result == Ok(true)
    ensures fault.None? ==> forall d :: d in r.db.days <==> d in db.days && !DayOf(d, dayId, itineraryId)
    ensures Seqs.IsSubsequence(r.db.days, db.days)
    ensures r.db.itineraries == db.itineraries && r.db.lists == db.lists && r.db.items == db.items
  {
    if fault.Some? then Seqs.SubsequenceOfSelf(db.days); Step(db, Err(fault.value))
    else Step(db.(days := Seqs.Filter(db.days, (d: StoredDay) => !DayOf(d, dayId, itineraryId))), Ok(true))
  }

  /** A day of another itinerary is neither read, changed nor deleted
      through its id, whether or not the database faults. */
  lemma ForeignDayKept(db: Db, k: nat, itineraryId: string, activities: seq<Entry>, fault: Option<Error>)
    requires k < |db.days| && db.days[k].itineraryId != itineraryId
    ensures GetDay(db, db.days[k].id, itineraryId, fault) != Ok(db.days[k])
    ensures UpdateDay(db, db.days[k].id, itineraryId, activities, fault).db.days[k] == db.days[k]
    ensures db.days[k] in DeleteDay(db, db.days[k].id, itineraryId, fault).db.days
  {
  }

  /** The read-modify-write shared by the activity operations: read the
      day (a missing day or a refused read throws before anything is
      written), compute the new list, write it back. */
  function Rewrite(db: Db, dayId: string, itineraryId: string, edit: seq<Entry> -> seq<Entry>,
                   read: Option<Error>, write: Option<Error>): (r: Step<StoredDay>)
    ensures GetDay(db, dayId, itineraryId, read).Err? ==>
              r == Step(db, Err(GetDay(db, dayId, itineraryId, read).error))
    ensures GetDay(db, dayId, itineraryId, read).Ok? ==>
              r == UpdateDay(db, dayId, itineraryId, edit(GetDay(db, dayId, itineraryId, read).value.activities), write)
  {
    match GetDay(db, dayId, itineraryId, read)
    case Err(e) => Step(db, Err(e))
    case Ok(day) => UpdateDay(db, dayId, itineraryId, edit(day.activities), write)
  }

  function AddActivity(db: Db, dayId: string, itineraryId: string, x: Gemini.Activity,
                       read: Option<Error>, write: Option<Error>): Step<StoredDay> {
    Rewrite(db, dayId, itineraryId, (a: seq<Entry>) => Appended(a, Item(x)), read, write)
  }

  function UpdateActivity(db: Db, dayId: string, itineraryId: string, index: int, x: Gemini.Activity,
                          read: Option<Error>, write: Option<Error>): Step<StoredDay> {
    Rewrite(db, dayId, itineraryId, (a: seq<Entry>) => SetAt(a, index, Item(x), Null), read, write)
  }

  function DeleteActivity(db: Db, dayId: string, itineraryId: string, index: int,
                          read: Option<Error>, write: Option<Error>): Step<StoredDay> {
    Rewrite(db, dayId, itineraryId, (a: seq<Entry>) => SpliceOne(a, index), read, write)
  }

  /** No read: the given list is written as it is, whatever it holds, into
      every matching day; the day comes back when exactly one matched. */
  function ReorderActivities(db: Db, dayId: string, itineraryId: string, activities: seq<Entry>, fault: Option<Error>)
    : (r: Step<StoredDay>)
    ensures fault.Some? ==> r == Step(db, Err(fault.value))
    ensures fault.None? ==> r.db == db.(days := WithActivities(db.days, dayId, itineraryId, activities))
    ensures fault.None? ==> (r.result.Ok? <==> |MatchingDays(db, dayId, itineraryId)| == 1)
    ensures r.result.Ok? ==> r.result.value.activities == activities
  {
    UpdateDay(db, dayId, itineraryId, activities, fault)
  }

  /** Reading a reordered day back gives the stored day with exactly the
      list that was written, and that is also what the reorder returned. */
  lemma ReorderedDayReadsBack(db: Db, dayId: string, itineraryId: string, activities: seq<Entry>)
    requires GetDay(db, dayId, itineraryId, None).Ok?
    ensures var day := GetDay(db, dayId, itineraryId, None).value;
            var r := ReorderActivities(db, dayId, itineraryId, activities, None);
            && GetDay(r.db, dayId, itineraryId, None) == Ok(day.(activities := activities))
            && r.result == Ok(day.(activities := activities))
  {
    FilterMapped(db.days, dayId, itineraryId, activities);
  }

  /** Adding to a stored day appends the activity to that day only. */
  lemma AddActivityAppends(db: Db, dayId: string, itineraryId: string, x: Gemini.Activity)
    requires GetDay(db, dayId, itineraryId, None).Ok?
    ensures var day := GetDay(db, dayId, itineraryId, None).value;
            var r := AddActivity(db, dayId, itineraryId, x, None, None);
            && r.result.Ok?
            && r.result.value == day.(activities := day.activities + [Item(x)])
            && forall k | 0 <= k < |db.days| && !DayOf(db.days[k], dayId, itineraryId) :: r.db.days[k] == db.days[k]
  {
    var day := GetDay(db, dayId, itineraryId, None).value;
    var acts := day.activities + [Item(x)];
    UpdatedDayIsRead(db, dayId, itineraryId, acts);
  }

  /** A refused read throws before anything is written; a refused write
      throws and leaves the tables as they were. */
  lemma ActivityFaultsWriteNothing(db: Db, dayId: string, itineraryId: string, x: Gemini.Activity, e: Error, write: Option<Error>)
    ensures AddActivity(db, dayId, itineraryId, x, Some(e), write) == Step(db, Err(e))
    ensures GetDay(db, dayId, itineraryId, None).Ok? ==>
              AddActivity(db, dayId, itineraryId, x, None, Some(e)) == Step(db, Err(e))
  {
  }

  /** When a day is found, writing its activities and reading it back gives
      the same day with the new list. */
  lemma UpdatedDayIsRead(db: Db, dayId: string, itineraryId: string, activities: seq<Entry>)
    requires GetDay(db, dayId, itineraryId, None).Ok?
    ensures UpdateDay(db, dayId, itineraryId, activities, None).result
            == Ok(GetDay(db, dayId, itineraryId, None).value.(activities := activities))
  {
    FilterMapped(db.days, dayId, itineraryId, activities);
  }

  /** Filtering the rewritten table is rewriting the filtered one. */
  lemma {:induction false} FilterMapped(days: seq<StoredDay>, dayId: string, itineraryId: string, activities: seq<Entry>)
    ensures DaysMatching(WithActivities(days, dayId, itineraryId, activities), dayId, itineraryId)
            == WithActivities(DaysMatching(days, dayId, itineraryId), dayId, itineraryId, activities)
    decreases |days|
  {
    if |days| > 0 {
      var w := WithActivities(days, dayId, itineraryId, activities);
      var rest := WithActivities(days[1..], dayId, itineraryId, activities);
      FilterMapped(days[1..], dayId, itineraryId, activities);
      assert w[1..] == rest;
      assert DayOf(w[0], dayId, itineraryId) == DayOf(days[0], dayId, itineraryId);
    }
  }

  /** Updating an activity in range replaces it and keeps the others. */
  lemma UpdateActivityReplaces(db: Db, dayId: string, itineraryId: string, index: int, x: Gemini.Activity)
    requires GetDay(db, dayId, itineraryId, None).Ok?
    requires 0 <= index < |GetDay(db, dayId, itineraryId, None).value.activities|
    ensures var a := GetDay(db, dayId, itineraryId, None).value.activities;
            var r := UpdateActivity(db, dayId, itineraryId, index, x, None, None);
            && r.result.Ok?
            && |r.result.value.activities| == |a|
            && r.result.value.activities[index] == Item(x)
            && forall k | 0 <= k < |a| && k != index :: r.result.value.activities[k] == a[k]
  {
    var a := GetDay(db, dayId, itineraryId, None).value.activities;
    UpdatedDayIsRead(db, dayId, itineraryId, SetAt(a, index, Item(x), Null));
  }

  /** An index above the largest array index is an ordinary property of
      the list, which the JSON write drops: the day is written back with
      its activities unchanged.  (A JavaScript array never holds more than
      `MaxArrayIndex + 1` elements, so the index is past its end.) */
  lemma UpdateActivityPastLastIndex(db: Db, dayId: string, itineraryId: string, index: int, x: Gemini.Activity)
    requires GetDay(db, dayId, itineraryId, None).Ok?
    requires MaxArrayIndex < index && |GetDay(db, dayId, itineraryId, None).value.activities| <= index
    ensures UpdateActivity(db, dayId, itineraryId, index, x, None, None).result == GetDay(db, dayId, itineraryId, None)
  {
    var day := GetDay(db, dayId, itineraryId, None).value;
    assert SetAt(day.activities, index, Item(x), Null) == day.activities;
    UpdatedDayIsRead(db, dayId, itineraryId, day.activities);
    assert day.(activities := day.activities) == day;
  }

  /** Deleting an activity in range removes exactly that one, in order. */
  lemma DeleteActivityRemoves(db: Db, dayId: string, itineraryId: string, index: int)
    requires GetDay(db, dayId, itineraryId, None).Ok?
    requires 0 <= index < |GetDay(db, dayId, itineraryId, None).value.activities|
    ensures var a := GetDay(db, dayId, itineraryId, None).value.activities;
            var r := DeleteActivity(db, dayId, itineraryId, index, None, None);
            && r.result.Ok?
            && r.result.value.activities == a[..index] + a[index + 1..]
  {
    var a := GetDay(db, dayId, itineraryId, None).value.activities;
    UpdatedDayIsRead(db, dayId, itineraryId, SpliceOne(a, index));
  }

  /** A day that is not in this itinerary is not found, so nothing is
      written. */
  lemma ForeignDayUntouched(db: Db, dayId: string, itineraryId: string, x: Gemini.Activity, write: Option<Error>)
    requires forall d | d in db.days :: !DayOf(d, dayId, itineraryId)
    ensures AddActivity(db, dayId, itineraryId, x, None, write) == Step(db, Err(NoSingleRow))
  {
    Seqs.FilterDropsAll(db.days, (d: StoredDay) => DayOf(d, dayId, itineraryId));
  }

  // ---------------------------------------------------------------------
  // Packing lists
  // ---------------------------------------------------------------------

  /** The list and its items, as `getPackingList` returns them. */
  datatype PackingListView = PackingListView(id: nat, itineraryId: string, items: seq<ItemRow>)

  /** A database fault on a query or write, if one happens. */
  datatype Faults = Faults(lists: Option<Error>, items: Option<Error>)

  const NoFaults: Faults := Faults(None, None)

  /** `order("category").order("name")`. */
  predicate ItemLeq(x: ItemRow, y: ItemRow) {
    if x.category == y.category then StrLeq(x.name, y.name) else StrLeq(x.category, y.category)
  }

  lemma ItemLeqTotal()
    ensures Seqs.Total(ItemLeq)
  {
    forall x: ItemRow, y: ItemRow
      ensures ItemLeq(x, y) || ItemLeq(y, x)
    {
      StrLeqTotal(x.name, y.name);
      StrLeqTotal(x.category, y.category);
    }
  }

  function ListsIn(lists: seq<ListRow>, itineraryId: string, user: string): (r: seq<ListRow>)
    ensures forall l :: l in r <==> l in lists && l.itineraryId == itineraryId && l.userId == user
  {
    Seqs.Filter(lists, (l: ListRow) => l.itineraryId == itineraryId && l.userId == user)
  }

  function ListsFor(db: Db, itineraryId: string, user: string): (r: seq<ListRow>)
    ensures forall l :: l in r <==> l in db.lists && l.itineraryId == itineraryId && l.userId == user
  {
    ListsIn(db.lists, itineraryId, user)
  }

  function ItemsIn(items: seq<ItemRow>, listId: nat): (r: seq<ItemRow>)
    ensures forall x :: x in r <==> x in items && x.listId == listId
  {
    Seqs.Filter(items, (x: ItemRow) => x.listId == listId)
  }

  function ItemsOf(db: Db, listId: nat): (r: seq<ItemRow>)
    ensures forall x :: x in r <==> x in db.items && x.listId == listId
  {
    ItemsIn(db.items, listId)
  }

  /** The items of a list, ordered by category and then by name. */
  function OrderedItems(db: Db, listId: nat): (r: seq<ItemRow>)
    ensures multiset(r) == multiset(ItemsOf(db, listId))
    ensures Seqs.Sorted(r, ItemLeq)
  {
    ItemLeqTotal();
    Seqs.Sort(ItemsOf(db, listId), ItemLeq)
  }

  /** `getPackingList`: no single list for the itinerary and user (the
      `PGRST116` code) gives `null`; any other fault is thrown. */
  function GetPackingList(db: Db, itineraryId: string, user: string, faults: Faults): (r: Result<Option<PackingListView>>)
    ensures faults == NoFaults ==> r.Ok?
    ensures faults == NoFaults ==> (r.value.None? <==> |ListsFor(db, itineraryId, user)| != 1)
    ensures r.Ok? && r.value.Some? ==>
              && r.value.value.itineraryId == itineraryId
              && multiset(r.value.value.items) == multiset(ItemsOf(db, r.value.value.id))
              && Seqs.Sorted(r.value.value.items, ItemLeq)
  {
    var list := if faults.lists.Some? then Err(faults.lists.value) else Single(ListsFor(db, itineraryId, user));
    match list
    case Err(e) => if e.message == NoSingleRow.message then Ok(None) else Err(e)
    case Ok(l) =>
      if faults.items.Some? then Err(faults.items.value)
      else Ok(Some(PackingListView(l.id, l.itineraryId, OrderedItems(db, l.id))))
  }

  /** One `packing_items` row per item, in order, numbered from `firstId`. */
  function ItemRows(listId: nat, firstId: nat, items: seq<PackingGenerator.PackingItem>): (r: seq<ItemRow>)
    ensures |r| == |items|
    ensures forall k | 0 <= k < |items| ::
              r[k] == ItemRow(firstId + k, listId, items[k].name, items[k].category, items[k].quantity,
                              items[k].isPacked, items[k].isEssential, items[k].notes)
  {
    seq(|items|, k requires 0 <= k < |items| =>
          ItemRow(firstId + k, listId, items[k].name, items[k].category, items[k].quantity,
                  items[k].isPacked, items[k].isEssential, items[k].notes))
  }

  /** The tables after the inserts of `createPackingList`, before it reads
      the list back; `Err` when an insert is refused. */
  function InsertPackingList(db: Db, itineraryId: string, user: string, items: seq<PackingGenerator.PackingItem>, writes: Faults)
    : (r: Step<nat>)
    ensures writes.lists.Some? ==> r == Step(db, Err(writes.lists.value))
    ensures writes.lists.None? ==> r.db.lists == db.lists + [ListRow(db.nextId, itineraryId, user)]
    ensures writes.lists.None? && |items| == 0 ==> r.db.items == db.items && r.result == Ok(db.nextId)
    ensures writes.lists.None? && |items| > 0 && writes.items.Some? ==> r.db.items == db.items && r.result.Err?
    ensures writes.lists.None? && |items| > 0 && writes.items.None? ==>
              r.db.items == db.items + ItemRows(db.nextId, db.nextId + 1, items) && r.result == Ok(db.nextId)
  {
    if writes.lists.Some? then Step(db, Err(writes.lists.value))
    else
      var id := db.nextId;
      var withList := db.(lists := db.lists + [ListRow(id, itineraryId, user)], nextId := id + 1);
      if |items| == 0 then Step(withList, Ok(id))
      else if writes.items.Some? then Step(withList, Err(writes.items.value))
      else Step(withList.(items := db.items + ItemRows(id, id + 1, items), nextId := id + 1 + |items|), Ok(id))
  }

  /** `createPackingList`: insert the list, then its items when there are
      any, then read it back with `getPackingList`. */
  function CreatePackingList(db: Db, itineraryId: string, user: string, items: seq<PackingGenerator.PackingItem>,
                             writeFaults: Faults, readFaults: Faults): (r: Step<Option<PackingListView>>)
    ensures InsertPackingList(db, itineraryId, user, items, writeFaults).result.Err? ==> r.result.Err?
  {
    var ins := InsertPackingList(db, itineraryId, user, items, writeFaults);
    match ins.result
    case Err(e) => Step(ins.db, Err(e))
    case Ok(_) => Step(ins.db, GetPackingList(ins.db, itineraryId, user, readFaults))
  }

  /** Every id in the tables is below `nextId`. */
  ghost predicate IdsBelowNext(db: Db) {
    && (forall l | l in db.lists :: l.id < db.nextId)
    && (forall x | x in db.items :: x.id < db.nextId && x.listId < db.nextId)
  }

  /** The first list of an itinerary holds exactly the given items, one
      row per item, ordered by category and name. */
  lemma CreateThenRead(db: Db, itineraryId: string, user: string, items: seq<PackingGenerator.PackingItem>)
    requires IdsBelowNext(db)
    requires |ListsFor(db, itineraryId, user)| == 0
    ensures var r := CreatePackingList(db, itineraryId, user, items, NoFaults, NoFaults);
            && r.result.Ok? && r.result.value.Some?
            && r.result.value.value.id == db.nextId
            && multiset(r.result.value.value.items) == multiset(ItemRows(db.nextId, db.nextId + 1, items))
  {
    var id := db.nextId;
    var ins := InsertPackingList(db, itineraryId, user, items, NoFaults);
    InsertedRows(db, itineraryId, user, items);
    assert ListsIn(db.lists, itineraryId, user) == [];
    FilterAppendOne(db.lists, ListRow(id, itineraryId, user), itineraryId, user);
    assert ListsFor(ins.db, itineraryId, user) == [ListRow(id, itineraryId, user)];
    NewItemsOnly(db, ins.db, id, items);
    ReadFresh(ins.db, id, itineraryId, user, ItemRows(id, id + 1, items));
    assert CreatePackingList(db, itineraryId, user, items, NoFaults, NoFaults) == Step(ins.db, GetPackingList(ins.db, itineraryId, user, NoFaults));
  }

  /** Without faults the inserts add one list row and one row per item. */
  lemma InsertedRows(db: Db, itineraryId: string, user: string, items: seq<PackingGenerator.PackingItem>)
    ensures var ins := InsertPackingList(db, itineraryId, user, items, NoFaults);
            && ins.result == Ok(db.nextId)
            && ins.db.lists == db.lists + [ListRow(db.nextId, itineraryId, user)]
            && ins.db.items == db.items + ItemRows(db.nextId, db.nextId + 1, items)
  {
    if |items| == 0 {
      assert ItemRows(db.nextId, db.nextId + 1, items) == [];
      assert db.items + [] == db.items;
    }
  }

  /** Reading back a list that is the only one of its itinerary and user. */
  lemma ReadFresh(db: Db, id: nat, itineraryId: string, user: string, rows: seq<ItemRow>)
    requires ListsFor(db, itineraryId, user) == [ListRow(id, itineraryId, user)]
    requires ItemsOf(db, id) == rows
    ensures GetPackingList(db, itineraryId, user, NoFaults) == Ok(Some(PackingListView(id, itineraryId, OrderedItems(db, id))))
    ensures multiset(OrderedItems(db, id)) == multiset(rows)
  {
  }

  lemma FilterAppendOne(lists: seq<ListRow>, l: ListRow, itineraryId: string, user: string)
    requires l.itineraryId == itineraryId && l.userId == user
    ensures ListsIn(lists + [l], itineraryId, user) == ListsIn(lists, itineraryId, user) + [l]
  {
    Seqs.FilterConcat(lists, [l], (x: ListRow) => x.itineraryId == itineraryId && x.userId == user);
  }

  /** The fresh list's items are exactly the rows just written. */
  lemma NewItemsOnly(db: Db, after: Db, id: nat, items: seq<PackingGenerator.PackingItem>)
    requires IdsBelowNext(db) && id == db.nextId
    requires after.items == db.items + ItemRows(id, id + 1, items)
    ensures ItemsOf(after, id) == ItemRows(id, id + 1, items)
  {
    var p := (x: ItemRow) => x.listId == id;
    Seqs.FilterConcat(db.items, ItemRows(id, id + 1, items), p);
    Seqs.FilterKeepsAll(ItemRows(id, id + 1, items), p);
    Seqs.FilterDropsAll(db.items, p);
  }

  /** A second list for the same itinerary and user is written, but the
      read-back then matches two lists and `createPackingList` returns
      `null`. */
  lemma SecondCreateReturnsNull(db: Db, itineraryId: string, user: string, items: seq<PackingGenerator.PackingItem>)
    requires |ListsFor(db, itineraryId, user)| >= 1
    ensures var r := CreatePackingList(db, itineraryId, user, items, NoFaults, NoFaults);
            && r.result == Ok(None)
            && |ListsFor(r.db, itineraryId, user)| == |ListsFor(db, itineraryId, user)| + 1
  {
    var ins := InsertPackingList(db, itineraryId, user, items, NoFaults);
    FilterAppendOne(db.lists, ListRow(db.nextId, itineraryId, user), itineraryId, user);
  }

  /** As written, every operation fails at its first statement as a
      faulting database would, with the tables untouched: an owned
      itinerary, a stored day or a stored packing list is never read,
      where the awaited client reads it. */
  lemma UnawaitedClientFailsEverything(db: Db, id: string, user: string,
                                       patch: GenerateRoute.ItineraryRecord -> GenerateRoute.ItineraryRecord,
                                       dayId: string, itineraryId: string, activities: seq<Entry>,
                                       x: Gemini.Activity, index: int, items: seq<PackingGenerator.PackingItem>,
                                       later: Option<Error>, readFaults: Faults)
    ensures var u := Some(UnawaitedClient);
            && GetItinerary(db, id, user, u) == Err(UnawaitedClient)
            && UpdateItinerary(db, id, user, patch, u) == Step(db, Err(UnawaitedClient))
            && DeleteItinerary(db, id, user, u) == Step(db, Err(UnawaitedClient))
            && GetDay(db, dayId, itineraryId, u) == Err(UnawaitedClient)
            && UpdateDay(db, dayId, itineraryId, activities, u) == Step(db, Err(UnawaitedClient))
            && DeleteDay(db, dayId, itineraryId, u) == Step(db, Err(UnawaitedClient))
            && AddActivity(db, dayId, itineraryId, x, u, later) == Step(db, Err(UnawaitedClient))
            && UpdateActivity(db, dayId, itineraryId, index, x, u, later) == Step(db, Err(UnawaitedClient))
            && DeleteActivity(db, dayId, itineraryId, index, u, later) == Step(db, Err(UnawaitedClient))
            && ReorderActivities(db, dayId, itineraryId, activities, u) == Step(db, Err(UnawaitedClient))
            && GetPackingList(db, itineraryId, user, Faults(u, later)) == Err(UnawaitedClient)
            && CreatePackingList(db, itineraryId, user, items, Faults(u, later), readFaults) == Step(db, Err(UnawaitedClient))
    ensures |OwnedItineraries(db, id, user)| == 1 ==>
              GetItinerary(db, id, user, None).Ok? && GetItinerary(db, id, user, Some(UnawaitedClient)).Err?
  {
    assert UnawaitedClient.message != "PGRST116" by {
      assert UnawaitedClient.message[0] == 't';
    }
  }

  /** A fault other than `PGRST116` while reading the list is thrown; the
      `PGRST116` code itself reads as "no list". */
  lemma ReadFaultClassified(db: Db, itineraryId: string, user: string, e: Error)
    ensures GetPackingList(db, itineraryId, user, Faults(Some(e), None)) ==
            if e.message == "PGRST116" then Ok(None) else Err(e)
  {
  }
}

=== FILE: string_order.dfy ===
/** Lexicographic order by Unicode code point, standing in for the default
    order of `Array.prototype.sort` (UTF-16 code units) and of a text
    `order by` (the database collation). */
module StringOrder {
  import Seqs

  /** `a` sorts no later than `b`. */
  predicate StrLeq(a: string, b: string)
    decreases |a|
  {
    |a| == 0 || (|b| > 0 && (a[0] < b[0] || (a[0] == b[0] && StrLeq(a[1..], b[1..]))))
  }

  lemma {:induction false} StrLeqTotal(a: string, b: string)
    ensures StrLeq(a, b) || StrLeq(b, a)
    decreases |a|
  {
    if |a| > 0 && |b| > 0 && a[0] == b[0] {
      StrLeqTotal(a[1..], b[1..]);
    }
  }

  lemma {:induction false} StrLeqAntisymmetric(a: string, b: string)
    requires StrLeq(a, b) && StrLeq(b, a)
    ensures a == b
    decreases |a|
  {
    if |a| > 0 {
      StrLeqAntisymmetric(a[1..], b[1..]);
      assert a == [a[0]] + a[1..] && b == [b[0]] + b[1..];
    }
  }

  lemma {:induction false} StrLeqTransitive(a: string, b: string, c: string)
    requires StrLeq(a, b) && StrLeq(b, c)
    ensures StrLeq(a, c)
    decreases |a|
  {
    if |a| > 0 && a[0] == b[0] && b[0] == c[0] {
      StrLeqTransitive(a[1..], b[1..], c[1..]);
    }
  }

  lemma StrLeqIsTotal()
    ensures Seqs.Total(StrLeq)
  {
    forall a, b
      ensures StrLeq(a, b) || StrLeq(b, a)
    {
      StrLeqTotal(a, b);
    }
  }

  /** `xs.sort()` on strings. */
  function SortStrings(xs: seq<string>): (r: seq<string>)
    ensures multiset(r) == multiset(xs)
    ensures Seqs.Sorted(r, StrLeq)
  {
    StrLeqIsTotal();
    Seqs.Sort(xs, StrLeq)
  }
}

=== FILE: text.dfy ===
/** Strings as the source's JavaScript sees them: the regular-expression
    character classes it uses, prefix and substring search, trimming,
    joining, lower-casing and decimal rendering of integers. */
module Text {
  import opened Wrappers

  /** `\s` in a JavaScript regular expression: the WhiteSpace and
      LineTerminator code points of ECMAScript (tab, line feed, vertical
      tab, form feed, carriage return, space, no-break space, the Unicode
      space separators, line and paragraph separators, and the byte order
      mark). */
  predicate IsSpace(c: char) {
    var n := c as int;
    || 9 <= n <= 13 || n == 32 || n == 0xA0 || n == 0x1680 || 0x2000 <= n <= 0x200A
    || n == 0x2028 || n == 0x2029 || n == 0x202F || n == 0x205F || n == 0x3000 || n == 0xFEFF
  }

  /** Every character of `s` is whitespace. */
  predicate AllSpace(s: string) {
    forall k | 0 <= k < |s| :: IsSpace(s[k])
  }

  /** `\w` in a JavaScript regular expression (no `u` flag). */
  predicate IsWordChar(c: char) {
    var n := c as int;
    (97 <= n <= 122) || (65 <= n <= 90) || (48 <= n <= 57) || n == 95
  }

  /** The characters `.` refuses and before which a multiline `$` matches. */
  predicate IsLineTerminator(c: char) {
    var n := c as int;
    n == 10 || n == 13 || n == 0x2028 || n == 0x2029
  }

  predicate NotLineTerminator(c: char) {
    !IsLineTerminator(c)
  }

  predicate StartsWith(s: string, prefix: string) {
    |prefix| <= |s| && s[..|prefix|] == prefix
  }

  /** `s.includes(sub)`: `sub` occurs in `s` at some position. */
  predicate Contains(s: string, sub: string)
    decreases |s|
  {
    StartsWith(s, sub) || (|s| > 0 && Contains(s[1..], sub))
  }

  /** The length of the longest prefix of `s` whose characters all satisfy
      `p` -- what a greedy `p*` consumes. */
  function Span(s: string, p: char -> bool): (n: nat)
    ensures n <= |s|
    ensures forall k | 0 <= k < n :: p(s[k])
    ensures n < |s| ==> !p(s[n])
  {
    if |s| == 0 || !p(s[0]) then 0 else 1 + Span(s[1..], p)
  }

  /** `Span` is the length of the run when the run's end is known. */
  lemma SpanExact(t: string, p: char -> bool, n: nat)
    requires n <= |t|
    requires forall k | 0 <= k < n :: p(t[k])
    requires n < |t| ==> !p(t[n])
    ensures Span(t, p) == n
  {
  }

  /** The first index from `i` on whose character does not satisfy `p`
      (or the end of `s`): where a greedy `p*` starting at `i` stops. */
  function RunEnd(s: string, i: nat, p: char -> bool): (j: nat)
    requires i <= |s|
    ensures i <= j <= |s|
    ensures forall k | i <= k < j :: p(s[k])
    ensures j < |s| ==> !p(s[j])
    decreases |s| - i
  {
    if i == |s| || !p(s[i]) then i else RunEnd(s, i + 1, p)
  }

  /** `RunEnd` is the end of the run when that end is known. */
  lemma {:induction false} RunEndExact(s: string, i: nat, p: char -> bool, j: nat)
    requires i <= j <= |s|
    requires forall k | i <= k < j :: p(s[k])
    requires j < |s| ==> !p(s[j])
    ensures RunEnd(s, i, p) == j
    decreases j - i
  {
    if i < j {
      RunEndExact(s, i + 1, p, j);
    }
  }

  lemma DropAppend(a: string, b: string)
    ensures (a + b)[|a|..] == b
  {
  }

  lemma TakeAppend(a: string, b: string)
    ensures (a + b)[..|a|] == a
  {
  }

  /** `s.indexOf(sub)` as an option: the first position at which `sub` occurs. */
  function IndexOf(s: string, sub: string): (r: Option<nat>)
    ensures r.Some? ==> r.value + |sub| <= |s| && StartsWith(s[r.value..], sub)
    ensures r.Some? ==> forall k | 0 <= k < r.value :: !StartsWith(s[k..], sub)
    ensures r.None? <==> !Contains(s, sub)
    decreases |s|
  {
    if StartsWith(s, sub) then Some(0)
    else if |s| == 0 then None
    else
      match IndexOf(s[1..], sub)
      case None => None
      case Some(i) =>
        assert forall k | 1 <= k <= i :: s[k..] == s[1..][k - 1..];
        Some(i + 1)
  }

  /** An occurrence at a known position is an occurrence. */
  lemma {:induction false} ContainsAt(s: string, sub: string, a: nat)
    requires a <= |s| && StartsWith(s[a..], sub)
    ensures Contains(s, sub)
    decreases a
  {
    if a > 0 {
      assert s[1..][a - 1..] == s[a..];
      ContainsAt(s[1..], sub, a - 1);
    }
  }

  /** No position of `s` starts an occurrence of `w`. */
  lemma {:induction false} NoOccurrence(s: string, w: string)
    requires forall k | 0 <= k <= |s| :: !StartsWith(s[k..], w)
    ensures !Contains(s, w)
    decreases |s|
  {
    assert s[0..] == s;
    if |s| > 0 {
      forall k | 0 <= k <= |s| - 1
        ensures !StartsWith(s[1..][k..], w)
      {
        assert s[1..][k..] == s[k + 1..];
      }
      NoOccurrence(s[1..], w);
    }
  }

  /** A string lacking one of `w`'s characters does not contain `w`. */
  lemma {:induction false} MissingChar(s: string, w: string, c: char)
    requires c in w && c !in s
    ensures !Contains(s, w)
    decreases |s|
  {
    if |w| <= |s| {
      assert c !in s[..|w|];
    }
    if |s| > 0 {
      MissingChar(s[1..], w, c);
    }
  }

  /** `s` without its trailing `\s` characters (the end of `String.prototype.trim`). */
  function TrimEnd(s: string): (r: string)
    ensures StartsWith(s, r)
    ensures forall k | |r| <= k < |s| :: IsSpace(s[k])
    ensures |r| > 0 ==> !IsSpace(r[|r| - 1])
  {
    if |s| == 0 || !IsSpace(s[|s| - 1]) then s else TrimEnd(s[..|s| - 1])
  }

  /** `xs.join(sep)`. */
  function Join(xs: seq<string>, sep: string): (r: string)
    ensures |xs| == 1 ==> r == xs[0]
    ensures |xs| > 1 ==> StartsWith(r, xs[0] + sep)
  {
    if |xs| == 0 then ""
    else if |xs| == 1 then xs[0]
    else xs[0] + sep + Join(xs[1..], sep)
  }

  /** ASCII lower-casing of one character. */
  function LowerChar(c: char): char {
    if 'A' <= c <= 'Z' then (c as int + 32) as char else c
  }

  /** `s.toLowerCase()` on the ASCII letters. */
  function Lower(s: string): (r: string)
    ensures |r| == |s|
    ensures forall k | 0 <= k < |s| :: r[k] == LowerChar(s[k])
  {
    seq(|s|, k requires 0 <= k < |s| => LowerChar(s[k]))
  }

  lemma LowerIdempotent(s: string)
    ensures Lower(Lower(s)) == Lower(s)
  {
  }

  predicate IsDigit(c: char) {
    '0' <= c <= '9'
  }

  predicate AllDigits(s: string) {
    forall k | 0 <= k < |s| :: IsDigit(s[k])
  }

  function DigitChar(d: nat): char
    requires d < 10
  {
    ('0' as int + d) as char
  }

  function DigitValue(c: char): nat
    requires IsDigit(c)
  {
    c as int - '0' as int
  }

  /** The decimal rendering `${n}` of a natural number. */
  function NatToString(n: nat): (r: string)
    ensures |r| > 0 && AllDigits(r)
    ensures |r| > 1 ==> r[0] != '0'
  {
    if n < 10 then [DigitChar(n)] else NatToString(n / 10) + [DigitChar(n % 10)]
  }

  /** The value of a string of decimal digits. */
  function ParseDigits(s: string): nat
    requires AllDigits(s)
  {
    if |s| == 0 then 0 else ParseDigits(s[..|s| - 1]) * 10 + DigitValue(s[|s| - 1])
  }

  /** Reading back the rendering of `n` gives `n`. */
  lemma {:induction false} ParseNatToString(n: nat)
    ensures ParseDigits(NatToString(n)) == n
  {
    if n >= 10 {
      var r := NatToString(n);
      assert r[..|r| - 1] == NatToString(n / 10);
      ParseNatToString(n / 10);
    }
  }

  /** Distinct numbers render to distinct strings. */
  lemma NatToStringInjective(a: nat, b: nat)
    requires NatToString(a) == NatToString(b)
    ensures a == b
  {
    ParseNatToString(a);
    ParseNatToString(b);
  }

  /** The decimal rendering `${n}` of an integer, with a leading `-` when negative. */
  function IntToString(n: int): (r: string)
    ensures |r| > 0
    ensures n < 0 <==> r[0] == '-'
  {
    if n < 0 then "-" + NatToString(-n) else NatToString(n)
  }
}

=== FILE: welcome_tour.dfy ===
/** The onboarding dialog of components/onboarding/welcome-tour.tsx: four
    steps, a "Next" button that turns into "Get Started" on the last one, a
    "Skip Tour" button, and a `hasSeenOnboarding` flag in local storage
    that keeps the dialog closed once the tour was finished or skipped. */
module WelcomeTour {
  import opened Wrappers

  const StepCount: nat := 4
  const LastStep: nat := StepCount - 1

  /** Whether the dialog is open, the step shown, and the stored flag
      (`None` when the key is absent). */
  datatype Tour = Tour(open: bool, step: int, flag: Option<string>)

  predicate StepInRange(t: Tour) {
    0 <= t.step <= LastStep
  }

  /** The mount effect: the dialog opens when the stored flag is falsy,
      that is absent or empty. */
  function Mount(flag: Option<string>): (t: Tour)
    ensures t.open <==> flag.None? || flag == Some("")
    ensures t.step == 0 && t.flag == flag
  {
    Tour(flag.None? || flag == Some(""), 0, flag)
  }

  /** `handleClose` (Skip Tour, or Next on the last step): store the flag
      and close; the step is not reset. */
  function Close(t: Tour): (r: Tour)
    ensures !r.open && r.flag == Some("true") && r.step == t.step
  {
    t.(open := false, flag := Some("true"))
  }

  /** `handleNext`. */
  function Next(t: Tour): (r: Tour)
    ensures t.step < LastStep ==> r == t.(step := t.step + 1)
    ensures t.step >= LastStep ==> r == Close(t)
  {
    if t.step < LastStep then t.(step := t.step + 1) else Close(t)
  }

  /** The dialog's own close request (Escape, a click outside): `setOpen`
      only, so the flag stays unset and the tour shows again next time. */
  function Dismiss(t: Tour): (r: Tour)
    ensures !r.open && r.flag == t.flag && r.step == t.step
  {
    t.(open := false)
  }

  datatype Event = NextClicked | SkipClicked | Dismissed

  function Apply(t: Tour, e: Event): Tour {
    match e
    case NextClicked => Next(t)
    case SkipClicked => Close(t)
    case Dismissed => Dismiss(t)
  }

  function Run(t: Tour, events: seq<Event>): Tour
    decreases |events|
  {
    if |events| == 0 then t else Run(Apply(t, events[0]), events[1..])
  }

  /** No event moves the step out of the four steps. */
  lemma ApplyKeepsStep(t: Tour, e: Event)
    requires StepInRange(t)
    ensures StepInRange(Apply(t, e))
  {
  }

  /** From mounting on, whatever the visitor clicks, the step shown is one
      of the four. */
  lemma {:induction false} RunKeepsStep(t: Tour, events: seq<Event>)
    requires StepInRange(t)
    ensures StepInRange(Run(t, events))
    decreases |events|
  {
    if |events| > 0 {
      ApplyKeepsStep(t, events[0]);
      RunKeepsStep(Apply(t, events[0]), events[1..]);
    }
  }

  /** Four clicks on Next from a fresh tour walk through the steps and then
      close it for good: mounting again keeps the dialog closed. */
  lemma FourNextsFinish(flag: Option<string>)
    ensures var t := Run(Mount(flag), [NextClicked, NextClicked, NextClicked, NextClicked]);
            && !t.open && t.step == LastStep && t.flag == Some("true")
            && !Mount(t.flag).open
  {
    var t0 := Mount(flag);
    assert Run(t0, [NextClicked, NextClicked, NextClicked, NextClicked])
        == Run(Next(t0), [NextClicked, NextClicked, NextClicked]);
    assert Run(Next(t0), [NextClicked, NextClicked, NextClicked])
        == Run(Next(Next(t0)), [NextClicked, NextClicked]);
    assert Run(Next(Next(t0)), [NextClicked, NextClicked])
        == Run(Next(Next(Next(t0))), [NextClicked]);
  }

  /** Finishing or skipping keeps the tour away on later visits; a dismissal
      does not. */
  lemma ReopensOnlyAfterDismissal(t: Tour)
    requires t.flag.None?
    ensures !Mount(Close(t).flag).open
    ensures Mount(Dismiss(t).flag).open
  {
  }

  /** The primary button's label. */
  function Label(step: int): (s: string)
    ensures s == "Next" <==> step < LastStep
    ensures s != "Next" ==> s == "Get Started"
  {
    if step < LastStep then "Next" else "Get Started"
  }

  /** Which step dots are highlighted. */
  function Dots(step: int): (d: seq<bool>)
    ensures |d| == StepCount
    ensures forall i | 0 <= i < StepCount :: d[i] <==> i == step
  {
    seq(StepCount, i requires 0 <= i < StepCount => i == step)
  }

  function Highlighted(d: seq<bool>): nat {
    if |d| == 0 then 0 else (if d[0] then 1 else 0) + Highlighted(d[1..])
  }

  /** Exactly one dot is highlighted on every step of the tour. */
  lemma OneDot(step: int)
    requires 0 <= step <= LastStep
    ensures Highlighted(Dots(step)) == 1
  {
    var d := Dots(step);
    assert Highlighted(d[4..]) == 0;
    assert d[3..][1..] == d[4..];
    assert Highlighted(d[3..]) == (if step == 3 then 1 else 0);
    assert d[2..][1..] == d[3..];
    assert Highlighted(d[2..]) == (if step >= 2 then 1 else 0);
    assert d[1..][1..] == d[2..];
    assert Highlighted(d[1..]) == (if step >= 1 then 1 else 0);
  }
}

=== FILE: wrappers.dfy ===
/** Optional values and success/failure results, used wherever the source
    returns `null`/`undefined` or throws. */
module Wrappers {

  datatype Option<+T> = None | Some(value: T) {

    /** Returns the wrapped value, or `default` when there is none
        (JavaScript's `x ?? default`). */
    function GetOr(default: T): T {
      match this
      case Some(v) => v
      case None => default
    }
  }

  /** An error as the source throws it: only its message is observable. */
  datatype Error = Error(message: string)

  datatype Result<+T> = Ok(value: T) | Err(error: Error) {

    predicate IsFailure() {
      Err?
    }

    function PropagateFailure<U>(): Result<U>
      requires Err?
    {
      Err(error)
    }

    function Extract(): T
      requires Ok?
    {
      value
    }
  }
}
